=== FILE: README.md ===
# azul layout, text input and calculator — a Dafny model

This project models three parts of the azul GUI toolkit and proves properties of them.

- **The flex-box layout solver** (`azul-layout/src/old/layout_solver.rs`). It runs in four steps:
  - it resolves each node's `width` / `min-width` / `max-width` into a size constraint;
  - it bubbles the children's flex-basis up into each parent's minimum inner size;
  - it distributes the free space with `flex-grow`, root first. This is an iterative loop that takes away the children that would outgrow their maximum;
  - it places the children along the main axis (with `justify-content` and reversed directions) and the cross axis. Absolutely positioned children are placed against their anchor.

  The incremental relayout (`do_the_relayout`) is also modelled:
  - it filters the changed properties;
  - it turns them into "recalculate / reposition / bubble" marks with its rule table;
  - it re-bubbles the changed minimum sizes, re-grows and repositions the marked parents;
  - it reports the nodes that changed. The offsets map of the changed nodes is built by a separate step (`OffsetsToRecalc`, and `OffsetsToRecalcAsWritten` as written), which the relayout's result does not include.
- **The text-input widget** (`azul-dll/src/widgets/text_input.rs`):
  - the editing state (text, cursor, selection);
  - typed characters and virtual keys;
  - the commit-if-valid callbacks, which apply a transition to a copy, ask the user's validator, and take the step only when it says yes.
- **The calculator example** (`examples/rust/calculator.rs`):
  - the operand stack and its display;
  - the arithmetic;
  - the event state machine (clear, sign, percent, equal sign, point, digits, operators).

Sizes and positions are `real`s: single-precision rounding is not modelled. Where the solver divides by zero, the `Floats` module models what the float arithmetic does.

Panics are modelled as an explicit outcome, with the semantics of a build with overflow checks:
- a `usize` subtraction below zero;
- a vector index out of range;
- an `unreachable!()`.

The layout members follow a build without debug assertions. The one `debug_assert!` of the modelled code, that the root's grown part is zero when growing starts, is modelled separately by `FlexGrow.ApplyFlexGrowAsWritten` (see "Findings").

The layout tree is an arena in pre-order: node 0 is the root, and every child has a larger id than its parent (`LayoutTree.Tree.Valid`).

Several places in the source do not do what their comments or the surrounding design evidently intend. Each is modelled twice:
- an `AsWritten` member follows the code, with a lemma exhibiting the discrepancy;
- the corrected member, which the rest of the model uses, carries the intended property (see "Findings").

Modules and files:

| file | module | part |
|---|---|---|
| wrappers.dfy | Wrappers | `Option` |
| tree.dfy | LayoutTree | node arena, per-axis size record, nearest positioned ancestor |
| constraints.dfy | Constraints | `determine_preferred_width` / `_height` |
| bubble.dfy | Bubble | fresh size records, bubbling the inner sizes |
| floats.dfy | Floats | infinities and NaN of the growing loop |
| flexgrow.dfy | FlexGrow | main- and cross-axis distribution, the walk over the parents |
| positions.dfy | Positions | main- and cross-axis placement, absolute placement, origin |
| finalize.dfy | Finalize | overflow, text alignment, the offsets provider |
| rebubble.dfy | Rebubble | incremental re-bubbling during relayout |
| relayout.dfy | Relayout | `do_the_relayout` |
| textinput.dfy | TextInput | text-input state machine and callbacks |
| calculator.dfy | CalculatorLogic | calculator logic |

## Model

| member | source | states |
|---|---|---|
| Constraints.AbsoluteBounds | azul-layout/src/old/layout_solver.rs:101-112 | with both bounds set and min not below max, the maximum serves as both bounds; otherwise the bounds are kept; the resulting lower bound never exceeds the upper one |
| Constraints.ChosenSize | azul-layout/src/old/layout_solver.rs:114-123 | an exact size wins; otherwise the intrinsic size is taken only when it lies strictly inside the bounds (0 and `f32::MAX` when absent) |
| Constraints.DeterminePreferred | azul-layout/src/old/layout_solver.rs:93-166 | a chosen size becomes `EqualTo`, clamped by the bounds; without one the bounds become `Between` (0 and `f32::MAX` filling in) or `Unconstrained` |
| Constraints.ExactEqualToMinIsUnconstrained | azul-layout/src/old/layout_solver.rs:125-137 | an exact size equal to the minimum falls through to the `Unconstrained` arm |
| Constraints.MaxWinsOverMin | azul-layout/src/old/layout_solver.rs:101-112 | when min-width exceeds max-width, the range collapses onto the maximum |
| Bubble.FreshRect | azul-layout/src/old/layout_solver.rs:253-287 | a fresh record carries the resolved constraint and the offsets, with zero grown part and zero minimum inner size |
| Bubble.SumSeesOnlyInFlowBasis | azul-layout/src/old/layout_solver.rs:661-673 | the children's summed flex-basis depends only on the in-flow children's flex-basis |
| Bubble.BubbledInnerSize | azul-layout/src/old/layout_solver.rs:320-339 | an exact parent takes its size minus padding; an unconstrained parent takes the children's sum; a range takes max when the sum exceeds `max - padding`, otherwise min when the sum is below `min + padding`, otherwise the sum |
| Bubble.BubbleClampsIntoRange | azul-layout/src/old/layout_solver.rs:325-334 | without padding the bubbled size lies in the range and equals the sum when the sum does |
| Bubble.BubblePass | azul-layout/src/old/layout_solver.rs:297-344 | the inside-out pass sets the minimum inner size of every listed parent from its children and leaves every other record unchanged |
| Bubble.BubbledAtIgnoresMinInner | azul-layout/src/old/layout_solver.rs:253-287 | a node's bubbled size reads only constraints and margins, so records that differ only in their stored minimum inner size give the same value |
| FlexGrow.AbsoluteSize | azul-layout/src/old/layout_solver.rs:451-469 | an absolutely positioned child takes its exact size, or its anchor's width held within its range |
| FlexGrow.AbsoluteSizeIsClamp | azul-layout/src/old/layout_solver.rs:451-469 | for an ordered range, that size is the anchor width clamped into the range |
| FlexGrow.StartSize | azul-layout/src/old/layout_solver.rs:376-473 | exact children start at their size, in-flow children at their minimum needed space, absolute children at their absolute size |
| FlexGrow.MainStart | azul-layout/src/old/layout_solver.rs:376-473 | every child of the parent is set to its start size, and only the grown parts of the children change |
| FlexGrow.Pool | azul-layout/src/old/layout_solver.rs:415-449 | the growing pool is exactly the in-flow children without an exact size |
| FlexGrow.GrowRound | azul-layout/src/old/layout_solver.rs:509-536 | one round gives every pool child its grown size and changes nothing else |
| FlexGrow.SplitViolators | azul-layout/src/old/layout_solver.rs:509-530 | the pool is split exactly into the children that would outgrow their maximum this round and the rest |
| FlexGrow.RoundWith | azul-layout/src/old/layout_solver.rs:509-553 | the children that hit their maximum leave the pool, the round ends the loop exactly when nobody does, and the space drops by exactly the sizes of the children that leave |
| FlexGrow.GrowStep | azul-layout/src/old/layout_solver.rs:488-555 | a round either ends the loop or strictly shrinks the pool, and touches only pool children; a child that leaves the pool has its maximum; the space drops by the sizes of the children that leave; a round that ends the loop hands out all the space |
| FlexGrow.SplitSums | azul-layout/src/old/layout_solver.rs:519-553 | the violators and the rest together account for every pool child's size once |
| FlexGrow.FullRoundFills | azul-layout/src/old/layout_solver.rs:501-541 | a round in which nobody hits a maximum hands out exactly the available space |
| FlexGrow.RoundWithoutViolators | azul-layout/src/old/layout_solver.rs:509-536 | without violators a round hands out the share times the summed factors |
| FlexGrow.GrowConserves | azul-layout/src/old/layout_solver.rs:488-555 | whenever the loop ends on a round in which nobody hits a maximum, the pool's sizes add up to exactly the available space, capped children included |
| FlexGrow.ConservedByRound | azul-layout/src/old/layout_solver.rs:540-553 | a capped round keeps the books: the capped sizes plus what the rest of the loop hands out equal the space before the round |
| FlexGrow.ViolatorEndsAtMax | azul-layout/src/old/layout_solver.rs:519-553 | a child that hits its maximum in a round ends the loop at exactly its maximum |
| FlexGrow.UncappedEndsOnFullRound | azul-layout/src/old/layout_solver.rs:488-541 | without maximums, with space and a non-zero factor sum, the loop ends on its first round |
| FlexGrow.GrowLoop | azul-layout/src/old/layout_solver.rs:488-555 | the loop changes only the grown parts of the pool children; its sizes are given by `GrowConserves`, `ViolatorEndsAtMax` and `GrowRespectsMax` |
| FlexGrow.GrowPool | azul-layout/src/old/layout_solver.rs:488-555 | the imperative loop with a mutable pool computes the same sizes as the recursive definition |
| FlexGrow.GrowRespectsMax | azul-layout/src/old/layout_solver.rs:488-555 | with non-negative factors, every pool child ends non-negative and at most at its maximum |
| FlexGrow.RoundInRange | azul-layout/src/old/layout_solver.rs:509-536 | a round with a non-negative share keeps every pool child within zero and its maximum |
| FlexGrow.GrowFillsAvailable | azul-layout/src/old/layout_solver.rs:488-555 | without maximums and with a non-zero factor sum, the pool's sizes add up to exactly the available space |
| FlexGrow.UncappedRound | azul-layout/src/old/layout_solver.rs:501-536 | without maximums no child violates, and every child is sized share times factor |
| FlexGrow.UncappedLoop | azul-layout/src/old/layout_solver.rs:488-555 | without maximums the loop ends after its first round, at the even share of the available space |
| FlexGrow.EvenShareTotal | azul-layout/src/old/layout_solver.rs:509-536 | without maximums one round hands out the share times the pool's summed factors |
| FlexGrow.CappedChildExample | azul-layout/src/old/layout_solver.rs:488-555 | 300 px over three children with factor 1, the first capped at 50 px, gives 50, 125 and 125 |
| FlexGrow.GrownSizeDropsMinimumExample | azul-layout/src/old/layout_solver.rs:531-535 | a child at its 40 px minimum, sharing 60 px with an equal sibling, ends at 30 px: the grown size replaces the minimum rather than adding to it |
| FlexGrow.GrownTotalAsWritten | azul-layout/src/old/layout_solver.rs:501-534 | the round in single precision: a zero factor sum makes the share infinite or not a number |
| FlexGrow.AsWrittenAgreesWhenShareable | azul-layout/src/old/layout_solver.rs:501-534 | with a non-zero factor sum, the single-precision round equals the real-valued one |
| FlexGrow.ZeroFactorsGiveNaN | azul-layout/src/old/layout_solver.rs:501-534 | all remaining factors zero with space to share: the grown size is NaN |
| FlexGrow.ZeroFactorsKeepStart | azul-layout/src/old/layout_solver.rs:491-506 | in the corrected loop, all factors zero leaves every child at its start size |
| FlexGrow.FlexGrowFactor | azul-layout/src/old/layout_solver.rs:1127-1141 | a configured factor is kept when non-negative and becomes 0 when negative; absent, the default applies |
| FlexGrow.FlexGrows | azul-layout/src/old/layout_solver.rs:1127-1141 | the factor of every node, all non-negative |
| FlexGrow.DistributeMain | azul-layout/src/old/layout_solver.rs:360-556 | exact children get their size, absolute children their absolute size, and the pool never exceeds its maximums; only the children's grown parts change; the pool's sizes add up to the parent's inner size less the in-flow children's minimum space, without maximums among the growing children or, with maximums, whenever the growing ends on a round in which nobody hits a maximum |
| FlexGrow.InFlowMinSpace | azul-layout/src/old/layout_solver.rs:378-425 | the space taken before growing: nothing when every child is absolutely positioned, never negative for well-formed constraints |
| FlexGrow.InFlowMinSpaceIgnoresAbsolute | azul-layout/src/old/layout_solver.rs:393-425 | absolutely positioned children and grown sizes do not change the space the in-flow children take |
| FlexGrow.PoolSeesPreferred | azul-layout/src/old/layout_solver.rs:412-425 | which children grow depends only on their constraints and positions, not on their sizes |
| FlexGrow.MainFrame | azul-layout/src/old/layout_solver.rs:376-470 | only the children's grown parts change; exact children get their size, absolute children their absolute size |
| FlexGrow.MainConserves | azul-layout/src/old/layout_solver.rs:376-555 | whenever the growing ends on a round in which nobody hits a maximum, the pool's sizes add up to the space left after the minimum space |
| FlexGrow.MainBudget | azul-layout/src/old/layout_solver.rs:376-534 | without maximums among the growing children, the pool's sizes add up to the space left after the minimum space |
| FlexGrow.FillsBudget | azul-layout/src/old/layout_solver.rs:501-534 | growing from the start sizes without maximums hands the pool exactly the space it is given |
| FlexGrow.MainRespectsMax | azul-layout/src/old/layout_solver.rs:360-556 | after the main-axis distribution every pool child is within zero and its maximum |
| FlexGrow.StartInRange | azul-layout/src/old/layout_solver.rs:376-473 | an in-flow child with well-formed constraints starts within zero and its maximum |
| FlexGrow.CrossSize | azul-layout/src/old/layout_solver.rs:589-605 | a child needing more than the parent's inner size takes what it needs; otherwise it takes the smaller of the inner size and its maximum, and the inner size when it has no maximum |
| FlexGrow.CrossSizeIsClamp | azul-layout/src/old/layout_solver.rs:589-605 | for an ordered range, the cross size is the parent's inner size clamped into the range |
| FlexGrow.DistributeCross | azul-layout/src/old/layout_solver.rs:558-611 | in-flow children take their cross size from the parent; absolute children take it from their anchor |
| FlexGrow.RootSize | azul-layout/src/old/layout_solver.rs:620-629 | the root takes the viewport, cut down to its maximum when it has one |
| FlexGrow.AnchorAsWritten | azul-layout/src/old/layout_solver.rs:631-655 | the anchor is the parent if that is positioned (or the root), and otherwise the root |
| FlexGrow.AnchorAsWrittenSkipsPositionedAncestor | azul-layout/src/old/layout_solver.rs:631-655 | a static parent under a positioned grandparent anchors at the root, not at the grandparent |
| FlexGrow.AnchorAsWrittenAgreesNearParent | azul-layout/src/old/layout_solver.rs:631-655 | when the parent is positioned or is a child of the root, the two anchors agree |
| LayoutTree.NearestPositioned | azul-layout/src/old/layout_solver.rs:642-655 | the anchor is reached from the node through static non-root nodes only, and is the root or positioned |
| LayoutTree.NearestPositionedUnique | azul-layout/src/old/layout_solver.rs:642-655 | that anchor is unique |
| FlexGrow.GrowParent | azul-layout/src/old/layout_solver.rs:631-655 | one parent distributes along the main or the cross axis; only its children's grown parts change |
| FlexGrow.Walk | azul-layout/src/old/layout_solver.rs:631-655 | the root-first walk changes only the grown parts of the children of marked parents |
| FlexGrow.ApplyFlexGrow | azul-layout/src/old/layout_solver.rs:613-656 | the root gets its size, and otherwise only the grown parts of the children of marked parents change (a build without debug assertions) |
| FlexGrow.ApplyFlexGrowAsWritten | azul-layout/src/old/layout_solver.rs:613-629 | with debug assertions: panics exactly when the root's grown part is not zero on entry, and otherwise grows as `ApplyFlexGrow` |
| FlexGrow.RegrowAsWrittenPanics | azul-layout/src/old/layout_solver.rs:613-629 | growing an arena that a layout has already grown panics whenever the root's size differs from its minimum inner size |
| FlexGrow.ApplyFlexGrowIgnoresRootGrow | azul-layout/src/old/layout_solver.rs:613-629 | without the assertion, the root's incoming grown part does not matter: the result is the same |
| Positions.AbsoluteX | azul-layout/src/old/layout_solver.rs:771-819 | an absolute child sits at the anchor's start plus its start offset and margin; with an end offset it sits against the anchor's end |
| Positions.MainX | azul-layout/src/old/layout_solver.rs:857-875 | under start packing a child sits after the space used before it; under the space-distributing modes at the content start |
| Positions.CenterPutsLoneChildMidway | azul-layout/src/old/layout_solver.rs:857-875 | a single centred child has its midpoint at the parent's content midpoint |
| Positions.PlaceMain | azul-layout/src/old/layout_solver.rs:821-880 | the pass moves only the visited children and uses up exactly their in-flow extent |
| Positions.PlaceMainAt | azul-layout/src/old/layout_solver.rs:821-880 | each visited child sits after the in-flow extent of the children visited before it |
| Positions.PlaceMainLater | azul-layout/src/old/layout_solver.rs:821-880 | after placing the first child, the loop places a later child exactly as the loop over the remaining children does |
| Positions.ShiftInFlow | azul-layout/src/old/layout_solver.rs:971-982 | every in-flow child moves by the difference, and absolute children stay |
| Positions.VisitOrder | azul-layout/src/old/layout_solver.rs:939-969 | the children are visited once each, reversed for a reversed direction |
| Positions.PlaceCrossAxis | azul-layout/src/old/layout_solver.rs:882-906 | in-flow children sit at the parent's content start plus their margin; absolute children are placed against the anchor's content frame; nothing outside the children moves |
| Positions.PositionChildren | azul-layout/src/old/layout_solver.rs:913-1018 | placing one parent's children moves only those children |
| Positions.StartPacksChildren | azul-layout/src/old/layout_solver.rs:857-878 | under start packing each child sits after the extents of its earlier siblings |
| Positions.StartChildrenAdjacent | azul-layout/src/old/layout_solver.rs:857-878 | consecutive in-flow children touch margin to margin |
| Positions.TowardsEndPacksChildren | azul-layout/src/old/layout_solver.rs:971-982 | when packing towards the end, every child is shifted by the unused space |
| Positions.TowardsEndLastChildFlush | azul-layout/src/old/layout_solver.rs:971-982 | when packing towards the end, the last child ends at the parent's content end |
| Positions.AbsoluteChildrenUseAnchor | azul-layout/src/old/layout_solver.rs:846-853 | the corrected anchor: absolute children are placed against the frame of their nearest positioned ancestor, on both axes (the source's stack, :911-1015, anchors as `FlexGrow.AnchorAsWritten`) |
| Positions.PositionWalk | azul-layout/src/old/layout_solver.rs:913-1018 | the walk moves only the children of parents marked for repositioning |
| Positions.Translate | azul-layout/src/old/layout_solver.rs:1051 | every position moves by the same amount |
| Positions.TranslateBack | azul-layout/src/old/layout_solver.rs:1051 | moving by an amount and back restores the positions |
| Positions.SolvePositions | azul-layout/src/old/layout_solver.rs:1023-1083 | the root moves by the origin; nodes the walk does not touch move only by the origin |
| Finalize.GetOverflow | azul-layout/src/old/layout_solver.rs:1144-1191 | the configured mode (visible by default) on each axis, with an amount exactly when the children's extent is known |
| Finalize.OverflowNegativeIffSticksOut | azul-layout/src/old/layout_solver.rs:1144-1191 | the amount is negative exactly when the children reach past the parent's far edge |
| Finalize.TextAlignment | azul-layout/src/old/layout_solver.rs:2040-2075 | `align-items` flex-start/flex-end map to top/bottom; `text-align` wins over `justify-content`, and start/end map to left/right |
| Finalize.TextAlignmentAxesIndependent | azul-layout/src/old/layout_solver.rs:2040-2075 | the vertical alignment depends only on `align-items`, the horizontal one only on `justify-content` and `text-align`; an explicit `text-align` makes `justify-content` irrelevant |
| Finalize.OffsetsFor | azul-layout/src/old/layout_solver.rs:1667-1679 | the full provider answers every node; the partial one answers exactly the recalculated nodes |
| Finalize.Restrict | azul-layout/src/old/layout_solver.rs:1667-1679 | the partial map holds exactly the listed nodes |
| Finalize.PartialAgreesWithAll | azul-layout/src/old/layout_solver.rs:1667-1679 | on the recalculated nodes the partial provider agrees with the full one, and elsewhere it answers nothing |
| Relayout.FilterChanges | azul-layout/src/old/layout_solver.rs:2209-2226 | a node keeps exactly the changed property types that can trigger a relayout |
| Relayout.LastChangeWins | azul-layout/src/old/layout_solver.rs:2214-2219 | of several changes of one type, the last one is kept |
| Relayout.TriggersIffKept | azul-layout/src/old/layout_solver.rs:2221-2225 | a node is kept exactly when one of its changes can trigger a relayout |
| Relayout.FilterNodes | azul-layout/src/old/layout_solver.rs:2209-2226 | the kept nodes, each with its filtered changes |
| Relayout.NothingToDoIffNoTrigger | azul-layout/src/old/layout_solver.rs:2201-2230 | the relayout returns early exactly when the bounds are unchanged and no change can trigger a relayout |
| Relayout.UpdateAxis | azul-layout/src/old/layout_solver.rs:2305-2418 | the preferred size changes only when a size property changed and the new constraint differs; padding and margin flags follow the changed types |
| Relayout.PlanAxis | azul-layout/src/old/layout_solver.rs:2420-2468 | the rule table: which parents are marked to recalculate, which to reposition, and which nodes to bubble |
| Relayout.UpdateStyles | azul-layout/src/old/layout_solver.rs:2245-2264 | the stored position, flex-grow, direction and justify-content change only for nodes with changes |
| Relayout.PlanNode | azul-layout/src/old/layout_solver.rs:2283-2468 | a changed record of the node lands in the changed set; non-geometric changes leave everything as it was |
| Relayout.RuleWalk | azul-layout/src/old/layout_solver.rs:2283-2489 | only non-leaf nodes with changes are updated, and every changed record lands in the changed set |
| Relayout.StartPlan | azul-layout/src/old/layout_solver.rs:2273-2280 | the root is marked for recalculation exactly when the viewport changed along the axis |
| Relayout.AddMinInner | azul-layout/src/old/layout_solver.rs:2500 | each record's minimum inner size grows by its re-bubbled delta, and nothing else changes |
| Relayout.ResizeAxis | azul-layout/src/old/layout_solver.rs:2493-2567 | every record the re-bubbling or the flex-grow pass changes lies in the changed set; the root keeps its preferred size and its total becomes the root size for the viewport |
| Relayout.GrowAfterBubble | azul-layout/src/old/layout_solver.rs:2500-2567 | once the bubbled deltas sit only at marked nodes, growing the marked parents' children changes no record outside the changed set, apart from the root's grown part |
| Rebubble.RebubbleAsWritten | azul-layout/src/old/layout_solver.rs:2493-2542 | both re-bubbling loops as written |
| Rebubble.SingleChangeAsWritten | azul-layout/src/old/layout_solver.rs:2496-2542 | one child's change of d reaches its parent as 2d |
| Rebubble.Rebubble | azul-layout/src/old/layout_solver.rs:2493-2542 | every node whose minimum inner size changes is marked for recalculation |
| Rebubble.SingleChangeReachesAncestorsOnce | azul-layout/src/old/layout_solver.rs:2496-2542 | in the corrected version, one child's change of d reaches every ancestor exactly once, and no other node |
| Rebubble.RebubbleIdle | azul-layout/src/old/layout_solver.rs:2493-2542 | with no bubbled nodes nothing changes and nothing more is marked |
| Rebubble.PropagateChain | azul-layout/src/old/layout_solver.rs:2522-2542 | an amount pending at one node reaches that node and all its ancestors, and nothing else |
| Rebubble.SeedSingle | azul-layout/src/old/layout_solver.rs:2496-2506 | a single changed child leaves exactly its delta pending at its parent, marks the parent, and (as written) has already added it there |
| Rebubble.SeedStepCovered | azul-layout/src/old/layout_solver.rs:2496-2506 | one turn of the first loop marks the parent whenever it records or adds a non-zero change, and never unmarks a node |
| Relayout.RepositionAsWritten | azul-layout/src/old/layout_solver.rs:2571-2592 | the stored positions are passed back through the positioning pass, which adds the origin |
| Relayout.RepositionAsWrittenDrifts | azul-layout/src/old/layout_solver.rs:2571-2592 | with nothing to reposition, every node still moves by the origin |
| Relayout.Reposition | azul-layout/src/old/layout_solver.rs:2571-2592 | nodes that are not repositioned move only by the change of the origin |
| Relayout.RepositionIdle | azul-layout/src/old/layout_solver.rs:2571-2592 | with the same origin and nothing marked, the positions stay as they are |
| Relayout.SolveAxis | azul-layout/src/old/layout_solver.rs:2493-2592 | every size record that changes, and every node that moves other than with the origin, is in the changed set; the root's total is the root size for the viewport along the axis |
| Relayout.ChangedSet | azul-layout/src/old/layout_solver.rs:2617-2629 | the reported nodes are the recalculated parents and their children |
| Relayout.ChangedSetIsParentsAndChildren | azul-layout/src/old/layout_solver.rs:2617-2629 | a node is reported exactly when it is a recalculated parent or a child of one |
| Relayout.Relay | azul-layout/src/old/layout_solver.rs:2245-2670 | past the early exit: the bounds are stored; every size or position change is reported; the root's totals are the root sizes for the new bounds; nodes with triggering changes take the current styles and the rest keep theirs; the intrinsic sizes stay |
| Relayout.DoRelayout | azul-layout/src/old/layout_solver.rs:2190-2683 | an early exit changes nothing; otherwise the bounds are stored, every size or position change is reported as changed, the root's totals follow the new bounds, the styles are refreshed exactly for the nodes with triggering changes, and the intrinsic sizes stay |
| Relayout.NonGeometricChangesReportNothing | azul-layout/src/old/layout_solver.rs:2283-2468 | with unchanged bounds, changes of non-geometric properties report no changed node |
| Relayout.CollectOffsets | azul-layout/src/old/layout_solver.rs:2634-2648 | the offsets map holds the listed nodes and their children; the first entry for a node is kept |
| Relayout.OffsetsToRecalcAsWritten | azul-layout/src/old/layout_solver.rs:2631-2648 | the offsets map as written covers exactly the changed set |
| Relayout.OffsetsAsWrittenUseParentData | azul-layout/src/old/layout_solver.rs:2642-2646 | a child of a changed parent gets its offsets from its parent's node data |
| Relayout.OffsetsToRecalc | azul-layout/src/old/layout_solver.rs:2631-2648 | the corrected map covers the changed set, each entry from the node's own data |
| TextInput.GetRange | azul-dll/src/widgets/text_input.rs:446-451 | everything selected is the whole text; a range selection is its own range |
| TextInput.GetRangeWithinText | azul-dll/src/widgets/text_input.rs:446-451 | a selection inside the text gives a range inside the text of the selected length |
| TextInput.DeleteSelectionAsWritten | azul-dll/src/widgets/text_input.rs:575-598 | it panics exactly on an empty text; the tail from `end` is kept only when `end` lies before the last index; the cursor goes after the inserted character |
| TextInput.DeleteSelectionAsWrittenDropsLast | azul-dll/src/widgets/text_input.rs:577-586 | a range ending right before the last character removes that character too |
| TextInput.DeleteSelectionAsWrittenAgreesInside | azul-dll/src/widgets/text_input.rs:587-597 | for a range ending before the last index, it agrees with the corrected deletion |
| TextInput.TypeAsWritten | azul-dll/src/widgets/text_input.rs:460-480 | the character goes in at the cursor (a cursor past the end panics); the cursor moves to at most the old length; select-all is replaced |
| TextInput.TypingAsWrittenReverses | azul-dll/src/widgets/text_input.rs:462-469 | typing "a" then "b" into an empty field gives "ba" |
| TextInput.TypeAsWrittenAgreesBeforeEnd | azul-dll/src/widgets/text_input.rs:462-469 | with the cursor before the end, typing as written agrees with the corrected typing |
| TextInput.KeyAsWritten | azul-dll/src/widgets/text_input.rs:482-573 | Back without a selection deletes at the cursor and panics when the cursor is not before the end; Back with everything selected empties the text; Back with a range goes through `delete_selection` as written; End puts the cursor on the last index; Home, Escape, arrows and Ctrl+A move the cursor or selection only |
| TextInput.BackAsWrittenPanicsWhenEmpty | azul-dll/src/widgets/text_input.rs:493-500 | Back in an empty field without a selection panics |
| TextInput.DeleteSelection | azul-dll/src/widgets/text_input.rs:575-598 | the corrected deletion: the range is replaced by the new character, the cursor goes after it, and the selection is cleared |
| TextInput.Type | azul-dll/src/widgets/text_input.rs:460-480 | the corrected typing: the character goes in at the cursor with the cursor after it, and a selection is replaced |
| TextInput.Key | azul-dll/src/widgets/text_input.rs:482-573 | the corrected keys: Back removes the character before the cursor, everything when all is selected, or the range through `DeleteSelection`; End moves past the last character; Home, Escape, Right, Left and Ctrl+A act as in the source; only Back changes the text |
| TextInput.EndAsWrittenTypesBeforeLast | azul-dll/src/widgets/text_input.rs:462-519 | End as written (:516-519) leaves the cursor on the last character, and typing inserts at the cursor (:462-469), so "ab", End, "c" gives "acb" |
| TextInput.EndThenTypeAppends | azul-dll/src/widgets/text_input.rs:516-519 | after the corrected End, a typed character is appended to the text |
| TextInput.BackAsWrittenDeletesSelectionTwice | azul-dll/src/widgets/text_input.rs:575-598 | `delete_selection` keeps the range selection, so a second Back deletes the same range again |
| TextInput.BackConsumesSelection | azul-dll/src/widgets/text_input.rs:506-508 | the corrected Back on a range clears the selection, leaves the cursor at the range start, and a second Back removes one character at most |
| TextInput.TypeThenBackRestores | azul-dll/src/widgets/text_input.rs:460-510 | typing a character and pressing Back restores the state |
| TextInput.TypeAllInserts | azul-dll/src/widgets/text_input.rs:460-470 | typed characters appear at the cursor in the order typed, with the cursor after them |
| TextInput.CommitIfValid | azul-dll/src/widgets/text_input.rs:632-652 | the proposed state is taken exactly when the validator accepts it, or when there is none |
| TextInput.TypeChangesState | azul-dll/src/widgets/text_input.rs:638-652 | typing always changes the state, so a committed step differs from a rejected one |
| TextInput.OnTextInput | azul-dll/src/widgets/text_input.rs:608-661 | without a character or label node nothing happens; otherwise the typed state is taken exactly when valid, the label shows the text, and the callback's update is returned (do nothing without a callback) |
| TextInput.OnVirtualKeyDown | azul-dll/src/widgets/text_input.rs:663-700 | without a key nothing happens; otherwise the key's state is taken exactly when valid, and the callback's update is returned (do nothing without a callback) |
| CalculatorLogic.CountDotsAppend | examples/rust/calculator.rs:381-395 | appending a point adds one to the count of points, and a digit adds none |
| CalculatorLogic.Display | examples/rust/calculator.rs:242-269 | a leading '-' exactly when negative, "0" for an empty stack, and one '.' exactly when the stack holds a point |
| CalculatorLogic.RenderPoints | examples/rust/calculator.rs:254-265 | the display shows a point exactly once when the stack holds one |
| CalculatorLogic.RenderWithoutDot | examples/rust/calculator.rs:255-257 | without a point, the display is the digits in order |
| CalculatorLogic.RenderSplitsAtFirstDot | examples/rust/calculator.rs:254-265 | the display is the digits before the first point, '.', then all later digits, with later points dropped |
| CalculatorLogic.RenderAppend | examples/rust/calculator.rs:255-264 | one more entry appends its digit, or a point only if it is the first |
| CalculatorLogic.DisplayExample | examples/rust/calculator.rs:240-242 | `[3, 4, Dot, 5]` displays "34.5" |
| CalculatorLogic.UnitsIndex | examples/rust/calculator.rs:278-282 | the index of the units digit: the entry before the first point, or the last entry; it underflows exactly when the stack starts with a point, which a well-formed stack never does |
| CalculatorLogic.PerformOperation | examples/rust/calculator.rs:448-461 | the four operations; division by zero gives nothing |
| CalculatorLogic.PerformOperationInverses | examples/rust/calculator.rs:448-461 | subtracting undoes adding, and dividing undoes multiplying by a non-zero number |
| CalculatorLogic.SymbolInjective | examples/rust/calculator.rs:431-437 | each operator appends its own symbol to the expression line |
| CalculatorLogic.OnInvertSign | examples/rust/calculator.rs:327-332 | the sign flips unless a division by zero happened, and nothing else changes |
| CalculatorLogic.OnDot | examples/rust/calculator.rs:381-395 | a point is added when there is none, after a zero when the operand is empty; the operand stays well formed |
| CalculatorLogic.OnNumber | examples/rust/calculator.rs:396-402 | after the equal sign the calculator starts over with the digit; otherwise the digit is appended |
| CalculatorLogic.OnPercent | examples/rust/calculator.rs:333-353 | after an error nothing happens; without an operator only a refresh; otherwise only the operand changes, and the calculator stays valid |
| CalculatorLogic.OnEqualSign | examples/rust/calculator.rs:354-380 | the pending operation is applied or flags division by zero, and otherwise the operand is kept; after an equal sign only the expression line starts over; the calculator stays valid |
| CalculatorLogic.OnOperator | examples/rust/calculator.rs:403-441 | the operator is recorded, any pending operation applied first, and the symbol appended; the calculator stays valid |
| CalculatorLogic.PercentOfPending | examples/rust/calculator.rs:333-353 | with a pending operator, the operand becomes `left / 100 * num` after + or -, `num / 100` after x or /; any other last event panics |
| CalculatorLogic.PercentValueScaled | examples/rust/calculator.rs:343-347 | a hundred times the percentage is `left * num` after + or -, and `num` after x or / |
| CalculatorLogic.OperatorChains | examples/rust/calculator.rs:417-425 | an operator pressed with an operation pending makes that operation's result the new left operand, or records the division by zero and keeps the left operand |
| CalculatorLogic.PressOperator | examples/rust/calculator.rs:403-441 | an operator pressed with nothing pending makes the operand the pending left operand and empties the operand |
| CalculatorLogic.OperatorThenEqualSign | examples/rust/calculator.rs:354-441 | operator, right operand, equal sign: the result is that one operation on the two operands, or a recorded division by zero, and the expression line shows both operands |
| CalculatorLogic.ProcessEvent | examples/rust/calculator.rs:319-443 | every event keeps the calculator valid, so no `unreachable!()` is reached; Clear resets |
| CalculatorLogic.Run | examples/rust/calculator.rs:319-443 | any sequence of events from a valid calculator stays valid and never panics |
| CalculatorLogic.DisplayGrowsAsTyped | examples/rust/calculator.rs:381-402 | typing a digit appends it to the display; typing the first point appends '.' |
| CalculatorLogic.TypingExample | examples/rust/calculator.rs:381-402 | from the start, 3, 4, point, 5 displays "34.5" |
| CalculatorLogic.NumberStep | examples/rust/calculator.rs:396-402 | a digit event after anything but the equal sign appends the digit and leaves the rest of the calculator alone |
| CalculatorLogic.DotStep | examples/rust/calculator.rs:381-395 | the dot event on a non-empty operand without a point appends one and leaves the rest alone |
| CalculatorLogic.RunStep | examples/rust/calculator.rs:319-443 | running events is the first event's outcome followed by the rest |

## Left out

- Text: text shaping, word positioning and the word caches are not modelled, nor are the intrinsic content sizes they would feed (`preferred_inner_width` is a parameter). Iframes are left out too.
- CSS: the property cache lookups, percentage and `em` resolution, and `box-sizing` are left out. Resolved values arrive as parameters (`SizeConfig`, `NodeStyle`, the `canTrigger` predicate).
- Arithmetic: single-precision rounding and the `as f32` conversions are not modelled; sizes are reals. Only the divisions by zero of the growing loop get float semantics (`Floats`).
- Parallelism: the rayon-parallel iteration is modelled sequentially.
- `position_nodes`: the final rectangle assembly and the scroll-clip hashing (`get_nodes_that_need_scroll_clip`) are left out. The offsets provider and the overflow computation that feed it are modelled.
- Relayout order: the second re-bubbling loop visits nodes by decreasing id instead of by decreasing depth. Both visit every node after all its descendants, and the additions commute.
- Relayout position changes: changes to `position`, `top`, `left`, `right` and `bottom` are stored but ignored by the rule table, as in the source.
- Relayout leaves: changes on leaf nodes never reach the rule table, because the loop runs over non-leaf nodes only. This is kept as written.
- Rebubble.SingleChangeReachesAncestorsOnce: the "each ancestor once" property is proved for a single changed node. For several changes, the corrected version is only proved to mark every node it changes.
- Rebubble.Rebubble: for several changed nodes its contract states only that every node it changes is marked, not that each ancestor receives each change exactly once.
- Finalize.TextAlignment: the default alignments come from the CSS crate, which is not part of this model, so they are parameters.
- Tab: the Tab key only moves the keyboard focus. The focus is not part of the widget state. Shift+Tab moving to the next target rather than the previous one is not modelled.
- Widget shell: the widget's DOM builder, styles, container click and focus callbacks, cursor blinking and selection rendering are left out.
- Clipboard: Ctrl+C, Ctrl+V and Ctrl+X are commented out in the source.
- TextInput.Type: this and `Key` and `DeleteSelection` require the state to be `Valid`, with the cursor within the text and the selection inside it. The source demands nothing, and its out-of-range cases are covered by the `AsWritten` members.
- `max_len`: it is stored but never enforced, in the source as in the model.
- `TextInputSelection::FromTo`: a selection with `from > to` makes `truncate` and `text[max..]` inconsistent. It is modelled as written, with the truncation saturating at the text length.
- Character conversion: `char::from_u32` failing is folded into "no character".
- CalculatorLogic.OnEqualSign: `get_number` and `from_f32` are parameters here and in `OnOperator` and `OnPercent`. The source converts through `f32::to_string`, which is not modelled, so the contracts say where a result goes and not which digits it has.
- `from_f32`: it is typed to return a well-formed operand, so its behaviour on infinities and NaN (the characters of "inf" / "NaN" pushed as digits) is not modelled.
- CalculatorLogic.Display: digits are restricted to 0-9, the only values the buttons and keys produce. A `u8` above 9 would display a non-digit character.
- Calculator shell: the UI layout, button callbacks and keyboard mapping of the calculator example are left out.
- FlexGrow.ApplyFlexGrow: the `debug_assert!` at the start of growing (azul-layout/src/old/layout_solver.rs:613) is not part of its contract; the debug-build panic is modelled by `FlexGrow.ApplyFlexGrowAsWritten`.
- Relayout.ResizeAxis: it grows the stored arena through `ApplyFlexGrow`, so it follows a build without debug assertions; in a debug build every such regrow of a laid-out arena panics (`FlexGrow.RegrowAsWrittenPanics`).
- Relayout.DoRelayout: like `ResizeAxis`, it follows a build without debug assertions and never reports the panic of the root assertion.
- Constraint helpers: `min_needed_space`, `max_available_space`, `is_fixed_constraint` and the flex-basis of a node (`get_flex_basis_*`, called at azul-layout/src/old/layout_solver.rs:671) are defined in files that are not part of this model. They are modelled as `WhConstraint.MinNeededSpace`, `MaxAvailableSpace`, `IsFixed` and `AxisRect.FlexBasis`, from how the solver uses them: the minimum of a range or the exact size; the maximum of a range or the exact size; the minimum plus both margins.
- Overflow: usize overflow of `start + 1` and `saturating_add` at `usize::MAX` is not modelled, since nats are unbounded.

## Findings

| source | as written | input that shows it | evidently intended | confidence | as-written member | corrected member |
|---|---|---|---|---|---|---|
| azul-layout/src/old/layout_solver.rs:2496-2542 | the first loop adds a node's size change to its parent's minimum inner size, and the second loop adds the same pending amount again | one child's minimum needed space grows by d: its parent grows by 2d, its grandparent by d | every ancestor grows by d once | high, not executed | Rebubble.SingleChangeAsWritten | Rebubble.SingleChangeReachesAncestorsOnce |
| azul-layout/src/old/layout_solver.rs:631-655 | the positioned-node stack is popped after each parent, so an absolute child's anchor is its parent if positioned, else the root; the positioning pass uses the same stack (:911-1015, read at :789) | root > positioned node > static node > absolute child: the child anchors at the root | the nearest positioned ancestor, as the stack's comment says | high, not executed | FlexGrow.AnchorAsWrittenSkipsPositionedAncestor | Positions.AbsoluteChildrenUseAnchor |
| azul-layout/src/old/layout_solver.rs:501-534 | the share is the space divided by the summed flex-grow factors of the pool, even when that sum is 0 | two children with `flex-grow: 0` and 100 px to share: 100/0 is infinite, times 0 is NaN | children with factor 0 keep their start size | high, not executed | FlexGrow.ZeroFactorsGiveNaN | FlexGrow.ZeroFactorsKeepStart |
| azul-layout/src/old/layout_solver.rs:2571-2592 | the stored positions, which already include the origin, are passed through the pass that adds the origin again (:1051, :1082) | any relayout with origin (10, 0): every node moves right by 10 px, also when nothing was repositioned | positions move only by the change of the origin | medium, not executed | Relayout.RepositionAsWrittenDrifts | Relayout.RepositionIdle |
| azul-layout/src/old/layout_solver.rs:2642-2646 | a child's offsets are computed from its parent's node data | a changed parent with padding and a child without: the child gets the parent's padding | each node's offsets from its own node data | high, not executed | Relayout.OffsetsAsWrittenUseParentData | Relayout.OffsetsToRecalc |
| azul-dll/src/widgets/text_input.rs:462-469 | after pushing at the end, the cursor becomes `min(cursor + 1, len - 1)`, which is the old cursor | typing "a" then "b" into an empty field gives "ba" | the cursor moves past the typed character | high, not executed | TextInput.TypingAsWrittenReverses | TextInput.TypeAllInserts |
| azul-dll/src/widgets/text_input.rs:493-500 | Back without a selection computes `text.len() - 1` and removes at the cursor | Back in an empty field: `0 - 1` underflows and panics | nothing happens at the start of the text; otherwise the character before the cursor is removed | high, not executed | TextInput.BackAsWrittenPanicsWhenEmpty | TextInput.TypeThenBackRestores |
| azul-dll/src/widgets/text_input.rs:577-586 | when the range ends at `len - 1`, the text is truncated at `start` and the tail is dropped | "abc" with range 0..2 deleted gives "" instead of "c" | the characters from `end` on are kept | high, not executed | TextInput.DeleteSelectionAsWrittenDropsLast | TextInput.DeleteSelection |
| azul-layout/src/old/layout_solver.rs:613-629 | growing asserts in debug builds that the root's grown part is zero, then sets it to the root's size less its minimum; the relayout grows the stored arena again (:2547-2567) | any relayout that reaches the flex-grow step after a layout where the viewport differs from the root's minimum inner size | the root's grown part is recomputed, whatever it was | high, not executed | FlexGrow.RegrowAsWrittenPanics | FlexGrow.ApplyFlexGrowIgnoresRootGrow |
| azul-dll/src/widgets/text_input.rs:516-519 | End sets the cursor to `len - 1`, the index of the last character, while typing treats the cursor as an insertion point | "ab", End, then "c" gives "acb" | End moves past the last character, so typing appends | medium, not executed | TextInput.EndAsWrittenTypesBeforeLast | TextInput.EndThenTypeAppends |
| azul-dll/src/widgets/text_input.rs:575-598 | `delete_selection` never clears a range selection | "abcd" with 0..1 selected: Back gives "bcd", a second Back gives "cd" | the selection is consumed by the deletion | medium, not executed | TextInput.BackAsWrittenDeletesSelectionTwice | TextInput.BackConsumesSelection |

=== FILE: bubble.dfy ===
/**
  Arena construction and the bubble pass: every parent's `min_inner_size_px`
  is computed from the flex-basis of its in-flow children, clamped by the
  parent's own preferred constraint.
*/
module Bubble {
  import opened Wrappers
  import opened Constraints
  import opened LayoutTree

  /** The resolved margin / padding / offset values of a node on one axis. */
  datatype AxisOffsets = AxisOffsets(
    marginStart: real, marginEnd: real,
    paddingStart: real, paddingEnd: real,
    posStart: Option<real>, posEnd: Option<real>)

  /**
    The record the arena starts from for a node: its preferred constraint and
    offsets, with nothing grown yet.
  */
  function FreshRect(cfg: SizeConfig, intrinsic: Option<real>, off: AxisOffsets): (r: AxisRect)
    ensures r.preferred == DeterminePreferred(cfg, intrinsic)
    ensures r.flexGrowPx == 0.0 && r.minInnerSizePx == 0.0 && r.Total() == 0.0
    ensures r.marginStart == off.marginStart && r.marginEnd == off.marginEnd
    ensures r.Padding() == off.paddingStart + off.paddingEnd
  {
    AxisRect(DeterminePreferred(cfg, intrinsic), off.marginStart, off.marginEnd,
             off.paddingStart, off.paddingEnd, off.posStart, off.posEnd, 0.0, 0.0)
  }

  /**
    The sum of the flex-basis of the children that are not absolutely
    positioned (`*_sum_children_flex_basis`).
  */
  function SumChildrenFlexBasis(arena: seq<AxisRect>, cs: seq<NodeId>, positions: seq<LayoutPosition>): real
    requires |positions| == |arena| && IdsBelow(cs, |arena|)
    decreases |cs|
  {
    if |cs| == 0 then 0.0
    else
      (if positions[cs[0]] != Absolute then arena[cs[0]].FlexBasis() else 0.0)
      + SumChildrenFlexBasis(arena, cs[1..], positions)
  }

  /**
    The sum sees nothing but the flex-basis of in-flow children: two arenas
    that agree on those give the same sum, whatever the absolutely positioned
    children and the grown sizes are.
  */
  lemma {:induction false} SumSeesOnlyInFlowBasis(a: seq<AxisRect>, b: seq<AxisRect>, cs: seq<NodeId>, positions: seq<LayoutPosition>)
    requires |positions| == |a| == |b| && IdsBelow(cs, |a|)
    requires forall k :: 0 <= k < |cs| && positions[cs[k]] != Absolute ==> a[cs[k]].FlexBasis() == b[cs[k]].FlexBasis()
    ensures SumChildrenFlexBasis(a, cs, positions) == SumChildrenFlexBasis(b, cs, positions)
    decreases |cs|
  {
    if |cs| > 0 {
      assert forall k :: 0 <= k < |cs[1..]| ==> cs[1..][k] == cs[k + 1];
      SumSeesOnlyInFlowBasis(a, b, cs[1..], positions);
    }
  }

  /**
    The minimum inner size a parent gets from its children's sum: an exact
    size minus the parent's padding regardless of the children, the plain sum
    when unconstrained, and for a range the maximum when the sum exceeds
    `max - padding`, the minimum when it is below `min + padding`, else the sum.
  */
  function BubbledInnerSize(pref: WhConstraint, padding: real, sum: real): (r: real)
    ensures pref.EqualTo? ==> r == pref.px - padding
    ensures pref.Unconstrained? ==> r == sum
    ensures pref.Between? ==> r == pref.min || r == pref.max || r == sum
    ensures pref.Between? && sum > pref.max - padding ==> r == pref.max
    ensures pref.Between? && sum <= pref.max - padding && sum < pref.min + padding ==> r == pref.min
    ensures pref.Between? && pref.min + padding <= sum <= pref.max - padding ==> r == sum
  {
    match pref
    case Between(lo, hi) =>
      if sum > hi - padding then hi
      else if sum < lo + padding then lo
      else sum
    case EqualTo(e) => e - padding
    case Unconstrained => sum
  }

  /** Without padding, a range constraint clamps the children's sum into the range. */
  lemma BubbleClampsIntoRange(lo: real, hi: real, sum: real)
    requires lo <= hi
    ensures lo <= BubbledInnerSize(Between(lo, hi), 0.0, sum) <= hi
    ensures lo <= sum <= hi ==> BubbledInnerSize(Between(lo, hi), 0.0, sum) == sum
  {
  }

  /** The bubbled minimum inner size of node `n` in `arena`. */
  function BubbledAt(arena: seq<AxisRect>, t: Tree, positions: seq<LayoutPosition>, n: NodeId): real
    requires t.Valid() && |arena| == |positions| == t.Size() && n < t.Size()
  {
    assert IdsBelow(t.children[n], |arena|);
    BubbledInnerSize(arena[n].preferred, arena[n].Padding(),
                     SumChildrenFlexBasis(arena, t.children[n], positions))
  }

  /** The bubbled size of a node does not depend on any stored minimum inner size. */
  lemma BubbledAtIgnoresMinInner(r: seq<AxisRect>, arena: seq<AxisRect>, t: Tree, positions: seq<LayoutPosition>, n: NodeId)
    requires t.Valid() && |r| == |arena| == |positions| == t.Size() && n < t.Size()
    requires forall m :: 0 <= m < |arena| ==> r[m] == arena[m].(minInnerSizePx := r[m].minInnerSizePx)
    ensures BubbledAt(r, t, positions, n) == BubbledAt(arena, t, positions, n)
  {
    assert IdsBelow(t.children[n], |arena|);
    forall k | 0 <= k < |t.children[n]|
      ensures r[t.children[n][k]].FlexBasis() == arena[t.children[n][k]].FlexBasis()
    {
      var c := t.children[n][k];
      assert r[c] == arena[c].(minInnerSizePx := r[c].minInnerSizePx);
    }
    SumSeesOnlyInFlowBasis(r, arena, t.children[n], positions);
    assert r[n].preferred == arena[n].preferred && r[n].Padding() == arena[n].Padding();
  }

  /**
    `bubble_preferred_*_to_parents`: visits the listed parents deepest first
    and stores each one's bubbled minimum inner size. Since the sum reads only
    the children's preferred constraint and margins, which the pass never
    writes, every listed node ends with the value computed from the original
    arena, and nothing else changes.
  */
  method BubblePass(arena: seq<AxisRect>, t: Tree, positions: seq<LayoutPosition>, order: seq<NodeId>)
    returns (r: seq<AxisRect>)
    requires t.Valid() && |arena| == |positions| == t.Size() && IdsBelow(order, t.Size())
    ensures |r| == |arena|
    ensures forall n :: 0 <= n < |arena| && n in order ==>
      r[n] == arena[n].(minInnerSizePx := BubbledAt(arena, t, positions, n))
    ensures forall n :: 0 <= n < |arena| && n !in order ==> r[n] == arena[n]
  {
    r := arena;
    var i := |order|;
    while i > 0
      invariant 0 <= i <= |order|
      invariant |r| == |arena|
      invariant forall n :: 0 <= n < |arena| ==> r[n] == arena[n].(minInnerSizePx := r[n].minInnerSizePx)
      invariant forall n :: 0 <= n < |arena| && n in order[i..] ==>
        r[n] == arena[n].(minInnerSizePx := BubbledAt(arena, t, positions, n))
      invariant forall n :: 0 <= n < |arena| && n !in order[i..] ==> r[n] == arena[n]
    {
      i := i - 1;
      var n := order[i];
      BubbledAtIgnoresMinInner(r, arena, t, positions, n);
      var v := BubbledAt(r, t, positions, n);
      r := r[n := r[n].(minInnerSizePx := v)];
      assert order[i..] == [n] + order[i + 1..];
    }
  }
}

=== FILE: calculator.dfy ===
/**
  The calculator example's logic: an operand typed digit by digit (with at
  most one decimal point), a pending left operand with its operator, the
  expression line and a division-by-zero state, driven by button events.

  Turning an operand into a number and a number back into an operand are
  floating-point formatting; they are parameters here (`value` and
  `fromF32`), and arithmetic is on reals. The only thing assumed of
  `fromF32` is that it gives a well-formed operand, as the decimal
  formatting of a finite number does.
*/
module CalculatorLogic {
  import opened Wrappers

  type Digit = v: int | 0 <= v < 10

  /** `Number`: an entry of the operand stack. */
  datatype Entry = Value(v: Digit) | Dot

  /** `OperandStack`: the entries as typed, and the sign. */
  datatype OperandStack = OperandStack(stack: seq<Entry>, negative: bool)

  const EmptyOperand := OperandStack([], false)

  function CountDots(s: seq<Entry>): (r: nat)
    ensures r == 0 <==> Dot !in s
    ensures r <= |s|
  {
    if |s| == 0 then 0 else (if s[0] == Dot then 1 else 0) + CountDots(s[1..])
  }

  lemma {:induction false} CountDotsAppend(s: seq<Entry>, e: Entry)
    ensures CountDots(s + [e]) == CountDots(s) + (if e == Dot then 1 else 0)
  {
    if |s| > 0 {
      assert (s + [e])[1..] == s[1..] + [e];
      CountDotsAppend(s[1..], e);
    }
  }

  /** At most one decimal point, and never in front of every digit. */
  predicate WellFormed(s: seq<Entry>) {
    CountDots(s) <= 1 && (|s| > 0 ==> s[0].Value?)
  }

  type WellFormedOperand = o: OperandStack | WellFormed(o.stack) witness EmptyOperand

  /** The character of a digit, `v + 48` in the source. */
  function DigitChar(v: Digit): (r: char)
    ensures '0' <= r <= '9'
  {
    (v + 48) as char
  }

  function Occurrences(r: seq<char>, ch: char): (n: nat)
    ensures n <= |r|
  {
    if |r| == 0 then 0 else (if r[0] == ch then 1 else 0) + Occurrences(r[1..], ch)
  }

  lemma {:induction false} OccurrencesConcat(a: seq<char>, b: seq<char>, ch: char)
    ensures Occurrences(a + b, ch) == Occurrences(a, ch) + Occurrences(b, ch)
  {
    if |a| == 0 {
      assert a + b == b;
    } else {
      assert (a + b)[1..] == a[1..] + b;
      OccurrencesConcat(a[1..], b, ch);
    }
  }

  /** The digits of the entries in order, points left out: the reference for `Render`. */
  function Digits(s: seq<Entry>): (r: seq<char>)
    ensures |r| <= |s|
  {
    if |s| == 0 then []
    else (if s[0].Value? then [DigitChar(s[0].v)] else []) + Digits(s[1..])
  }

  /** The character an entry adds to the display: a digit, a first point, or nothing. */
  function Shown(e: Entry, dotSeen: bool): (r: seq<char>)
    ensures |r| <= 1 && (|r| == 1 ==> r[0] == '.' || '0' <= r[0] <= '9')
    ensures e.Value? || !dotSeen <==> |r| == 1
  {
    if e.Value? then [DigitChar(e.v)] else if dotSeen then [] else ['.']
  }

  /**
    The entries from left to right: a digit as its character, the first
    point as '.', later points as nothing. `dotSeen` says whether a point
    was already written.
  */
  function Render(s: seq<Entry>, dotSeen: bool): (r: seq<char>)
    ensures |r| <= |s|
  {
    if |s| == 0 then [] else Shown(s[0], dotSeen) + Render(s[1..], dotSeen || s[0] == Dot)
  }

  /** The display holds a point exactly when the entries hold one and none was written before. */
  lemma {:induction false} RenderPoints(s: seq<Entry>, dotSeen: bool)
    ensures Occurrences(Render(s, dotSeen), '.') == (if !dotSeen && Dot in s then 1 else 0)
  {
    if |s| > 0 {
      var seen := dotSeen || s[0] == Dot;
      RenderPoints(s[1..], seen);
      OccurrencesConcat(Shown(s[0], dotSeen), Render(s[1..], seen), '.');
      assert Dot in s <==> s[0] == Dot || Dot in s[1..] by {
        assert s == [s[0]] + s[1..];
      }
    }
  }

  /**
    `get_display`: a '-' exactly for a negative operand, "0" for an empty
    stack, otherwise the digits in order with only the first point shown.
  */
  function Display(o: OperandStack): (r: seq<char>)
    ensures |r| > 0
    ensures r[0] == '-' <==> o.negative
    ensures o.stack == [] ==> r == (if o.negative then "-0" else "0")
    ensures Occurrences(r, '.') <= 1
    ensures Occurrences(r, '.') == 1 <==> Dot in o.stack
  {
    var sign := if o.negative then "-" else "";
    var body := if |o.stack| == 0 then "0" else Render(o.stack, false);
    OccurrencesConcat(sign, body, '.');
    RenderPoints(o.stack, false);
    assert |body| > 0 && body[0] != '-';
    sign + body
  }

  /** A point is in a non-empty list exactly when it is the head or in the tail. */
  lemma DotInCons(a: seq<Entry>)
    requires |a| > 0
    ensures Dot in a <==> a[0] == Dot || Dot in a[1..]
  {
    assert a == [a[0]] + a[1..];
  }

  /** Rendering a list that starts with `a[0]`: its character, then the rest. */
  lemma RenderUnfold(a: seq<Entry>, b: seq<Entry>, dotSeen: bool)
    requires |a| > 0
    ensures Render(a + b, dotSeen) == Shown(a[0], dotSeen) + Render(a[1..] + b, dotSeen || a[0] == Dot)
  {
    assert (a + b)[0] == a[0];
    assert (a + b)[1..] == a[1..] + b;
  }

  /** One step of `RenderConcat`: from the statement for the tail of `a` to the statement for `a`. */
  lemma RenderConcatCons(a: seq<Entry>, b: seq<Entry>, dotSeen: bool)
    requires |a| > 0
    requires Render(a[1..] + b, dotSeen || a[0] == Dot) ==
      Render(a[1..], dotSeen || a[0] == Dot) + Render(b, dotSeen || a[0] == Dot || Dot in a[1..])
    ensures Render(a + b, dotSeen) == Render(a, dotSeen) + Render(b, dotSeen || Dot in a)
  {
    var seen := dotSeen || a[0] == Dot;
    var head := Shown(a[0], dotSeen);
    var tail := Render(a[1..], seen);
    var rest := Render(b, seen || Dot in a[1..]);
    assert rest == Render(b, dotSeen || Dot in a) by {
      DotInCons(a);
    }
    assert Render(a + b, dotSeen) == head + (tail + rest) by {
      RenderUnfold(a, b, dotSeen);
    }
    assert Render(a, dotSeen) == head + tail;
    ConcatAssoc(head, tail, rest);
  }

  lemma ConcatAssoc(x: seq<char>, y: seq<char>, z: seq<char>)
    ensures x + (y + z) == (x + y) + z
  {
  }

  /** Rendering two pieces one after the other; the second knows whether the first held a point. */
  lemma {:induction false} RenderConcat(a: seq<Entry>, b: seq<Entry>, dotSeen: bool)
    ensures Render(a + b, dotSeen) == Render(a, dotSeen) + Render(b, dotSeen || Dot in a)
  {
    if |a| == 0 {
      assert a + b == b;
    } else {
      RenderConcat(a[1..], b, dotSeen || a[0] == Dot);
      RenderConcatCons(a, b, dotSeen);
    }
  }

  /** Without a point, the display is the digits of the entries. */
  lemma {:induction false} RenderWithoutDot(s: seq<Entry>, dotSeen: bool)
    requires Dot !in s
    ensures Render(s, dotSeen) == Digits(s)
  {
    if |s| > 0 {
      assert s[0] in s;
      assert forall e :: e in s[1..] ==> e in s;
      RenderWithoutDot(s[1..], dotSeen);
    }
  }

  /** With a point, the display is the digits before the first point, '.', and the digits after it. */
  lemma RenderSplitsAtFirstDot(before: seq<Entry>, after: seq<Entry>)
    requires Dot !in before
    ensures Render(before + [Dot] + after, false) == Digits(before) + "." + Digits(after)
  {
    var head := before + [Dot];
    assert Dot in head by {
      assert head[|before|] == Dot;
    }
    RenderConcat(head, after, false);
    RenderAfterDot(after);
    assert Render(head + after, false) == Render(head, false) + Digits(after);
    RenderConcat(before, [Dot], false);
    RenderWithoutDot(before, false);
    assert Render([Dot], false) == "." by {
      assert [Dot][1..] == [];
    }
    assert Render(head, false) == Digits(before) + ".";
  }

  lemma {:induction false} RenderAfterDot(s: seq<Entry>)
    ensures Render(s, true) == Digits(s)
  {
    if |s| > 0 {
      RenderAfterDot(s[1..]);
    }
  }

  /** Rendering one more entry appends its character; a point only when it is the first. */
  lemma RenderAppend(s: seq<Entry>, dotSeen: bool, e: Entry)
    ensures Render(s + [e], dotSeen) == Render(s, dotSeen) + Shown(e, dotSeen || Dot in s)
  {
    RenderConcat(s, [e], dotSeen);
    assert Render([e], dotSeen || Dot in s) == Shown(e, dotSeen || Dot in s) by {
      assert [e][1..] == [];
    }
  }

  /** The example of the source's documentation. */
  lemma DisplayExample()
    ensures Display(OperandStack([Value(3), Value(4), Dot, Value(5)], false)) == "34.5"
  {
    var s := [Value(3), Value(4), Dot, Value(5)];
    assert s[1..] == [Value(4), Dot, Value(5)];
    assert s[2..] == [Dot, Value(5)];
    assert s[3..] == [Value(5)];
    assert Render(s[3..], true) == "5" by {
      assert s[3..][1..] == [];
    }
    assert Render(s[2..], false) == ".5" by {
      assert s[2..][1..] == s[3..];
    }
    assert Render(s[1..], false) == "4.5" by {
      assert s[1..][1..] == s[2..];
    }
  }

  /**
    In `get_number`, the index of the units digit: one before the first
    point, or the last index when there is none. The source subtracts one
    from the point's index as an unsigned number; `None` is that
    subtraction underflowing on a leading point.
  */
  function UnitsIndex(s: seq<Entry>): (r: Option<nat>)
    requires |s| > 0
    ensures r.None? <==> s[0] == Dot
    ensures r.Some? ==> r.value < |s| && forall k :: 0 <= k <= r.value ==> s[k].Value?
    ensures r.Some? && r.value + 1 < |s| ==> s[r.value + 1] == Dot
    ensures WellFormed(s) ==> r.Some?
  {
    FirstDotFrom(s, 0)
  }

  /** The first point at or after `i`, minus one; the last index when there is none. */
  function FirstDotFrom(s: seq<Entry>, i: nat): (r: Option<nat>)
    requires i <= |s| && |s| > 0
    requires forall k :: 0 <= k < i ==> s[k].Value?
    ensures r.None? <==> s[0] == Dot
    ensures r.Some? ==> r.value < |s| && forall k :: 0 <= k <= r.value ==> s[k].Value?
    ensures r.Some? && r.value + 1 < |s| ==> s[r.value + 1] == Dot
    decreases |s| - i
  {
    if i == |s| then Some(|s| - 1)
    else if s[i] == Dot then (if i == 0 then None else Some(i - 1))
    else FirstDotFrom(s, i + 1)
  }

  /** The four arithmetic buttons. */
  datatype Operator = Divide | Multiply | Subtract | Plus

  /** `Event`: the calculator's buttons. */
  datatype Event = Clear | InvertSign | Percent | Op(op: Operator) | EqualSign | DotKey | Number(digit: Digit)

  /** `perform_operation`: `None` for a division by zero. */
  function PerformOperation(left: real, op: Operator, right: real): (r: Option<real>)
    ensures r.None? <==> op == Divide && right == 0.0
    ensures r.Some? && op == Divide ==> r.value == left / right && right != 0.0
    ensures op == Plus ==> r == Some(left + right)
    ensures op == Subtract ==> r == Some(left - right)
    ensures op == Multiply ==> r == Some(left * right)
  {
    match op
    case Multiply => Some(left * right)
    case Subtract => Some(left - right)
    case Plus => Some(left + right)
    case Divide => if right == 0.0 then None else Some(left / right)
  }

  /** Subtracting undoes adding and dividing undoes multiplying by a non-zero number. */
  lemma PerformOperationInverses(left: real, right: real)
    ensures PerformOperation(PerformOperation(left, Plus, right).value, Subtract, right) == Some(left)
    ensures right != 0.0 ==> PerformOperation(PerformOperation(left, Multiply, right).value, Divide, right) == Some(left)
  {
    if right != 0.0 {
      var q := (left * right) / right;
      assert q * right == left * right;
      assert q == left;
      assert PerformOperation(left, Multiply, right).value == left * right;
      assert PerformOperation(left * right, Divide, right) == Some(q);
    }
  }

  /** The text an operator appends to the expression line. */
  function Symbol(op: Operator): (r: seq<char>)
    ensures |r| == 3 && r[0] == ' ' && r[2] == ' '
    ensures r[1] in "+-x/"
  {
    match op
    case Plus => " + "
    case Subtract => " - "
    case Multiply => " x "
    case Divide => " / "
  }

  /** Each operator has its own symbol, so the expression line tells which operator was pressed. */
  lemma SymbolInjective(a: Operator, b: Operator)
    requires Symbol(a) == Symbol(b)
    ensures a == b
  {
    assert Symbol(a)[1] == Symbol(b)[1];
  }

  /** `Calculator`. */
  datatype Calculator = Calculator(
    currentOperator: Option<OperandStack>,
    operand: OperandStack,
    divisionByZero: bool,
    expression: seq<char>,
    lastEvent: Option<Event>)

  const Default := Calculator(None, EmptyOperand, false, "", None)

  datatype UpdateScreen = DoNothing | RefreshDom

  /** The result of an event: the new calculator and the update, or a panic at an `unreachable!()`. */
  datatype Step = Step(state: Calculator, update: UpdateScreen) | Panic

  /**
    What the events keep: well-formed operands, a pending left operand
    exactly when the last event was an operator, and no other last event
    than an operator or the equal sign.
  */
  predicate Valid(c: Calculator) {
    && WellFormed(c.operand.stack)
    && (c.currentOperator.Some? ==> WellFormed(c.currentOperator.value.stack))
    && (c.lastEvent.Some? ==> c.lastEvent.value.Op? || c.lastEvent.value == EqualSign)
    && (c.currentOperator.Some? <==> c.lastEvent.Some? && c.lastEvent.value.Op?)
  }

  /** The operator of a last event; `None` stands for the `unreachable!()` arm. */
  function OperatorOf(e: Event): (r: Option<Operator>)
    ensures r.Some? <==> e.Op?
    ensures r.Some? ==> e == Op(r.value)
  {
    if e.Op? then Some(e.op) else None
  }

  /** InvertSign: flips the sign, unless a division by zero happened. */
  function OnInvertSign(c: Calculator): (r: Step)
    ensures r.Step? && r.update == RefreshDom
    ensures c.divisionByZero ==> r.state == c
    ensures !c.divisionByZero ==> r.state.operand.negative != c.operand.negative
    ensures r.state.(operand := r.state.operand.(negative := c.operand.negative)) == c
  {
    if c.divisionByZero then Step(c, RefreshDom)
    else Step(c.(operand := c.operand.(negative := !c.operand.negative)), RefreshDom)
  }

  /** Dot: adds a point when there is none yet, after a zero when the operand is empty. */
  function OnDot(c: Calculator): (r: Step)
    ensures r.Step?
    ensures c.divisionByZero ==> r == Step(c, DoNothing)
    ensures !c.divisionByZero ==> r.update == RefreshDom && Dot in r.state.operand.stack
    ensures !c.divisionByZero && Dot in c.operand.stack ==> r.state == c
    ensures !c.divisionByZero && Dot !in c.operand.stack && c.operand.stack != [] ==>
      r.state == c.(operand := c.operand.(stack := c.operand.stack + [Dot]))
    ensures c.operand.stack == [] ==> !c.divisionByZero ==> r.state.operand.stack == [Value(0), Dot]
    ensures WellFormed(c.operand.stack) ==> WellFormed(r.state.operand.stack)
    ensures r.state.(operand := c.operand) == c && r.state.operand.negative == c.operand.negative
  {
    if c.divisionByZero then Step(c, DoNothing)
    else if Dot in c.operand.stack then Step(c, RefreshDom)
    else
      var digits := if |c.operand.stack| == 0 then [Value(0)] else c.operand.stack;
      CountDotsAppend(digits, Dot);
      Step(c.(operand := c.operand.(stack := digits + [Dot])), RefreshDom)
  }

  /** Number: after the equal sign the calculator starts over; the digit is appended. */
  function OnNumber(c: Calculator, v: Digit): (r: Step)
    ensures r.Step? && r.update == RefreshDom
    ensures c.lastEvent == Some(EqualSign) ==> r.state == Default.(operand := EmptyOperand.(stack := [Value(v)]))
    ensures c.lastEvent != Some(EqualSign) ==> r.state == c.(operand := c.operand.(stack := c.operand.stack + [Value(v)]))
    ensures WellFormed(c.operand.stack) ==> WellFormed(r.state.operand.stack)
  {
    var base := if c.lastEvent == Some(EqualSign) then Default else c;
    CountDotsAppend(base.operand.stack, Value(v));
    Step(base.(operand := base.operand.(stack := base.operand.stack + [Value(v)])), RefreshDom)
  }

  /** The percentage `num` percent of `left` after + or -, of one after x or /. */
  function PercentValue(op: Operator, left: real, num: real): real {
    if op == Plus || op == Subtract then left / 100.0 * num else num / 100.0
  }

  /** A hundred times the percentage is `left * num` after + or -, and `num` after x or /. */
  lemma PercentValueScaled(op: Operator, left: real, num: real)
    ensures op == Plus || op == Subtract ==> PercentValue(op, left, num) * 100.0 == left * num
    ensures op == Multiply || op == Divide ==> PercentValue(op, left, num) * 100.0 == num
  {
  }

  /** Percent: the operand becomes a percentage of the pending left operand (after + or -) or of one (after x or /). */
  function OnPercent(c: Calculator, value: OperandStack -> real, fromF32: real -> WellFormedOperand): (r: Step)
    ensures c.divisionByZero ==> r == Step(c, DoNothing)
    ensures Valid(c) ==> r.Step? && Valid(r.state)
    ensures r.Step? ==> r.state.(operand := c.operand) == c
    ensures r.Step? && !c.divisionByZero && c.currentOperator.None? ==> r == Step(c, RefreshDom)
  {
    if c.divisionByZero then Step(c, DoNothing)
    else if c.lastEvent.Some? && c.currentOperator.Some? then
      match OperatorOf(c.lastEvent.value)
      case None => Panic
      case Some(op) =>
        Step(c.(operand := fromF32(PercentValue(op, value(c.currentOperator.value), value(c.operand)))), RefreshDom)
    else Step(c, RefreshDom)
  }

  /**
    The equal sign: the operand is written to the expression line (which
    starts over after a previous equal sign) and, with a pending operator,
    the operation is carried out; a division by zero is recorded instead
    of a result. Nothing is pending afterwards.
  */
  function OnEqualSign(c: Calculator, value: OperandStack -> real, fromF32: real -> WellFormedOperand): (r: Step)
    ensures c.divisionByZero ==> r == Step(c, DoNothing)
    ensures Valid(c) ==> r.Step? && Valid(r.state)
    ensures r.Step? && !c.divisionByZero ==>
      && r.update == RefreshDom
      && r.state.currentOperator.None?
      && r.state.lastEvent == Some(EqualSign)
      && r.state.expression == (if c.lastEvent == Some(EqualSign) then [] else c.expression) + Display(c.operand) + " ="
    ensures r.Step? && !c.divisionByZero ==>
      (r.state.divisionByZero <==>
        c.lastEvent.Some? && c.lastEvent.value.Op? && c.currentOperator.Some? &&
        PerformOperation(value(c.currentOperator.value), c.lastEvent.value.op, value(c.operand)).None?)
    ensures r.Step? && !r.state.divisionByZero && c.lastEvent.Some? && c.lastEvent.value.Op? && c.currentOperator.Some? ==>
      r.state.operand == fromF32(PerformOperation(value(c.currentOperator.value), c.lastEvent.value.op, value(c.operand)).value)
    ensures var applied := c.lastEvent != Some(EqualSign) && c.lastEvent.Some? && c.lastEvent.value.Op? &&
              c.currentOperator.Some? &&
              PerformOperation(value(c.currentOperator.value), c.lastEvent.value.op, value(c.operand)).Some?;
      r.Step? && !c.divisionByZero && !applied ==> r.state.operand == c.operand
  {
    if c.divisionByZero then Step(c, DoNothing)
    else
      var shown := Display(c.operand) + " =";
      var finished := c.(currentOperator := None, lastEvent := Some(EqualSign));
      if c.lastEvent == Some(EqualSign) then Step(finished.(expression := shown), RefreshDom)
      else
        var written := finished.(expression := c.expression + shown);
        if c.lastEvent.Some? && c.currentOperator.Some? then
          match OperatorOf(c.lastEvent.value)
          case None => Panic
          case Some(op) =>
            match PerformOperation(value(c.currentOperator.value), op, value(c.operand))
            case Some(result) => Step(written.(operand := fromF32(result)), RefreshDom)
            case None => Step(written.(divisionByZero := true), RefreshDom)
        else Step(written, RefreshDom)
  }

  /**
    An operator button: the operand is written to the expression line and
    becomes (or is combined into) the pending left operand, the operand
    starts empty, the operator's symbol is appended and the operator
    becomes the last event.
  */
  function OnOperator(c: Calculator, op: Operator, value: OperandStack -> real, fromF32: real -> WellFormedOperand): (r: Step)
    ensures c.divisionByZero ==> r == Step(c, DoNothing)
    ensures Valid(c) ==> r.Step? && Valid(r.state)
    ensures r.Step? && !c.divisionByZero ==>
      && r.update == RefreshDom
      && r.state.operand == EmptyOperand
      && r.state.lastEvent == Some(Op(op))
      && r.state.expression == (if c.lastEvent == Some(EqualSign) then [] else c.expression) + Display(c.operand) + Symbol(op)
    ensures r.Step? && !c.divisionByZero && (c.lastEvent.None? || c.lastEvent == Some(EqualSign)) ==>
      r.state.currentOperator == Some(c.operand) && !r.state.divisionByZero
  {
    if c.divisionByZero then Step(c, DoNothing)
    else
      var expression := (if c.lastEvent == Some(EqualSign) then [] else c.expression) + Display(c.operand);
      var next := c.(operand := EmptyOperand, expression := expression + Symbol(op), lastEvent := Some(Op(op)));
      if c.lastEvent == Some(EqualSign) || c.lastEvent.None? then
        Step(next.(currentOperator := Some(c.operand)), RefreshDom)
      else if c.currentOperator.Some? then
        match OperatorOf(c.lastEvent.value)
        case None => Panic
        case Some(last) =>
          match PerformOperation(value(c.currentOperator.value), last, value(c.operand))
          case Some(result) => Step(next.(currentOperator := Some(fromF32(result))), RefreshDom)
          case None => Step(next.(divisionByZero := true), RefreshDom)
      else Step(next, RefreshDom)
  }

  /**
    Percent with a pending operation: after + or - the operand becomes that
    percentage of the pending left operand, after x or / it is divided by
    100. A last event that is no operator is the `unreachable!()` arm.
  */
  lemma PercentOfPending(c: Calculator, value: OperandStack -> real, fromF32: real -> WellFormedOperand)
    requires !c.divisionByZero && c.currentOperator.Some? && c.lastEvent.Some?
    ensures var r := OnPercent(c, value, fromF32);
      && (r.Panic? <==> !c.lastEvent.value.Op?)
      && (c.lastEvent.value.Op? ==>
            r == Step(c.(operand := fromF32(PercentValue(c.lastEvent.value.op, value(c.currentOperator.value), value(c.operand)))), RefreshDom))
      && (c.lastEvent.value == Op(Plus) || c.lastEvent.value == Op(Subtract) ==>
            PercentValue(c.lastEvent.value.op, value(c.currentOperator.value), value(c.operand)) * 100.0
              == value(c.currentOperator.value) * value(c.operand))
      && (c.lastEvent.value == Op(Multiply) || c.lastEvent.value == Op(Divide) ==>
            PercentValue(c.lastEvent.value.op, value(c.currentOperator.value), value(c.operand)) * 100.0 == value(c.operand))
  {
    if c.lastEvent.value.Op? {
      PercentValueScaled(c.lastEvent.value.op, value(c.currentOperator.value), value(c.operand));
    }
  }

  /**
    An operator pressed while another is pending carries out the pending
    operation: its result becomes the new left operand, or a division by
    zero is recorded and the left operand kept.
  */
  lemma OperatorChains(c: Calculator, op: Operator, value: OperandStack -> real, fromF32: real -> WellFormedOperand)
    requires !c.divisionByZero && c.currentOperator.Some? && c.lastEvent.Some? && c.lastEvent.value.Op?
    ensures var r := OnOperator(c, op, value, fromF32);
      var result := PerformOperation(value(c.currentOperator.value), c.lastEvent.value.op, value(c.operand));
      && r.Step?
      && (r.state.divisionByZero <==> result.None?)
      && (result.Some? ==> r.state.currentOperator == Some(fromF32(result.value)))
      && (result.None? ==> r.state.currentOperator == c.currentOperator)
  {
  }

  /** `process_event`: every event keeps the calculator valid, so no `unreachable!()` is ever reached. */
  function ProcessEvent(c: Calculator, e: Event, value: OperandStack -> real, fromF32: real -> WellFormedOperand): (r: Step)
    ensures Valid(c) ==> r.Step? && Valid(r.state)
    ensures e == Clear ==> r == Step(Default, RefreshDom)
    ensures c.divisionByZero && e != Clear && !e.Number? ==> r.Step? && r.state == c
  {
    match e
    case Clear => Step(Default, RefreshDom)
    case InvertSign => OnInvertSign(c)
    case Percent => OnPercent(c, value, fromF32)
    case EqualSign => OnEqualSign(c, value, fromF32)
    case DotKey => OnDot(c)
    case Number(v) => OnNumber(c, v)
    case Op(op) => OnOperator(c, op, value, fromF32)
  }

  /** The events in order; stops at a panic. */
  function Run(c: Calculator, events: seq<Event>, value: OperandStack -> real, fromF32: real -> WellFormedOperand): (r: Step)
    ensures Valid(c) ==> r.Step? && Valid(r.state)
    decreases |events|
  {
    if |events| == 0 then Step(c, DoNothing)
    else
      match ProcessEvent(c, events[0], value, fromF32)
      case Panic => Panic
      case Step(next, _) => Run(next, events[1..], value, fromF32)
  }

  /** Typing a digit shows it at the end of the display, and typing the point shows '.' once. */
  lemma {:induction false} DisplayGrowsAsTyped(c: Calculator, e: Event, value: OperandStack -> real, fromF32: real -> WellFormedOperand)
    requires !c.divisionByZero && c.lastEvent != Some(EqualSign) && c.operand.stack != []
    requires e.Number? || (e == DotKey && Dot !in c.operand.stack)
    ensures ProcessEvent(c, e, value, fromF32).Step?
    ensures Display(ProcessEvent(c, e, value, fromF32).state.operand) ==
      Display(c.operand) + (if e.Number? then [DigitChar(e.digit)] else ['.'])
  {
    var added := if e.Number? then Value(e.digit) else Dot;
    if e.Number? {
      NumberStep(c, e.digit, value, fromF32);
    } else {
      DotStep(c, value, fromF32);
    }
    RenderAppend(c.operand.stack, false, added);
  }

  /** From the start, the digits 3, 4, the point and 5 display "34.5". */
  lemma TypingExample(value: OperandStack -> real, fromF32: real -> WellFormedOperand)
    ensures var r := Run(Default, [Number(3), Number(4), DotKey, Number(5)], value, fromF32);
      r.Step? && r.state.operand == OperandStack([Value(3), Value(4), Dot, Value(5)], false)
  {
    var events := [Number(3), Number(4), DotKey, Number(5)];
    var c1 := Default.(operand := OperandStack([Value(3)], false));
    var c2 := Default.(operand := OperandStack([Value(3), Value(4)], false));
    NumberStep(Default, 3, value, fromF32);
    assert [] + [Value(3)] == [Value(3)];
    NumberStep(c1, 4, value, fromF32);
    assert [Value(3)] + [Value(4)] == [Value(3), Value(4)];
    RunStep(Default, events, value, fromF32);
    assert events[1..] == [Number(4), DotKey, Number(5)];
    RunStep(c1, events[1..], value, fromF32);
    assert events[1..][1..] == [DotKey, Number(5)];
    TypingTail(value, fromF32);
  }

  /** The last two key presses of the example: the point and 5 after "34". */
  lemma TypingTail(value: OperandStack -> real, fromF32: real -> WellFormedOperand)
    ensures Run(Default.(operand := OperandStack([Value(3), Value(4)], false)), [DotKey, Number(5)], value, fromF32)
         == Step(Default.(operand := OperandStack([Value(3), Value(4), Dot, Value(5)], false)), DoNothing)
  {
    var events := [DotKey, Number(5)];
    var c2 := Default.(operand := OperandStack([Value(3), Value(4)], false));
    var c3 := Default.(operand := OperandStack([Value(3), Value(4), Dot], false));
    DotStep(c2, value, fromF32);
    assert [Value(3), Value(4)] + [Dot] == [Value(3), Value(4), Dot];
    NumberStep(c3, 5, value, fromF32);
    assert [Value(3), Value(4), Dot] + [Value(5)] == [Value(3), Value(4), Dot, Value(5)];
    RunStep(c2, events, value, fromF32);
    assert events[1..] == [Number(5)];
    RunStep(c3, events[1..], value, fromF32);
    assert events[1..][1..] == [];
  }

  /** A digit typed after anything but the equal sign goes at the end of the operand. */
  lemma NumberStep(c: Calculator, v: Digit, value: OperandStack -> real, fromF32: real -> WellFormedOperand)
    requires c.lastEvent != Some(EqualSign)
    ensures ProcessEvent(c, Number(v), value, fromF32) == Step(c.(operand := c.operand.(stack := c.operand.stack + [Value(v)])), RefreshDom)
  {
  }

  /** The point typed into a non-empty operand without one goes at its end. */
  lemma DotStep(c: Calculator, value: OperandStack -> real, fromF32: real -> WellFormedOperand)
    requires !c.divisionByZero && c.operand.stack != [] && Dot !in c.operand.stack
    ensures ProcessEvent(c, DotKey, value, fromF32) == Step(c.(operand := c.operand.(stack := c.operand.stack + [Dot])), RefreshDom)
  {
  }

  /**
    With nothing pending, pressing an operator, typing the right operand
    (digit events only append to the operand, see `NumberStep`) and pressing
    the equal sign carries out that one operation on the two operands, or
    records the division by zero; the expression line shows both operands
    around the operator's symbol.
  */
  lemma OperatorThenEqualSign(c: Calculator, op: Operator, right: WellFormedOperand,
                              value: OperandStack -> real, fromF32: real -> WellFormedOperand)
    requires Valid(c) && !c.divisionByZero && (c.lastEvent.None? || c.lastEvent == Some(EqualSign))
    ensures ProcessEvent(c, Op(op), value, fromF32).Step?
    ensures var typed := ProcessEvent(c, Op(op), value, fromF32).state.(operand := right);
      var result := PerformOperation(value(c.operand), op, value(right));
      var r := ProcessEvent(typed, EqualSign, value, fromF32);
      && r.Step?
      && (r.state.divisionByZero <==> result.None?)
      && (result.Some? ==> r.state.operand == fromF32(result.value))
      && r.state.expression == (if c.lastEvent == Some(EqualSign) then [] else c.expression)
           + Display(c.operand) + Symbol(op) + Display(right) + " ="
  {
    var pressed := PressOperator(c, op, value, fromF32);
    var typed := pressed.(operand := right);
    assert Valid(typed);
  }

  /** An operator pressed with nothing pending makes the operand the pending left operand. */
  lemma PressOperator(c: Calculator, op: Operator, value: OperandStack -> real, fromF32: real -> WellFormedOperand)
    returns (pressed: Calculator)
    requires !c.divisionByZero && (c.lastEvent.None? || c.lastEvent == Some(EqualSign))
    ensures ProcessEvent(c, Op(op), value, fromF32) == Step(pressed, RefreshDom)
    ensures pressed.operand == EmptyOperand && pressed.currentOperator == Some(c.operand)
    ensures !pressed.divisionByZero && pressed.lastEvent == Some(Op(op))
    ensures pressed.expression == (if c.lastEvent == Some(EqualSign) then [] else c.expression) + Display(c.operand) + Symbol(op)
  {
    pressed := OnOperator(c, op, value, fromF32).state;
  }

  /** Running a list of events: the first event, then the rest from where it left the calculator. */
  lemma RunStep(c: Calculator, events: seq<Event>, value: OperandStack -> real, fromF32: real -> WellFormedOperand)
    requires |events| > 0 && ProcessEvent(c, events[0], value, fromF32).Step?
    ensures Run(c, events, value, fromF32) == Run(ProcessEvent(c, events[0], value, fromF32).state, events[1..], value, fromF32)
  {
  }
}

=== FILE: constraints.dfy ===
/**
  Preferred-size resolution of the layout solver: a node's configured
  exact / min / max size on one axis, together with an optional intrinsic
  content size, is reduced to a `WhConstraint`.
*/
module Constraints {
  import opened Wrappers

  /** `f32::MAX`, the sentinel the solver uses for "no maximum". */
  const F32Max: real := 340282346638528859811704183484516925440.0

  /** The resolved size constraint of a node on one axis. */
  datatype WhConstraint = Unconstrained | EqualTo(px: real) | Between(min: real, max: real) {

    /** The least space the node needs (`min_needed_space`). */
    function MinNeededSpace(): Option<real> {
      match this
      case Between(lo, _) => Some(lo)
      case EqualTo(e) => Some(e)
      case Unconstrained => None
    }

    /** The most space the node may take (`max_available_space`). */
    function MaxAvailableSpace(): Option<real> {
      match this
      case Between(_, hi) => Some(hi)
      case EqualTo(e) => Some(e)
      case Unconstrained => None
    }

    /** Only an exact size is a fixed constraint. */
    predicate IsFixed() {
      EqualTo?
    }
  }

  /** The configured size properties of a node on one axis, already in pixels. */
  datatype SizeConfig = SizeConfig(exact: Option<real>, min: Option<real>, max: Option<real>)

  /** `x` lies inside whichever of the two bounds are present. */
  predicate InBounds(x: real, lo: Option<real>, hi: Option<real>) {
    (lo.Some? ==> lo.value <= x) && (hi.Some? ==> x <= hi.value)
  }

  /**
    The effective (min, max) pair: when both are given and the minimum is not
    below the maximum, the maximum wins and becomes both bounds.
  */
  function AbsoluteBounds(min: Option<real>, max: Option<real>): (r: (Option<real>, Option<real>))
    ensures r.1 == max
    ensures r.0.Some? <==> min.Some?
    ensures r.0.Some? && r.1.Some? ==> r.0.value <= r.1.value
    ensures min.Some? && max.Some? && min.value >= max.value ==> r.0 == max
    ensures min.Some? && max.Some? && min.value < max.value ==> r.0 == min
    ensures max.None? ==> r.0 == min
  {
    if min.Some? && max.Some? then
      if min.value < max.value then (min, max) else (max, max)
    else
      (min, max)
  }

  /**
    The size the constraint is built around: the configured exact size, or
    else the intrinsic content size when it lies strictly between the
    effective minimum (0 when absent) and maximum (`F32Max` when absent).
  */
  function ChosenSize(cfg: SizeConfig, intrinsic: Option<real>): (w: Option<real>)
    ensures cfg.exact.Some? ==> w == cfg.exact
    ensures cfg.exact.None? && w.Some? ==> intrinsic == w
    ensures cfg.exact.None? ==>
      (w.Some? <==>
        intrinsic.Some? &&
        AbsoluteBounds(cfg.min, cfg.max).0.GetOr(0.0) < intrinsic.value < AbsoluteBounds(cfg.min, cfg.max).1.GetOr(F32Max))
  {
    var (lo, hi) := AbsoluteBounds(cfg.min, cfg.max);
    if cfg.exact.None? && intrinsic.Some? && lo.GetOr(0.0) < intrinsic.value < hi.GetOr(F32Max) then
      intrinsic
    else
      cfg.exact
  }

  /**
    `determine_preferred_width` / `determine_preferred_height`: one function
    for both axes. A chosen size is clamped into the effective bounds and
    becomes `EqualTo`; without one the bounds become `Between` (missing
    minimum 0, missing maximum `F32Max`), or `Unconstrained` when neither bound
    is set. When both bounds are set and the chosen size equals one of them,
    the source falls through to its "unreachable" arm and yields
    `Unconstrained`; the model keeps that.
  */
  function DeterminePreferred(cfg: SizeConfig, intrinsic: Option<real>): (r: WhConstraint)
    ensures var (lo, hi) := AbsoluteBounds(cfg.min, cfg.max);
      var w := ChosenSize(cfg, intrinsic);
      && (w.None? ==> (r.Unconstrained? <==> lo.None? && hi.None?))
      && (w.None? && !(lo.None? && hi.None?) ==> r == Between(lo.GetOr(0.0), hi.GetOr(F32Max)))
      && (w.Some? ==> (r.Unconstrained? <==> lo.Some? && hi.Some? && (w.value == lo.value || w.value == hi.value)))
      && (w.Some? ==> !r.Between?)
      && (r.EqualTo? ==> InBounds(r.px, lo, hi))
      && (r.EqualTo? && InBounds(w.value, lo, hi) ==> r.px == w.value)
      && (r.EqualTo? && hi.Some? && w.value > hi.value ==> r.px == hi.value)
      && (r.EqualTo? && lo.Some? && w.value < lo.value ==> r.px == lo.value)
  {
    var (lo, hi) := AbsoluteBounds(cfg.min, cfg.max);
    var w := ChosenSize(cfg, intrinsic);
    if w.Some? then
      var width := w.value;
      if hi.Some? then
        if lo.Some? then
          if lo.value < width && width < hi.value then EqualTo(width)
          else if width > hi.value then EqualTo(hi.value)
          else if width < lo.value then EqualTo(lo.value)
          else Unconstrained
        else
          EqualTo(if width <= hi.value then width else hi.value)
      else if lo.Some? then
        EqualTo(if width >= lo.value then width else lo.value)
      else
        EqualTo(width)
    else if hi.Some? then
      Between(lo.GetOr(0.0), hi.value)
    else if lo.Some? then
      Between(lo.value, F32Max)
    else
      Unconstrained
  }

  /** An exact size equal to the minimum falls into the "unreachable" arm. */
  lemma ExactEqualToMinIsUnconstrained(e: real, hi: real)
    requires e < hi
    ensures DeterminePreferred(SizeConfig(Some(e), Some(e), Some(hi)), None) == Unconstrained
  {
  }

  /** Conflicting min and max: the maximum wins, so the range collapses onto it. */
  lemma MaxWinsOverMin(lo: real, hi: real)
    requires lo >= hi
    ensures DeterminePreferred(SizeConfig(None, Some(lo), Some(hi)), None) == Between(hi, hi)
  {
  }
}

=== FILE: finalize.dfy ===
/**
  Small pure pieces of the rectangle finalizer: the overflow of a parent's
  children on both axes, the text alignment a node's layout properties
  imply, and the lookup of a node's precalculated offsets.
*/
module Finalize {
  import opened Wrappers
  import opened LayoutTree

  /** CSS `overflow-x` / `overflow-y`. */
  datatype OverflowKind = Scroll | Auto | Hidden | Visible

  /** The overflow mode of one axis, with the amount when the children's extent is known. */
  datatype DirectionalOverflow = DirectionalOverflow(kind: OverflowKind, amount: Option<real>)

  /** A rectangle in layout coordinates. */
  datatype Rect = Rect(x: real, y: real, width: real, height: real)

  /** The mode a node uses when it sets none. */
  const DefaultOverflow: OverflowKind := Visible

  /**
    `get_overflow`: on each axis, the room from the far edge of the
    children's union to the far edge of the parent (negative when the
    children stick out), tagged with the node's overflow mode; without a
    children rectangle there is no amount.
  */
  function GetOverflow(ox: Option<OverflowKind>, oy: Option<OverflowKind>, parent: Rect, children: Option<Rect>)
    : (r: (DirectionalOverflow, DirectionalOverflow))
    ensures r.0.kind == ox.GetOr(DefaultOverflow) && r.1.kind == oy.GetOr(DefaultOverflow)
    ensures r.0.amount.Some? <==> children.Some?
    ensures r.1.amount.Some? <==> children.Some?
    ensures children.Some? ==>
      children.value.x + children.value.width + r.0.amount.value == parent.x + parent.width
    ensures children.Some? ==>
      children.value.y + children.value.height + r.1.amount.value == parent.y + parent.height
  {
    match children
    case Some(c) =>
      (DirectionalOverflow(ox.GetOr(DefaultOverflow), Some((parent.width + parent.x) - (c.x + c.width))),
       DirectionalOverflow(oy.GetOr(DefaultOverflow), Some((parent.height + parent.y) - (c.y + c.height))))
    case None =>
      (DirectionalOverflow(ox.GetOr(DefaultOverflow), None),
       DirectionalOverflow(oy.GetOr(DefaultOverflow), None))
  }

  /** The children stick out past the parent's far edge exactly when the amount is negative. */
  lemma OverflowNegativeIffSticksOut(ox: Option<OverflowKind>, oy: Option<OverflowKind>, parent: Rect, c: Rect)
    ensures var r := GetOverflow(ox, oy, parent, Some(c));
      && (r.0.amount.value < 0.0 <==> c.x + c.width > parent.x + parent.width)
      && (r.1.amount.value < 0.0 <==> c.y + c.height > parent.y + parent.height)
  {
  }

  /** Horizontal text alignment. */
  datatype HorzAlign = Left | Center | Right

  /** Vertical text alignment. */
  datatype VertAlign = Top | Middle | Bottom

  /** CSS `align-items`. */
  datatype AlignItems = FlexStart | FlexEnd | AlignCenter | Stretch | Baseline

  /**
    `determine_text_alignment`: `align-items` chooses the vertical alignment
    (flex-start top, flex-end bottom, anything else centred), the
    justification chooses the horizontal one (start left, end right,
    anything else centred), and an explicit `text-align` overrides the
    horizontal choice. Unset properties leave the given defaults.
  */
  function TextAlignment(alignItems: Option<AlignItems>, justify: Option<JustifyContent>,
                         textAlign: Option<HorzAlign>, defaults: (HorzAlign, VertAlign)): (r: (HorzAlign, VertAlign))
    ensures alignItems.None? ==> r.1 == defaults.1
    ensures alignItems.Some? ==> (r.1 == Top <==> alignItems.value == FlexStart)
    ensures alignItems.Some? ==> (r.1 == Bottom <==> alignItems.value == FlexEnd)
    ensures alignItems.Some? ==> r.1 != Middle || !(alignItems.value in {FlexStart, FlexEnd})
    ensures textAlign.Some? ==> r.0 == textAlign.value
    ensures textAlign.None? && justify.None? ==> r.0 == defaults.0
    ensures textAlign.None? && justify.Some? ==> (r.0 == Left <==> justify.value == Start)
    ensures textAlign.None? && justify.Some? ==> (r.0 == Right <==> justify.value == End)
  {
    var vert := match alignItems
      case None => defaults.1
      case Some(FlexStart) => Top
      case Some(FlexEnd) => Bottom
      case Some(_) => Middle;
    var horz := match justify
      case None => defaults.0
      case Some(Start) => Left
      case Some(End) => Right
      case Some(_) => HorzAlign.Center;
    (textAlign.GetOr(horz), vert)
  }

  /**
    The two axes are decided independently: the vertical alignment depends
    only on `align-items`, the horizontal one only on `justify-content` and
    `text-align`, and an explicit `text-align` makes `justify-content`
    irrelevant.
  */
  lemma TextAlignmentAxesIndependent(a1: Option<AlignItems>, a2: Option<AlignItems>,
                                     j1: Option<JustifyContent>, j2: Option<JustifyContent>,
                                     textAlign: Option<HorzAlign>, defaults: (HorzAlign, VertAlign))
    ensures TextAlignment(a1, j1, textAlign, defaults).1 == TextAlignment(a1, j2, None, defaults).1
    ensures TextAlignment(a1, j1, textAlign, defaults).0 == TextAlignment(a2, j1, textAlign, defaults).0
    ensures textAlign.Some? ==> TextAlignment(a1, j1, textAlign, defaults).0 == TextAlignment(a2, j2, textAlign, defaults).0
  {
  }

  /**
    `AllOffsetsProvider`: either the offsets of every node (full layout) or
    only those of the recalculated nodes (relayout).
  */
  datatype OffsetsProvider<T> = All(all: seq<T>) | OnlyRecalculated(some: map<NodeId, T>)

  /**
    `get_offsets_for_node`: the full array always answers (indexing it past
    its end would panic, so the node must be inside it); the partial map
    answers only for the nodes it holds.
  */
  function OffsetsFor<T>(p: OffsetsProvider<T>, n: NodeId): (r: Option<T>)
    requires p.All? ==> n < |p.all|
    ensures p.All? ==> r == Some(p.all[n])
    ensures p.OnlyRecalculated? ==> (r.Some? <==> n in p.some)
    ensures p.OnlyRecalculated? && n in p.some ==> r.value == p.some[n]
  {
    match p
    case All(a) => Some(a[n])
    case OnlyRecalculated(m) => if n in m then Some(m[n]) else None
  }

  /** The offsets of the nodes in `s`, taken from the full array. */
  function Restrict<T>(all: seq<T>, s: set<NodeId>): (m: map<NodeId, T>)
    ensures forall n :: n in m <==> n in s && n < |all|
  {
    map n | n in s && n < |all| :: all[n]
  }

  /**
    A partial provider built from the full offsets of the recalculated
    nodes gives the same answer as the full one for those nodes, and no
    answer for every other node.
  */
  lemma PartialAgreesWithAll<T>(all: seq<T>, s: set<NodeId>, n: NodeId)
    requires n < |all|
    ensures n in s ==> OffsetsFor(OnlyRecalculated(Restrict(all, s)), n) == OffsetsFor(All(all), n)
    ensures n !in s ==> OffsetsFor(OnlyRecalculated(Restrict(all, s)), n) == None
  {
  }
}

=== FILE: flexgrow.dfy ===
/**
  The flex-grow pass: the root is given the viewport size, then every parent
  that needs recalculation distributes its inner space among its children,
  along the main axis (exact sizes first, then minimum sizes, then the
  leftover space by flex-grow factor with max-size violations removed
  round by round) or across it (each child clamped to the parent's inner
  size).
*/
module FlexGrow {
  import opened Wrappers
  import opened Constraints
  import opened LayoutTree
  import Floats

  /** The reference clamp of `x` into `[lo, hi]`. */
  function Clamp(x: real, lo: real, hi: real): real {
    if x < lo then lo else if x > hi then hi else x
  }

  /** A constraint the solver can produce from sane input: ranges are ordered and non-negative. */
  predicate WellFormed(c: WhConstraint) {
    match c
    case Between(lo, hi) => 0.0 <= lo <= hi
    case EqualTo(e) => 0.0 <= e
    case Unconstrained => true
  }

  /**
    The size of an absolutely positioned child that has no exact size: the
    width of its anchor, bounded by its own range.
  */
  function AbsoluteSize(pref: WhConstraint, anchorWidth: real): (r: real)
    ensures pref.Unconstrained? ==> r == anchorWidth
    ensures pref.EqualTo? ==> r == pref.px
    ensures pref.Between? ==> r == pref.min || r == pref.max || r == anchorWidth
    ensures pref.Between? && pref.min < anchorWidth < pref.max ==> r == anchorWidth
  {
    match pref
    case EqualTo(e) => e
    case Between(lo, hi) =>
      if anchorWidth > lo then (if anchorWidth < hi then anchorWidth else hi) else lo
    case Unconstrained => anchorWidth
  }

  /** For an ordered range, the absolute size is the anchor width clamped into the range. */
  lemma AbsoluteSizeIsClamp(lo: real, hi: real, anchorWidth: real)
    requires lo <= hi
    ensures AbsoluteSize(Between(lo, hi), anchorWidth) == Clamp(anchorWidth, lo, hi)
  {
  }

  /**
    The size a child starts from before growing: an exact size wins; an
    in-flow child takes its minimum (0 when it has none); an absolutely
    positioned one takes its anchor's width.
  */
  function StartSize(rect: AxisRect, pos: LayoutPosition, anchorWidth: real): (r: real)
    ensures rect.preferred.EqualTo? ==> r == rect.preferred.px
    ensures !rect.preferred.EqualTo? && pos != Absolute ==> r == rect.preferred.MinNeededSpace().GetOr(0.0)
    ensures !rect.preferred.EqualTo? && pos == Absolute ==> r == AbsoluteSize(rect.preferred, anchorWidth)
  {
    if rect.preferred.EqualTo? then rect.preferred.px
    else if pos != Absolute then rect.preferred.MinNeededSpace().GetOr(0.0)
    else AbsoluteSize(rect.preferred, anchorWidth)
  }

  /** Steps 1 and 2 of the main-axis distribution: every child of `p` is set to its start size. */
  function MainStart(arena: seq<AxisRect>, t: Tree, positions: seq<LayoutPosition>, p: NodeId, anchor: NodeId): (r: seq<AxisRect>)
    requires t.Valid() && |arena| == |positions| == t.Size() && p < t.Size() && anchor < t.Size()
    ensures OnlyGrowChanged(arena, r, set c | c in t.children[p])
    ensures forall c :: c in t.children[p] ==>
      r[c].Total() == StartSize(arena[c], positions[c], arena[anchor].Total())
  {
    seq(|arena|, i requires 0 <= i < |arena| =>
      if i in t.children[p] then arena[i].WithTotal(StartSize(arena[i], positions[i], arena[anchor].Total()))
      else arena[i])
  }

  /**
    The space the in-flow children take before growing: the exact size of a
    fixed child, the minimum (or 0) of a variable one. Absolutely positioned
    children take nothing from their siblings.
  */
  function InFlowMinSpace(arena: seq<AxisRect>, positions: seq<LayoutPosition>, cs: seq<NodeId>): (r: real)
    requires |positions| == |arena| && IdsBelow(cs, |arena|)
    ensures (forall k :: 0 <= k < |cs| ==> positions[cs[k]] == Absolute) ==> r == 0.0
    ensures (forall k :: 0 <= k < |cs| ==> WellFormed(arena[cs[k]].preferred)) ==> r >= 0.0
    decreases |cs|
  {
    if |cs| == 0 then 0.0
    else
      (if positions[cs[0]] != Absolute then arena[cs[0]].preferred.MinNeededSpace().GetOr(0.0) else 0.0)
      + InFlowMinSpace(arena, positions, cs[1..])
  }

  /**
    The minimum space sees only the constraints of the in-flow children:
    absolutely positioned children and grown sizes do not count.
  */
  lemma {:induction false} InFlowMinSpaceIgnoresAbsolute(a: seq<AxisRect>, b: seq<AxisRect>, positions: seq<LayoutPosition>, cs: seq<NodeId>)
    requires |positions| == |a| == |b| && IdsBelow(cs, |a|)
    requires forall k :: 0 <= k < |cs| && positions[cs[k]] != Absolute ==> a[cs[k]].preferred == b[cs[k]].preferred
    ensures InFlowMinSpace(a, positions, cs) == InFlowMinSpace(b, positions, cs)
    decreases |cs|
  {
    if |cs| > 0 {
      assert forall k :: 0 <= k < |cs[1..]| ==> cs[1..][k] == cs[k + 1];
      InFlowMinSpaceIgnoresAbsolute(a, b, positions, cs[1..]);
    }
  }

  /** The children that take part in growing: in-flow and without an exact size. */
  function Pool(arena: seq<AxisRect>, positions: seq<LayoutPosition>, cs: seq<NodeId>): (pool: seq<NodeId>)
    requires |positions| == |arena| && IdsBelow(cs, |arena|)
    ensures IdsBelow(pool, |arena|)
    ensures forall c :: c in pool <==> c in cs && !arena[c].preferred.EqualTo? && positions[c] != Absolute
    decreases |cs|
  {
    if |cs| == 0 then []
    else
      var rest := Pool(arena, positions, cs[1..]);
      if !arena[cs[0]].preferred.EqualTo? && positions[cs[0]] != Absolute then [cs[0]] + rest else rest
  }

  /** The sum of the flex-grow factors of the listed children. */
  function SumFactors(grows: seq<real>, cs: seq<NodeId>): real
    requires IdsBelow(cs, |grows|)
    decreases |cs|
  {
    if |cs| == 0 then 0.0 else grows[cs[0]] + SumFactors(grows, cs[1..])
  }

  /** The sum of the solved sizes of the listed nodes. */
  function SumTotals(arena: seq<AxisRect>, cs: seq<NodeId>): real
    requires IdsBelow(cs, |arena|)
    decreases |cs|
  {
    if |cs| == 0 then 0.0 else arena[cs[0]].Total() + SumTotals(arena, cs[1..])
  }

  /** A child would outgrow its maximum if `share * factor` were added to its current size. */
  predicate Violates(rect: AxisRect, factor: real, share: real) {
    rect.preferred.MaxAvailableSpace().Some? &&
    rect.Total() + share * factor > rect.preferred.MaxAvailableSpace().value
  }

  /**
    The size a pool child gets in one growing round: its maximum when growing
    would exceed it, and otherwise `share * factor` itself (not added to its
    current size).
  */
  function GrownTotal(rect: AxisRect, factor: real, share: real): real {
    if Violates(rect, factor, share) then rect.preferred.MaxAvailableSpace().value else share * factor
  }

  /** One round of growing: every pool child gets its grown size at once. */
  function GrowRound(arena: seq<AxisRect>, grows: seq<real>, pool: seq<NodeId>, share: real): (r: seq<AxisRect>)
    requires |grows| == |arena|
    ensures OnlyGrowChanged(arena, r, set c | c in pool)
    ensures forall c :: 0 <= c < |arena| && c in pool ==> r[c].Total() == GrownTotal(arena[c], grows[c], share)
  {
    seq(|arena|, i requires 0 <= i < |arena| =>
      if i in pool then arena[i].WithTotal(GrownTotal(arena[i], grows[i], share)) else arena[i])
  }

  /** The pool split into the children that violate their maximum this round and those that do not. */
  function SplitViolators(arena: seq<AxisRect>, grows: seq<real>, pool: seq<NodeId>, share: real): (r: (seq<NodeId>, seq<NodeId>))
    requires |grows| == |arena| && IdsBelow(pool, |arena|)
    ensures |r.0| + |r.1| == |pool|
    ensures IdsBelow(r.0, |arena|) && IdsBelow(r.1, |arena|)
    ensures forall c :: c in r.0 <==> c in pool && Violates(arena[c], grows[c], share)
    ensures forall c :: c in r.1 <==> c in pool && !Violates(arena[c], grows[c], share)
    ensures |r.0| == 0 <==> forall c :: c in pool ==> !Violates(arena[c], grows[c], share)
    decreases |pool|
  {
    if |pool| == 0 then ([], [])
    else
      var rest := SplitViolators(arena, grows, pool[1..], share);
      if Violates(arena[pool[0]], grows[pool[0]], share) then ([pool[0]] + rest.0, rest.1) else (rest.0, [pool[0]] + rest.1)
  }

  /**
    The round's size as the source computes it in single precision: the
    share is `avail / combined`, the grown amount `share * factor`, the
    violation test compares `total + amount` with the maximum, and the
    record's total becomes `min + (amount - min)`.
  */
  function GrownTotalAsWritten(rect: AxisRect, factor: real, avail: real, combined: real): (r: Floats.Float)
  {
    var added := Floats.Mul(Floats.Div(avail, combined), factor);
    var max := rect.preferred.MaxAvailableSpace();
    var total := if max.Some? && Floats.Greater(Floats.Add(rect.Total(), added), max.value)
                 then Floats.Finite(max.value) else added;
    Floats.Add(rect.minInnerSizePx, Floats.Sub(total, rect.minInnerSizePx))
  }

  /** Whenever the factors do not sum to zero, the single-precision round agrees with `GrownTotal`. */
  lemma AsWrittenAgreesWhenShareable(rect: AxisRect, factor: real, avail: real, combined: real)
    requires combined != 0.0
    ensures GrownTotalAsWritten(rect, factor, avail, combined) == Floats.Finite(GrownTotal(rect, factor, avail / combined))
  {
  }

  /**
    With space to share and every pool factor zero, the source divides by
    zero: the share is infinite, every child's amount `inf * 0` is not a
    number, no maximum test can fire, and every pool child's size becomes
    not-a-number. `GrowDone` stops the loop before this round instead
    (see `ZeroFactorsKeepStart`).
  */
  lemma ZeroFactorsGiveNaN(rect: AxisRect, avail: real)
    requires avail > 0.0
    ensures GrownTotalAsWritten(rect, 0.0, avail, 0.0) == Floats.NaN
  {
  }

  /** `DEFAULT_FLEX_GROW_FACTOR`, used when a node sets no `flex-grow`. */
  const DefaultFlexGrow: real := 1.0

  /**
    `get_layout_flex_grows` for one node: a configured factor is clamped at
    zero from below, an unset one is the default.
  */
  function FlexGrowFactor(configured: Option<real>): (g: real)
    ensures 0.0 <= g
    ensures configured.Some? ==> (g == configured.value <==> configured.value >= 0.0)
    ensures configured.Some? && configured.value < 0.0 ==> g == 0.0
    ensures configured.None? ==> g == DefaultFlexGrow
  {
    match configured
    case Some(x) => if x > 0.0 then x else 0.0
    case None => DefaultFlexGrow
  }

  /** The factors of all nodes, which the growing loop may rely on to be non-negative. */
  function FlexGrows(configured: seq<Option<real>>): (grows: seq<real>)
    ensures |grows| == |configured|
    ensures NonNegative(grows)
    ensures forall i :: 0 <= i < |grows| ==> grows[i] == FlexGrowFactor(configured[i])
  {
    seq(|configured|, i requires 0 <= i < |configured| => FlexGrowFactor(configured[i]))
  }

  /** The running state of the growing loop: sizes so far, the children still growing, the space left. */
  datatype GrowState = GrowState(arena: seq<AxisRect>, pool: seq<NodeId>, avail: real)

  /** Whether the loop stops before another round: no space, no pool, or nothing to share by. */
  predicate GrowDone(s: GrowState, grows: seq<real>)
    requires IdsBelow(s.pool, |grows|)
  {
    s.avail <= 0.0 || |s.pool| == 0 || SumFactors(grows, s.pool) == 0.0
  }

  /**
    One round with a given share per unit of factor: every pool child
    grows; the children that hit their maximum leave the pool and their
    sizes leave the space. The boolean is true when nobody hit a maximum.
  */
  function RoundWith(s: GrowState, grows: seq<real>, share: real): (r: (GrowState, bool))
    requires |grows| == |s.arena| && IdsBelow(s.pool, |s.arena|)
    ensures |r.0.arena| == |s.arena| && IdsBelow(r.0.pool, |s.arena|)
    ensures r.0.arena == GrowRound(s.arena, grows, s.pool, share)
    ensures r.0.pool == SplitViolators(s.arena, grows, s.pool, share).1
    ensures r.1 <==> forall c :: c in s.pool ==> !Violates(s.arena[c], grows[c], share)
    ensures r.0.avail == s.avail - (SumTotals(r.0.arena, s.pool) - SumTotals(r.0.arena, r.0.pool))
  {
    var next := GrowRound(s.arena, grows, s.pool, share);
    var split := SplitViolators(s.arena, grows, s.pool, share);
    SplitSums(next, s.arena, grows, s.pool, share);
    (GrowState(next, split.1, s.avail - SumTotals(next, split.0)), |split.0| == 0)
  }

  /** Splitting the pool into violators and the rest splits any sum of sizes over it. */
  lemma {:induction false} SplitSums(x: seq<AxisRect>, arena: seq<AxisRect>, grows: seq<real>, pool: seq<NodeId>, share: real)
    requires |grows| == |arena| == |x| && IdsBelow(pool, |arena|)
    ensures var split := SplitViolators(arena, grows, pool, share);
      SumTotals(x, pool) == SumTotals(x, split.0) + SumTotals(x, split.1)
    decreases |pool|
  {
    if |pool| > 0 {
      SplitSums(x, arena, grows, pool[1..], share);
      var rest := SplitViolators(arena, grows, pool[1..], share);
      assert ([pool[0]] + rest.0)[1..] == rest.0 && ([pool[0]] + rest.1)[1..] == rest.1;
    }
  }

  /** One round of the loop: the space is shared out by the summed factors of the pool. */
  function GrowStep(s: GrowState, grows: seq<real>): (r: (GrowState, bool))
    requires |grows| == |s.arena| && IdsBelow(s.pool, |s.arena|) && !GrowDone(s, grows)
    ensures |r.0.arena| == |s.arena| && IdsBelow(r.0.pool, |s.arena|)
    ensures r.1 || |r.0.pool| < |s.pool|
    ensures forall c :: c in r.0.pool ==> c in s.pool
    ensures OnlyGrowChanged(s.arena, r.0.arena, set c | c in s.pool)
    ensures r.0.avail == s.avail - (SumTotals(r.0.arena, s.pool) - SumTotals(r.0.arena, r.0.pool))
    ensures forall c :: c in s.pool && c !in r.0.pool ==>
      s.arena[c].preferred.MaxAvailableSpace().Some? && r.0.arena[c].Total() == s.arena[c].preferred.MaxAvailableSpace().value
    ensures r.1 ==> SumTotals(r.0.arena, s.pool) == s.avail
  {
    var share := s.avail / SumFactors(grows, s.pool);
    var r := RoundWith(s, grows, share);
    if r.1 then FullRoundFills(s.arena, grows, s.pool, s.avail); r else r
  }

  /** A round in which nobody hits a maximum hands out all of the space. */
  lemma FullRoundFills(arena: seq<AxisRect>, grows: seq<real>, pool: seq<NodeId>, avail: real)
    requires |grows| == |arena| && IdsBelow(pool, |arena|) && SumFactors(grows, pool) != 0.0
    requires forall c :: c in pool ==> !Violates(arena[c], grows[c], avail / SumFactors(grows, pool))
    ensures SumTotals(GrowRound(arena, grows, pool, avail / SumFactors(grows, pool)), pool) == avail
  {
    RoundWithoutViolators(arena, grows, pool, avail / SumFactors(grows, pool));
    ShareTimesCombined(avail, SumFactors(grows, pool));
  }

  /** When nobody in the pool hits a maximum, a round hands out `share` per unit of factor. */
  lemma RoundWithoutViolators(arena: seq<AxisRect>, grows: seq<real>, pool: seq<NodeId>, share: real)
    requires |grows| == |arena| && IdsBelow(pool, |arena|)
    requires forall c :: c in pool ==> !Violates(arena[c], grows[c], share)
    ensures SumTotals(GrowRound(arena, grows, pool, share), pool) == share * SumFactors(grows, pool)
  {
    var next := GrowRound(arena, grows, pool, share);
    forall k | 0 <= k < |pool|
      ensures next[pool[k]].Total() == share * grows[pool[k]]
    {
      assert pool[k] in pool;
    }
    SumOfShares(next, grows, share, pool);
  }

  /**
    The growing loop: rounds until the space or the pool runs out or a round
    has no violator. When the factors of the pool add up to zero there is
    nothing to share and the loop stops with every child at its start size.
  */
  function GrowLoop(arena: seq<AxisRect>, grows: seq<real>, pool: seq<NodeId>, avail: real): (r: seq<AxisRect>)
    requires |grows| == |arena| && IdsBelow(pool, |arena|)
    ensures OnlyGrowChanged(arena, r, set c | c in pool)
    decreases |pool|
  {
    var s := GrowState(arena, pool, avail);
    if GrowDone(s, grows) then arena
    else
      var (next, finished) := GrowStep(s, grows);
      if finished then next.arena
      else
        var r := GrowLoop(next.arena, grows, next.pool, next.avail);
        SubFrame(arena, next.arena, r, pool, next.pool);
        r
  }

  /** A frame over `pool` followed by one over a sub-pool is a frame over `pool`. */
  lemma SubFrame(a: seq<AxisRect>, b: seq<AxisRect>, c: seq<AxisRect>, pool: seq<NodeId>, sub: seq<NodeId>)
    requires OnlyGrowChanged(a, b, set x | x in pool) && OnlyGrowChanged(b, c, set x | x in sub)
    requires forall x :: x in sub ==> x in pool
    ensures OnlyGrowChanged(a, c, set x | x in pool)
  {
    OnlyGrowChangedTrans(a, b, c, set x | x in pool, set x | x in sub);
    OnlyGrowChangedWeaken(a, c, (set x | x in pool) + (set x | x in sub), set x | x in pool);
  }

  /** One unfolding of the loop: a round, then either the end or the loop on what the round left. */
  lemma GrowLoopUnfold(arena: seq<AxisRect>, grows: seq<real>, pool: seq<NodeId>, avail: real)
    requires |grows| == |arena| && IdsBelow(pool, |arena|)
    requires !GrowDone(GrowState(arena, pool, avail), grows)
    ensures var (next, finished) := GrowStep(GrowState(arena, pool, avail), grows);
      GrowLoop(arena, grows, pool, avail) == if finished then next.arena else GrowLoop(next.arena, grows, next.pool, next.avail)
  {
  }

  /** The loop as the solver runs it, with a mutable pool and running space. */
  method GrowPool(arena: seq<AxisRect>, grows: seq<real>, pool: seq<NodeId>, avail: real) returns (r: seq<AxisRect>)
    requires |grows| == |arena| && IdsBelow(pool, |arena|)
    ensures r == GrowLoop(arena, grows, pool, avail)
  {
    var s := GrowState(arena, pool, avail);
    while !GrowDone(s, grows)
      invariant |s.arena| == |arena| && IdsBelow(s.pool, |arena|)
      invariant GrowLoop(s.arena, grows, s.pool, s.avail) == GrowLoop(arena, grows, pool, avail)
      decreases |s.pool|
    {
      var step := GrowStep(s, grows);
      if step.1 {
        return step.0.arena;
      }
      s := step.0;
    }
    return s.arena;
  }

  /**
    Whether the loop ends on a round in which nobody hits a maximum, rather
    than on running out of space, pool or factors. When every remaining
    child has been capped, or the caps took all the space, what is left of
    the space is not handed out.
  */
  ghost predicate EndsOnFullRound(arena: seq<AxisRect>, grows: seq<real>, pool: seq<NodeId>, avail: real)
    requires |grows| == |arena| && IdsBelow(pool, |arena|)
    decreases |pool|
  {
    var s := GrowState(arena, pool, avail);
    && !GrowDone(s, grows)
    && var (next, finished) := GrowStep(s, grows);
       finished || EndsOnFullRound(next.arena, grows, next.pool, next.avail)
  }

  /**
    Growing conserves the space: a child that hits its maximum keeps it and
    its size leaves the space, and the round that ends the loop hands out
    all that is left. So when the loop ends on such a round, the sizes of
    the pool add up to exactly the available space, maximums or not.
  */
  lemma {:induction false} GrowConserves(arena: seq<AxisRect>, grows: seq<real>, pool: seq<NodeId>, avail: real)
    requires |grows| == |arena| && IdsBelow(pool, |arena|)
    requires EndsOnFullRound(arena, grows, pool, avail)
    ensures SumTotals(GrowLoop(arena, grows, pool, avail), pool) == avail
    decreases |pool|
  {
    var s := GrowState(arena, pool, avail);
    var share := avail / SumFactors(grows, pool);
    GrowStepShare(s, grows, share);
    var (next, finished) := GrowStep(s, grows);
    GrowLoopUnfold(arena, grows, pool, avail);
    if !finished {
      GrowConserves(next.arena, grows, next.pool, next.avail);
      ConservedByRound(arena, grows, pool, avail, share, next, GrowLoop(next.arena, grows, next.pool, next.avail));
    }
  }

  /**
    One capped round keeps the books: if the rest of the loop hands the
    remaining pool exactly the remaining space, the whole pool gets exactly
    the space it started with.
  */
  lemma ConservedByRound(arena: seq<AxisRect>, grows: seq<real>, pool: seq<NodeId>, avail: real, share: real,
                         next: GrowState, r: seq<AxisRect>)
    requires |grows| == |arena| == |next.arena| && IdsBelow(pool, |arena|)
    requires next.pool == SplitViolators(arena, grows, pool, share).1
    requires next.avail == avail - (SumTotals(next.arena, pool) - SumTotals(next.arena, next.pool))
    requires OnlyGrowChanged(next.arena, r, set c | c in next.pool)
    requires SumTotals(r, next.pool) == next.avail
    ensures SumTotals(r, pool) == avail
  {
    var split := SplitViolators(arena, grows, pool, share);
    forall k | 0 <= k < |split.0|
      ensures r[split.0[k]].Total() == next.arena[split.0[k]].Total()
    {
      assert split.0[k] !in split.1;
    }
    SameTotals(next.arena, r, split.0);
    SplitSums(r, arena, grows, pool, share);
    SplitSums(next.arena, arena, grows, pool, share);
  }

  /** Sums over `cs` only see the sizes of the nodes in `cs`. */
  lemma {:induction false} SameTotals(a: seq<AxisRect>, b: seq<AxisRect>, cs: seq<NodeId>)
    requires IdsBelow(cs, |a|) && IdsBelow(cs, |b|)
    requires forall k :: 0 <= k < |cs| ==> b[cs[k]].Total() == a[cs[k]].Total()
    ensures SumTotals(b, cs) == SumTotals(a, cs)
    decreases |cs|
  {
    if |cs| > 0 {
      assert forall k :: 0 <= k < |cs[1..]| ==> cs[1..][k] == cs[k + 1];
      SameTotals(a, b, cs[1..]);
    }
  }

  /** A child that hits its maximum in a round leaves the pool and ends the loop at exactly its maximum. */
  lemma ViolatorEndsAtMax(arena: seq<AxisRect>, grows: seq<real>, pool: seq<NodeId>, avail: real, c: NodeId)
    requires |grows| == |arena| && IdsBelow(pool, |arena|)
    requires !GrowDone(GrowState(arena, pool, avail), grows)
    requires c in pool && Violates(arena[c], grows[c], avail / SumFactors(grows, pool))
    ensures GrowLoop(arena, grows, pool, avail)[c].Total() == arena[c].preferred.MaxAvailableSpace().value
  {
    var s := GrowState(arena, pool, avail);
    GrowStepShare(s, grows, avail / SumFactors(grows, pool));
    var (next, finished) := GrowStep(s, grows);
    assert c !in next.pool && !finished;
    GrowLoopUnfold(arena, grows, pool, avail);
    var r := GrowLoop(next.arena, grows, next.pool, next.avail);
    assert r[c] == next.arena[c];
  }

  /** Without maximums in the pool, with space to share and factors to share by, the first round ends the loop. */
  lemma UncappedEndsOnFullRound(arena: seq<AxisRect>, grows: seq<real>, pool: seq<NodeId>, avail: real)
    requires |grows| == |arena| && IdsBelow(pool, |arena|)
    requires forall c :: c in pool ==> arena[c].preferred.MaxAvailableSpace().None?
    requires avail > 0.0 && SumFactors(grows, pool) != 0.0
    ensures EndsOnFullRound(arena, grows, pool, avail)
  {
    var share := avail / SumFactors(grows, pool);
    UncappedRound(arena, grows, pool, share);
    GrowStepShare(GrowState(arena, pool, avail), grows, share);
  }

  /** A solved size that is neither negative nor above the node's maximum. */
  predicate InRange(rect: AxisRect) {
    0.0 <= rect.Total() &&
    (rect.preferred.MaxAvailableSpace().Some? ==> rect.Total() <= rect.preferred.MaxAvailableSpace().value)
  }

  /** Every pool child is in range. */
  ghost predicate PoolInRange(arena: seq<AxisRect>, pool: seq<NodeId>)
    requires IdsBelow(pool, |arena|)
  {
    forall c :: c in pool ==> InRange(arena[c])
  }

  ghost predicate NonNegative(grows: seq<real>) {
    forall i :: 0 <= i < |grows| ==> 0.0 <= grows[i]
  }

  /**
    Growing never pushes a child past its maximum and never below zero: if
    every pool child starts within `[0, max]` and the factors are
    non-negative, every pool child ends within `[0, max]`.
  */
  lemma {:induction false} GrowRespectsMax(arena: seq<AxisRect>, grows: seq<real>, pool: seq<NodeId>, avail: real)
    requires |grows| == |arena| && IdsBelow(pool, |arena|)
    requires NonNegative(grows) && PoolInRange(arena, pool)
    ensures PoolInRange(GrowLoop(arena, grows, pool, avail), pool)
    decreases |pool|
  {
    var s := GrowState(arena, pool, avail);
    if !GrowDone(s, grows) {
      FactorsNonNegative(grows, pool);
      var share := avail / SumFactors(grows, pool);
      RoundInRange(arena, grows, pool, share);
      var (next, finished) := GrowStep(s, grows);
      if !finished {
        var r := GrowLoop(next.arena, grows, next.pool, next.avail);
        assert PoolInRange(next.arena, next.pool);
        GrowRespectsMax(next.arena, grows, next.pool, next.avail);
        forall c | c in pool
          ensures InRange(r[c])
        {
          if c !in next.pool {
            assert r[c] == next.arena[c];
          }
        }
      }
    }
  }

  /** One round with a non-negative share keeps the pool within `[0, max]`. */
  lemma RoundInRange(arena: seq<AxisRect>, grows: seq<real>, pool: seq<NodeId>, share: real)
    requires |grows| == |arena| && IdsBelow(pool, |arena|)
    requires NonNegative(grows) && PoolInRange(arena, pool) && 0.0 <= share
    ensures PoolInRange(GrowRound(arena, grows, pool, share), pool)
  {
    var next := GrowRound(arena, grows, pool, share);
    forall c | c in pool
      ensures InRange(next[c])
    {
      assert next[c].Total() == GrownTotal(arena[c], grows[c], share);
      assert next[c].preferred == arena[c].preferred;
      assert 0.0 <= share * grows[c];
    }
  }

  lemma {:induction false} FactorsNonNegative(grows: seq<real>, cs: seq<NodeId>)
    requires IdsBelow(cs, |grows|) && NonNegative(grows)
    ensures 0.0 <= SumFactors(grows, cs)
    decreases |cs|
  {
    if |cs| > 0 {
      FactorsNonNegative(grows, cs[1..]);
    }
  }

  /** Sizes of `share * factor` add up to `share` times the factors. */
  lemma {:induction false} SumOfShares(next: seq<AxisRect>, grows: seq<real>, share: real, cs: seq<NodeId>)
    requires |grows| == |next| && IdsBelow(cs, |next|)
    requires forall k :: 0 <= k < |cs| ==> next[cs[k]].Total() == share * grows[cs[k]]
    ensures SumTotals(next, cs) == share * SumFactors(grows, cs)
    decreases |cs|
  {
    if |cs| > 0 {
      SumOfShares(next, grows, share, cs[1..]);
      Distributes(share, grows[cs[0]], SumFactors(grows, cs[1..]));
    }
  }

  lemma ShareTimesCombined(avail: real, combined: real)
    requires combined != 0.0
    ensures (avail / combined) * combined == avail
  {
  }

  lemma Distributes(x: real, a: real, b: real)
    ensures x * (a + b) == x * a + x * b
  {
  }

  /** Without maximum sizes in the pool, the loop stops after one round at the even share. */
  lemma UncappedLoop(arena: seq<AxisRect>, grows: seq<real>, pool: seq<NodeId>, avail: real)
    requires |grows| == |arena| && IdsBelow(pool, |arena|)
    requires forall c :: c in pool ==> arena[c].preferred.MaxAvailableSpace().None?
    requires avail > 0.0 && SumFactors(grows, pool) != 0.0
    ensures GrowLoop(arena, grows, pool, avail) == GrowRound(arena, grows, pool, avail / SumFactors(grows, pool))
  {
    var s := GrowState(arena, pool, avail);
    var share := avail / SumFactors(grows, pool);
    UncappedRound(arena, grows, pool, share);
    GrowLoopUnfold(arena, grows, pool, avail);
    GrowStepShare(s, grows, share);
  }

  /** The grown sizes of a pool given `share` per factor unit add up to `share` times the factors. */
  lemma {:induction false} EvenShareTotal(arena: seq<AxisRect>, grows: seq<real>, pool: seq<NodeId>, share: real)
    requires |grows| == |arena| && IdsBelow(pool, |arena|)
    requires forall c :: c in pool ==> arena[c].preferred.MaxAvailableSpace().None?
    ensures SumTotals(GrowRound(arena, grows, pool, share), pool) == share * SumFactors(grows, pool)
  {
    UncappedRound(arena, grows, pool, share);
    SumOfShares(GrowRound(arena, grows, pool, share), grows, share, pool);
  }

  /**
    Without maximum sizes in the pool, growing hands out exactly the available
    space: the grown sizes of the pool add up to `avail`.
  */
  lemma {:induction false} GrowFillsAvailable(arena: seq<AxisRect>, grows: seq<real>, pool: seq<NodeId>, avail: real)
    requires |grows| == |arena| && IdsBelow(pool, |arena|)
    requires forall c :: c in pool ==> arena[c].preferred.MaxAvailableSpace().None?
    requires avail > 0.0 && SumFactors(grows, pool) != 0.0
    ensures SumTotals(GrowLoop(arena, grows, pool, avail), pool) == avail
  {
    UncappedLoop(arena, grows, pool, avail);
    EvenShareTotal(arena, grows, pool, avail / SumFactors(grows, pool));
    ShareTimesCombined(avail, SumFactors(grows, pool));
  }

  lemma UncappedRound(arena: seq<AxisRect>, grows: seq<real>, pool: seq<NodeId>, share: real)
    requires |grows| == |arena| && IdsBelow(pool, |arena|)
    requires forall c :: c in pool ==> arena[c].preferred.MaxAvailableSpace().None?
    ensures |SplitViolators(arena, grows, pool, share).0| == 0
    ensures forall k :: 0 <= k < |pool| ==> GrowRound(arena, grows, pool, share)[pool[k]].Total() == share * grows[pool[k]]
  {
    var next := GrowRound(arena, grows, pool, share);
    forall k | 0 <= k < |pool|
      ensures next[pool[k]].Total() == share * grows[pool[k]]
    {
      assert pool[k] in pool;
    }
  }

  /** When every pool factor is zero, growing stops and leaves every child at its start size. */
  lemma ZeroFactorsKeepStart(arena: seq<AxisRect>, grows: seq<real>, pool: seq<NodeId>, avail: real)
    requires |grows| == |arena| && IdsBelow(pool, |arena|)
    requires forall c :: c in pool ==> grows[c] == 0.0
    ensures GrowLoop(arena, grows, pool, avail) == arena
  {
    ZeroFactorsSum(grows, pool);
  }

  lemma {:induction false} ZeroFactorsSum(grows: seq<real>, cs: seq<NodeId>)
    requires IdsBelow(cs, |grows|)
    requires forall c :: c in cs ==> grows[c] == 0.0
    ensures SumFactors(grows, cs) == 0.0
    decreases |cs|
  {
    if |cs| > 0 {
      assert cs[0] in cs;
      assert forall c :: c in cs[1..] ==> c in cs;
      ZeroFactorsSum(grows, cs[1..]);
    }
  }

  /** The arena of the capped example: three children at size 0, the first capped at 50 px, all with factor 1. */
  ghost predicate CappedSetup(a: seq<AxisRect>, g: seq<real>) {
    && |a| == |g| == 4
    && a[1].preferred == Between(0.0, 50.0) && a[2].preferred == Unconstrained && a[3].preferred == Unconstrained
    && a[1].Total() == 0.0 && a[2].Total() == 0.0 && a[3].Total() == 0.0
    && g[1] == 1.0 && g[2] == 1.0 && g[3] == 1.0
  }

  /**
    Three equal factors in 300 px, the first child capped at 50 px: the cap
    is hit in the first round, and the remaining 250 px go to the other two.
  */
  lemma CappedChildExample(a: seq<AxisRect>, g: seq<real>)
    requires CappedSetup(a, g)
    ensures var r := GrowLoop(a, g, [1, 2, 3], 300.0);
      r[1].Total() == 50.0 && r[2].Total() == 125.0 && r[3].Total() == 125.0
  {
    var next := CappedFirstRound(a, g);
    CappedSecondRound(next, g);
  }

  /** Membership facts of the small pools of the examples, stated once so that the rounds need not search for them. */
  lemma ExamplePools()
    ensures 1 in [1, 2, 3] && 2 in [1, 2, 3] && 3 in [1, 2, 3]
    ensures 1 !in [2, 3] && 2 in [2, 3] && 3 in [2, 3]
    ensures 1 in [1, 2] && 2 in [1, 2]
    ensures [1, 2, 3][1..] == [2, 3] && [2, 3][1..] == [3] && [1, 2][1..] == [2] && [1][1..] == [] && [3][1..] == []
    ensures [3] + [] == [3] && [2] + [3] == [2, 3] && [1] + [] == [1]
  {
  }

  /** First round of the capped example: 100 px each, the capped child is fixed at 50 px and leaves. */
  lemma CappedFirstRound(a: seq<AxisRect>, g: seq<real>) returns (next: seq<AxisRect>)
    requires CappedSetup(a, g)
    ensures |next| == 4 && next[1].Total() == 50.0 && next[2].preferred == next[3].preferred == Unconstrained
    ensures GrowLoop(a, g, [1, 2, 3], 300.0) == GrowLoop(next, g, [2, 3], 250.0)
  {
    ExamplePools();
    assert SumFactors(g, [1, 2, 3]) == 3.0;
    assert 300.0 / SumFactors(g, [1, 2, 3]) == 100.0;
    CappedFirstSplit(a, g);
    next := CappedFirstSizes(a, g);
    assert SumTotals(next, [1, 2, 3]) == 50.0 + SumTotals(next, [2, 3]);
    GrowStepShare(GrowState(a, [1, 2, 3], 300.0), g, 100.0);
    GrowLoopUnfold(a, g, [1, 2, 3], 300.0);
  }

  /** A round of the loop is the round with the share the space and the factors give. */
  lemma GrowStepShare(s: GrowState, grows: seq<real>, share: real)
    requires |grows| == |s.arena| && IdsBelow(s.pool, |s.arena|) && !GrowDone(s, grows)
    requires s.avail / SumFactors(grows, s.pool) == share
    ensures GrowStep(s, grows) == RoundWith(s, grows, share)
  {
  }

  lemma CappedFirstSizes(a: seq<AxisRect>, g: seq<real>) returns (next: seq<AxisRect>)
    requires CappedSetup(a, g)
    ensures next == GrowRound(a, g, [1, 2, 3], 100.0)
    ensures |next| == 4 && next[1].Total() == 50.0 && next[2].preferred == next[3].preferred == Unconstrained
  {
    ExamplePools();
    next := GrowRound(a, g, [1, 2, 3], 100.0);
    assert next[1].Total() == GrownTotal(a[1], 1.0, 100.0);
    assert SameButGrow(next[2], a[2]) && SameButGrow(next[3], a[3]);
  }

  lemma CappedFirstSplit(a: seq<AxisRect>, g: seq<real>)
    requires CappedSetup(a, g)
    ensures SplitViolators(a, g, [1, 2, 3], 100.0) == ([1], [2, 3])
  {
    ExamplePools();
    assert SplitViolators(a, g, [3], 100.0) == ([], [3]);
    assert SplitViolators(a, g, [2, 3], 100.0) == ([], [2, 3]);
  }

  /** Second round of the capped example: 250 px shared by the two uncapped children. */
  lemma CappedSecondRound(next: seq<AxisRect>, g: seq<real>)
    requires |next| == |g| == 4 && next[1].Total() == 50.0 && next[2].preferred == next[3].preferred == Unconstrained
    requires g[1] == 1.0 && g[2] == 1.0 && g[3] == 1.0
    ensures var r := GrowLoop(next, g, [2, 3], 250.0);
      r[1].Total() == 50.0 && r[2].Total() == 125.0 && r[3].Total() == 125.0
  {
    ExamplePools();
    assert SumFactors(g, [2, 3]) == 2.0;
    assert SplitViolators(next, g, [2, 3], 125.0).0 == [];
  }

  /**
    A grown child is sized `share * factor`, not its minimum plus that: with
    60 px to share between two children and the first one at its 40 px
    minimum, that child ends at 30 px, below its own minimum.
  */
  lemma GrownSizeDropsMinimumExample(a: seq<AxisRect>, g: seq<real>)
    requires |a| == |g| == 3 && g[1] == 1.0 && g[2] == 1.0
    requires a[1].preferred == Between(40.0, 1000.0) && a[1].Total() == 40.0
    requires a[2].preferred == Unconstrained
    ensures var r := GrowLoop(a, g, [1, 2], 60.0);
      r[1].Total() == 30.0 && r[1].Total() < r[1].preferred.min
  {
    ExamplePools();
    assert SumFactors(g, [1, 2]) == 2.0;
    assert SplitViolators(a, g, [1, 2], 30.0).0 == [];
    var r := GrowLoop(a, g, [1, 2], 60.0);
    assert SameButGrow(r[1], a[1]);
  }

  /**
    Main-axis distribution for parent `p`: the in-flow children's start sizes
    are taken from the parent's inner size (its total minus padding), and what
    is left is grown into the pool.
  */
  function DistributeMain(arena: seq<AxisRect>, t: Tree, positions: seq<LayoutPosition>, grows: seq<real>, p: NodeId, anchor: NodeId): (r: seq<AxisRect>)
    requires t.Valid() && |arena| == |positions| == |grows| == t.Size() && p < t.Size() && anchor < t.Size()
    ensures OnlyGrowChanged(arena, r, set c | c in t.children[p])
    ensures forall c :: c in t.children[p] && arena[c].preferred.EqualTo? ==> r[c].Total() == arena[c].preferred.px
    ensures forall c :: c in t.children[p] && !arena[c].preferred.EqualTo? && positions[c] == Absolute ==>
      r[c].Total() == AbsoluteSize(arena[c].preferred, arena[anchor].Total())
    ensures NonNegative(grows) && (forall c :: c in t.children[p] ==> WellFormed(arena[c].preferred)) ==>
      forall c :: c in t.children[p] && positions[c] != Absolute ==> InRange(r[c])
    ensures IdsBelow(t.children[p], |arena|)
    ensures var budget := Budget(arena, t, positions, p);
      var pool := Pool(arena, positions, t.children[p]);
      && (forall c :: c in t.children[p] && positions[c] != Absolute && !arena[c].preferred.EqualTo? ==>
            arena[c].preferred.Unconstrained?)
      && budget > 0.0 && SumFactors(grows, pool) != 0.0
      ==> SumTotals(r, pool) == budget
    ensures var budget := Budget(arena, t, positions, p);
      var pool := Pool(arena, positions, t.children[p]);
      EndsOnFullRound(MainStart(arena, t, positions, p, anchor), grows, pool, budget) ==> SumTotals(r, pool) == budget
  {
    assert IdsBelow(t.children[p], |arena|);
    var start := MainStart(arena, t, positions, p, anchor);
    var avail := Budget(arena, t, positions, p);
    var r := GrowLoop(start, grows, Pool(start, positions, t.children[p]), avail);
    MainFrame(arena, t, positions, grows, p, anchor, start, avail, r);
    MainRespectsMax(arena, t, positions, grows, p, anchor, avail);
    MainBudget(arena, t, positions, grows, p, anchor, start, avail, r);
    MainConserves(arena, t, positions, grows, p, anchor, start, avail, r);
    r
  }

  /**
    The space the pool of `p` shares: the parent's inner size (its total
    less its padding) less the space the in-flow children take before
    growing.
  */
  function Budget(arena: seq<AxisRect>, t: Tree, positions: seq<LayoutPosition>, p: NodeId): real
    requires t.Valid() && |arena| == |positions| == t.Size() && p < t.Size()
  {
    assert IdsBelow(t.children[p], |arena|);
    arena[p].Total() - arena[p].Padding() - InFlowMinSpace(arena, positions, t.children[p])
  }

  /** The inputs of `DistributeMain`'s lemmas: the start sizes, the space to share and the grown arena. */
  ghost predicate MainSteps(arena: seq<AxisRect>, t: Tree, positions: seq<LayoutPosition>, grows: seq<real>, p: NodeId, anchor: NodeId,
                            start: seq<AxisRect>, avail: real, r: seq<AxisRect>)
    requires t.Valid() && |arena| == |positions| == |grows| == t.Size() && p < t.Size() && anchor < t.Size()
  {
    assert IdsBelow(t.children[p], |arena|);
    && start == MainStart(arena, t, positions, p, anchor)
    && avail == Budget(arena, t, positions, p)
    && r == GrowLoop(start, grows, Pool(start, positions, t.children[p]), avail)
  }

  /** Only the children's grown parts change; exact and absolute children keep their start sizes. */
  lemma MainFrame(arena: seq<AxisRect>, t: Tree, positions: seq<LayoutPosition>, grows: seq<real>, p: NodeId, anchor: NodeId,
                  start: seq<AxisRect>, avail: real, r: seq<AxisRect>)
    requires t.Valid() && |arena| == |positions| == |grows| == t.Size() && p < t.Size() && anchor < t.Size()
    requires MainSteps(arena, t, positions, grows, p, anchor, start, avail, r)
    ensures OnlyGrowChanged(arena, r, set c | c in t.children[p])
    ensures forall c :: c in t.children[p] && arena[c].preferred.EqualTo? ==> r[c].Total() == arena[c].preferred.px
    ensures forall c :: c in t.children[p] && !arena[c].preferred.EqualTo? && positions[c] == Absolute ==>
      r[c].Total() == AbsoluteSize(arena[c].preferred, arena[anchor].Total())
  {
    var pool := Pool(start, positions, t.children[p]);
    SubFrame(arena, start, r, t.children[p], pool);
  }

  /** Without maximums among the growing children, the pool ends up with exactly the budget. */
  lemma MainBudget(arena: seq<AxisRect>, t: Tree, positions: seq<LayoutPosition>, grows: seq<real>, p: NodeId, anchor: NodeId,
                   start: seq<AxisRect>, avail: real, r: seq<AxisRect>)
    requires t.Valid() && |arena| == |positions| == |grows| == t.Size() && p < t.Size() && anchor < t.Size()
    requires MainSteps(arena, t, positions, grows, p, anchor, start, avail, r)
    ensures IdsBelow(t.children[p], |arena|)
    ensures var pool := Pool(arena, positions, t.children[p]);
      && (forall c :: c in t.children[p] && positions[c] != Absolute && !arena[c].preferred.EqualTo? ==>
            arena[c].preferred.Unconstrained?)
      && avail > 0.0 && SumFactors(grows, pool) != 0.0
      ==> SumTotals(r, pool) == avail
  {
    assert IdsBelow(t.children[p], |arena|);
    if (forall c :: c in t.children[p] && positions[c] != Absolute && !arena[c].preferred.EqualTo? ==>
          arena[c].preferred.Unconstrained?)
       && avail > 0.0 && SumFactors(grows, Pool(arena, positions, t.children[p])) != 0.0
    {
      FillsBudget(arena, start, positions, grows, t.children[p], avail);
    }
  }

  /**
    Whenever the growing ends on a round in which nobody hits a maximum, the
    pool ends up with exactly the budget, capped children included.
  */
  lemma MainConserves(arena: seq<AxisRect>, t: Tree, positions: seq<LayoutPosition>, grows: seq<real>, p: NodeId, anchor: NodeId,
                      start: seq<AxisRect>, avail: real, r: seq<AxisRect>)
    requires t.Valid() && |arena| == |positions| == |grows| == t.Size() && p < t.Size() && anchor < t.Size()
    requires MainSteps(arena, t, positions, grows, p, anchor, start, avail, r)
    ensures IdsBelow(t.children[p], |arena|)
    ensures var pool := Pool(arena, positions, t.children[p]);
      EndsOnFullRound(start, grows, pool, avail) ==> SumTotals(r, pool) == avail
  {
    assert IdsBelow(t.children[p], |arena|);
    var cs := t.children[p];
    assert forall k :: 0 <= k < |cs| ==> arena[cs[k]].preferred == start[cs[k]].preferred by {
      forall k | 0 <= k < |cs|
        ensures arena[cs[k]].preferred == start[cs[k]].preferred
      {
        assert SameButGrow(start[cs[k]], arena[cs[k]]);
      }
    }
    PoolSeesPreferred(arena, start, positions, cs);
    if EndsOnFullRound(start, grows, Pool(arena, positions, cs), avail) {
      GrowConserves(start, grows, Pool(arena, positions, cs), avail);
    }
  }

  /**
    With well-formed constraints and non-negative factors, no in-flow child of
    a main-axis distribution ends above its maximum or below zero.
  */
  lemma MainRespectsMax(arena: seq<AxisRect>, t: Tree, positions: seq<LayoutPosition>, grows: seq<real>, p: NodeId, anchor: NodeId, avail: real)
    requires t.Valid() && |arena| == |positions| == |grows| == t.Size() && p < t.Size() && anchor < t.Size()
    ensures var start := MainStart(arena, t, positions, p, anchor);
      var r := GrowLoop(start, grows, Pool(start, positions, t.children[p]), avail);
      NonNegative(grows) && (forall c :: c in t.children[p] ==> WellFormed(arena[c].preferred)) ==>
        forall c :: c in t.children[p] && positions[c] != Absolute ==> InRange(r[c])
  {
    assert IdsBelow(t.children[p], |arena|);
    var start := MainStart(arena, t, positions, p, anchor);
    var pool := Pool(start, positions, t.children[p]);
    var r := GrowLoop(start, grows, pool, avail);
    if NonNegative(grows) && (forall c :: c in t.children[p] ==> WellFormed(arena[c].preferred)) {
      forall c | c in pool
        ensures InRange(start[c])
      {
        StartInRange(arena, t, positions, p, anchor, c);
      }
      GrowRespectsMax(start, grows, pool, avail);
      forall c | c in t.children[p] && positions[c] != Absolute
        ensures InRange(r[c])
      {
        if c !in pool {
          StartInRange(arena, t, positions, p, anchor, c);
        }
      }
    }
  }

  /**
    When no growing child has a maximum, growing from the start sizes hands
    the pool exactly the space it is given.
  */
  lemma FillsBudget(arena: seq<AxisRect>, start: seq<AxisRect>, positions: seq<LayoutPosition>, grows: seq<real>, cs: seq<NodeId>, avail: real)
    requires |arena| == |start| == |positions| == |grows| && IdsBelow(cs, |arena|)
    requires forall i :: 0 <= i < |arena| ==> SameButGrow(start[i], arena[i])
    requires forall c :: c in cs && positions[c] != Absolute && !arena[c].preferred.EqualTo? ==>
      arena[c].preferred.Unconstrained?
    requires avail > 0.0 && SumFactors(grows, Pool(arena, positions, cs)) != 0.0
    ensures SumTotals(GrowLoop(start, grows, Pool(start, positions, cs), avail), Pool(arena, positions, cs)) == avail
  {
    PoolSeesPreferred(arena, start, positions, cs);
    NoMaximumInPool(arena, start, positions, cs);
    GrowFillsAvailable(start, grows, Pool(arena, positions, cs), avail);
  }

  /** Unconstrained variable in-flow children keep no maximum in the start arena. */
  lemma NoMaximumInPool(arena: seq<AxisRect>, start: seq<AxisRect>, positions: seq<LayoutPosition>, cs: seq<NodeId>)
    requires |arena| == |start| == |positions| && IdsBelow(cs, |arena|)
    requires forall i :: 0 <= i < |arena| ==> SameButGrow(start[i], arena[i])
    requires forall c :: c in cs && positions[c] != Absolute && !arena[c].preferred.EqualTo? ==>
      arena[c].preferred.Unconstrained?
    ensures forall c :: c in Pool(arena, positions, cs) ==> start[c].preferred.MaxAvailableSpace().None?
  {
    forall c | c in Pool(arena, positions, cs)
      ensures start[c].preferred.MaxAvailableSpace().None?
    {
      assert start[c].preferred == arena[c].preferred;
    }
  }

  /** Which children grow depends on nothing but their constraints and positions. */
  lemma {:induction false} PoolSeesPreferred(a: seq<AxisRect>, b: seq<AxisRect>, positions: seq<LayoutPosition>, cs: seq<NodeId>)
    requires |positions| == |a| == |b| && IdsBelow(cs, |a|)
    requires forall k :: 0 <= k < |cs| ==> a[cs[k]].preferred == b[cs[k]].preferred
    ensures Pool(a, positions, cs) == Pool(b, positions, cs)
    decreases |cs|
  {
    if |cs| > 0 {
      assert forall k :: 0 <= k < |cs[1..]| ==> cs[1..][k] == cs[k + 1];
      PoolSeesPreferred(a, b, positions, cs[1..]);
    }
  }

  /** An in-flow child with well-formed constraints starts in range. */
  lemma StartInRange(arena: seq<AxisRect>, t: Tree, positions: seq<LayoutPosition>, p: NodeId, anchor: NodeId, c: NodeId)
    requires t.Valid() && |arena| == |positions| == t.Size() && p < t.Size() && anchor < t.Size()
    requires c in t.children[p] && positions[c] != Absolute && WellFormed(arena[c].preferred)
    ensures InRange(MainStart(arena, t, positions, p, anchor)[c])
  {
    var start := MainStart(arena, t, positions, p, anchor);
    assert start[c].preferred == arena[c].preferred;
  }

  /**
    The cross-axis size of a child in a parent of inner size `inner`: its
    minimum when that overflows the parent, else the parent's inner size cut
    down to the child's maximum.
  */
  function CrossSize(pref: WhConstraint, inner: real): (r: real)
    ensures pref.MinNeededSpace().GetOr(0.0) > inner ==> r == pref.MinNeededSpace().GetOr(0.0)
    ensures pref.MinNeededSpace().GetOr(0.0) <= inner ==> r <= inner
    ensures pref.MinNeededSpace().GetOr(0.0) <= inner && r != inner ==> Some(r) == pref.MaxAvailableSpace()
    ensures pref.MinNeededSpace().GetOr(0.0) <= inner && pref.MaxAvailableSpace().Some? ==>
      r <= pref.MaxAvailableSpace().value
    ensures pref.MinNeededSpace().GetOr(0.0) <= inner && pref.MaxAvailableSpace().None? ==> r == inner
  {
    var lo := pref.MinNeededSpace().GetOr(0.0);
    if lo > inner then lo
    else if pref.MaxAvailableSpace().Some? then
      (if pref.MaxAvailableSpace().value > inner then inner else pref.MaxAvailableSpace().value)
    else inner
  }

  /** For a well-formed range, the cross size is the parent's inner size clamped into the range. */
  lemma CrossSizeIsClamp(lo: real, hi: real, inner: real)
    requires lo <= hi
    ensures CrossSize(Between(lo, hi), inner) == Clamp(inner, lo, hi)
  {
  }

  /**
    Cross-axis distribution for parent `p`: every in-flow child is sized
    against the parent's inner size, every absolutely positioned one against
    the anchor's inner size.
  */
  function DistributeCross(arena: seq<AxisRect>, t: Tree, positions: seq<LayoutPosition>, p: NodeId, anchor: NodeId): (r: seq<AxisRect>)
    requires t.Valid() && |arena| == |positions| == t.Size() && p < t.Size() && anchor < t.Size()
    ensures OnlyGrowChanged(arena, r, set c | c in t.children[p])
    ensures forall c :: c in t.children[p] && positions[c] != Absolute ==>
      r[c].Total() == CrossSize(arena[c].preferred, arena[p].Total() - arena[p].Padding())
    ensures forall c :: c in t.children[p] && positions[c] == Absolute ==>
      r[c].Total() == CrossSize(arena[c].preferred, arena[anchor].Total() - arena[anchor].Padding())
  {
    var inner := arena[p].Total() - arena[p].Padding();
    var anchorInner := arena[anchor].Total() - arena[anchor].Padding();
    seq(|arena|, i requires 0 <= i < |arena| =>
      if i in t.children[p] then
        arena[i].WithTotal(CrossSize(arena[i].preferred, if positions[i] != Absolute then inner else anchorInner))
      else arena[i])
  }

  /** The root's size: the viewport, cut down to the root's maximum when it has one. */
  function RootSize(pref: WhConstraint, viewport: real): (r: real)
    ensures r <= viewport
    ensures pref.MaxAvailableSpace().Some? ==> r <= pref.MaxAvailableSpace().value
    ensures r == viewport || (pref.MaxAvailableSpace().Some? && r == pref.MaxAvailableSpace().value)
  {
    if pref.MaxAvailableSpace().Some? && viewport > pref.MaxAvailableSpace().value then pref.MaxAvailableSpace().value
    else viewport
  }

  /**
    The anchor the solver uses for the absolutely positioned children of `p`:
    the top of its positioned-node stack, which holds the root and, while `p`
    is being distributed, `p` itself if `p` is positioned.
  */
  function AnchorAsWritten(positions: seq<LayoutPosition>, p: NodeId): (a: NodeId)
    requires p < |positions|
    ensures a == p || a == 0
    ensures a == p <==> positions[p] != Static || p == 0
  {
    if positions[p] != Static then p else 0
  }

  /**
    A static parent `p` whose own parent `q` is positioned and not the root:
    the stack anchors the absolutely positioned children of `p` at the root,
    while the nearest positioned ancestor is `q`.
  */
  lemma AnchorAsWrittenSkipsPositionedAncestor(t: Tree, positions: seq<LayoutPosition>, p: NodeId)
    requires t.Valid() && |positions| == t.Size() && 0 < p < t.Size()
    requires positions[p] == Static && t.ParentOf(p) != 0 && positions[t.ParentOf(p)] != Static
    ensures AnchorAsWritten(positions, p) == 0
    ensures NearestPositioned(t, positions, p) == t.ParentOf(p) != 0
  {
  }

  /** The stack's anchor and the nearest positioned ancestor agree as long as `p` is positioned or its parent is the root. */
  lemma AnchorAsWrittenAgreesNearParent(t: Tree, positions: seq<LayoutPosition>, p: NodeId)
    requires t.Valid() && |positions| == t.Size() && p < t.Size()
    requires positions[p] != Static || p == 0 || t.ParentOf(p) == 0
    ensures AnchorAsWritten(positions, p) == NearestPositioned(t, positions, p)
  {
  }

  /** One parent of the walk: distribute along the main or the cross axis, anchored at the nearest positioned ancestor. */
  function GrowParent(arena: seq<AxisRect>, t: Tree, positions: seq<LayoutPosition>, grows: seq<real>,
                      dirs: seq<FlexDirection>, axis: Axis, p: NodeId): (r: seq<AxisRect>)
    requires t.Valid() && |arena| == |positions| == |grows| == |dirs| == t.Size() && p < t.Size()
    ensures OnlyGrowChanged(arena, r, set c | c in t.children[p])
  {
    var anchor := NearestPositioned(t, positions, p);
    if dirs[p].GetAxis() == axis then DistributeMain(arena, t, positions, grows, p, anchor)
    else DistributeCross(arena, t, positions, p, anchor)
  }

  /** The walk over the parents, root first, skipping those not marked for recalculation. */
  function Walk(arena: seq<AxisRect>, t: Tree, positions: seq<LayoutPosition>, grows: seq<real>,
                dirs: seq<FlexDirection>, axis: Axis, order: seq<NodeId>, recalc: set<NodeId>): (r: seq<AxisRect>)
    requires t.Valid() && |arena| == |positions| == |grows| == |dirs| == t.Size() && IdsBelow(order, t.Size())
    ensures OnlyGrowChanged(arena, r, Touched(t, order, recalc))
    decreases |order|
  {
    if |order| == 0 then arena
    else
      var p := order[0];
      var step := if p in recalc then GrowParent(arena, t, positions, grows, dirs, axis, p) else arena;
      var s1 := if p in recalc then set c | c in t.children[p] else {};
      var r := Walk(step, t, positions, grows, dirs, axis, order[1..], recalc);
      OnlyGrowChangedTrans(arena, step, r, s1, Touched(t, order[1..], recalc));
      r
  }

  /**
    `apply_flex_grow_*`: seed the root with the viewport size (limited by
    its maximum), then walk the parents. Only the root and the children of
    recalculated parents change, and only in their grown part; the root ends
    at its seeded size.
  */
  function ApplyFlexGrow(arena: seq<AxisRect>, t: Tree, positions: seq<LayoutPosition>, grows: seq<real>,
                         dirs: seq<FlexDirection>, axis: Axis, order: seq<NodeId>, recalc: set<NodeId>, viewport: real): (r: seq<AxisRect>)
    requires t.Valid() && |arena| == |positions| == |grows| == |dirs| == t.Size() && IdsBelow(order, t.Size())
    ensures OnlyGrowChanged(arena, r, {0} + Touched(t, order, recalc))
    ensures r[0].Total() == RootSize(arena[0].preferred, viewport)
  {
    var seeded := arena[0 := arena[0].WithTotal(RootSize(arena[0].preferred, viewport))];
    assert OnlyGrowChanged(arena, seeded, {0});
    var r := Walk(seeded, t, positions, grows, dirs, axis, order, recalc);
    OnlyGrowChangedTrans(arena, seeded, r, {0}, Touched(t, order, recalc));
    RootNeverTouched(t, order, recalc);
    r
  }

  /**
    `apply_flex_grow_*` in a build with debug assertions: it first asserts
    that the root's grown part is zero, and panics (`None`) when it is not.
  */
  function ApplyFlexGrowAsWritten(arena: seq<AxisRect>, t: Tree, positions: seq<LayoutPosition>, grows: seq<real>,
                                  dirs: seq<FlexDirection>, axis: Axis, order: seq<NodeId>, recalc: set<NodeId>, viewport: real)
    : (r: Option<seq<AxisRect>>)
    requires t.Valid() && |arena| == |positions| == |grows| == |dirs| == t.Size() && IdsBelow(order, t.Size())
    ensures r.None? <==> arena[0].flexGrowPx != 0.0
    ensures r.Some? ==> OnlyGrowChanged(arena, r.value, {0} + Touched(t, order, recalc))
    ensures r.Some? ==> r.value[0].Total() == RootSize(arena[0].preferred, viewport)
  {
    if arena[0].flexGrowPx != 0.0 then None
    else Some(ApplyFlexGrow(arena, t, positions, grows, dirs, axis, order, recalc, viewport))
  }

  /**
    A layout leaves the root's grown part at its size less its minimum inner
    size, so unless the two happen to be equal, growing the stored arena
    again (as every relayout does) trips the debug assertion.
  */
  lemma RegrowAsWrittenPanics(arena: seq<AxisRect>, t: Tree, positions: seq<LayoutPosition>, grows: seq<real>,
                              dirs: seq<FlexDirection>, axis: Axis, order: seq<NodeId>, recalc: set<NodeId>, viewport: real,
                              order2: seq<NodeId>, recalc2: set<NodeId>, viewport2: real)
    requires t.Valid() && |arena| == |positions| == |grows| == |dirs| == t.Size()
    requires IdsBelow(order, t.Size()) && IdsBelow(order2, t.Size())
    requires RootSize(arena[0].preferred, viewport) != arena[0].minInnerSizePx
    ensures var laid := ApplyFlexGrow(arena, t, positions, grows, dirs, axis, order, recalc, viewport);
      ApplyFlexGrowAsWritten(laid, t, positions, grows, dirs, axis, order2, recalc2, viewport2).None?
  {
    var laid := ApplyFlexGrow(arena, t, positions, grows, dirs, axis, order, recalc, viewport);
    assert SameButGrow(laid[0], arena[0]);
  }

  /**
    Without the assertion, growing is re-entrant: whatever grown part the
    root arrives with, it leaves with the same arena.
  */
  lemma ApplyFlexGrowIgnoresRootGrow(arena: seq<AxisRect>, t: Tree, positions: seq<LayoutPosition>, grows: seq<real>,
                                     dirs: seq<FlexDirection>, axis: Axis, order: seq<NodeId>, recalc: set<NodeId>, viewport: real, g: real)
    requires t.Valid() && |arena| == |positions| == |grows| == |dirs| == t.Size() && IdsBelow(order, t.Size())
    ensures ApplyFlexGrow(arena[0 := arena[0].(flexGrowPx := g)], t, positions, grows, dirs, axis, order, recalc, viewport)
         == ApplyFlexGrow(arena, t, positions, grows, dirs, axis, order, recalc, viewport)
  {
    var other := arena[0 := arena[0].(flexGrowPx := g)];
    assert other[0 := other[0].WithTotal(RootSize(other[0].preferred, viewport))]
        == arena[0 := arena[0].WithTotal(RootSize(arena[0].preferred, viewport))];
  }
}

=== FILE: floats.dfy ===
/**
  The few single-precision behaviours the growing loop can run into when
  its divisor is zero: division by zero gives an infinity (or not-a-number
  for 0 / 0), an infinity times zero is not-a-number, not-a-number absorbs
  every further operation, and every comparison with it is false. Finite
  values are modelled as reals, without rounding.
*/
module Floats {

  datatype Float = Finite(v: real) | PosInf | NegInf | NaN

  /** `a / b` on two finite operands. */
  function Div(a: real, b: real): (r: Float)
    ensures b != 0.0 ==> r == Finite(a / b)
    ensures b == 0.0 ==> !r.Finite?
    ensures b == 0.0 ==> (r.NaN? <==> a == 0.0)
  {
    if b != 0.0 then Finite(a / b)
    else if a > 0.0 then PosInf
    else if a < 0.0 then NegInf
    else NaN
  }

  /** `x * y` with a finite right operand. */
  function Mul(x: Float, y: real): (r: Float)
    ensures x.Finite? ==> r == Finite(x.v * y)
    ensures !x.Finite? && y == 0.0 ==> r.NaN?
    ensures x.NaN? ==> r.NaN?
  {
    match x
    case Finite(_) => Finite(x.v * y)
    case PosInf => if y > 0.0 then PosInf else if y < 0.0 then NegInf else NaN
    case NegInf => if y > 0.0 then NegInf else if y < 0.0 then PosInf else NaN
    case NaN => NaN
  }

  /** `a + x` with a finite left operand. */
  function Add(a: real, x: Float): (r: Float)
    ensures x.Finite? ==> r == Finite(a + x.v)
    ensures !x.Finite? ==> r == x
  {
    match x
    case Finite(v) => Finite(a + v)
    case _ => x
  }

  /** `x > m` for a finite `m`: false whenever `x` is not a number. */
  predicate Greater(x: Float, m: real)
    ensures x.NaN? ==> !Greater(x, m)
    ensures x.Finite? ==> (Greater(x, m) <==> x.v > m)
  {
    match x
    case Finite(v) => v > m
    case PosInf => true
    case NegInf => false
    case NaN => false
  }

  /** `x - m` for a finite `m`. */
  function Sub(x: Float, m: real): (r: Float)
    ensures x.Finite? ==> r == Finite(x.v - m)
    ensures !x.Finite? ==> r == x
  {
    match x
    case Finite(v) => Finite(v - m)
    case _ => x
  }

  /** Subtracting and adding back the same finite amount gives the value back. */
  lemma SubAddCancels(x: Float, m: real)
    ensures Add(m, Sub(x, m)) == x
  {
  }
}

=== FILE: positions.dfy ===
/**
  The position pass (`get_position!`, instantiated as `get_x_positions` and
  `get_y_positions`): with every node's size on one axis solved, each
  listed parent places its children along that axis, and finally the
  layout origin is added to every node.
*/
module Positions {
  import opened Wrappers
  import opened LayoutTree

  /** Every id occurs at most once. */
  ghost predicate Distinct(s: seq<NodeId>) {
    forall i, j :: 0 <= i < j < |s| ==> s[i] != s[j]
  }

  /** The children of `p` in the order the pass visits them on the main axis. */
  function Reverse(s: seq<NodeId>): (r: seq<NodeId>)
    ensures |r| == |s|
    ensures forall k :: 0 <= k < |s| ==> r[k] == s[|s| - 1 - k]
    decreases |s|
  {
    if |s| == 0 then [] else Reverse(s[1..]) + [s[0]]
  }

  /** A distinct list stays distinct when reversed, and lists the same ids. */
  lemma ReverseDistinct(s: seq<NodeId>, n: nat)
    requires Distinct(s) && IdsBelow(s, n)
    ensures Distinct(Reverse(s)) && IdsBelow(Reverse(s), n)
    ensures forall x :: x in Reverse(s) <==> x in s
  {
    var r := Reverse(s);
    forall x | x in s ensures x in r {
      var k :| 0 <= k < |s| && s[k] == x;
      assert r[|s| - 1 - k] == x;
    }
  }

  /**
    The content box of a node on this axis: where its children start
    (position plus leading padding) and how much room they have (total minus
    both paddings).
  */
  datatype Frame = Frame(x: real, inner: real)

  function ContentFrame(xs: seq<real>, sizes: seq<AxisRect>, n: NodeId): (f: Frame)
    requires |xs| == |sizes| && n < |xs|
    ensures f.x + f.inner + sizes[n].paddingEnd == xs[n] + sizes[n].Total()
  {
    Frame(xs[n] + sizes[n].paddingStart, sizes[n].Total() - sizes[n].Padding())
  }

  /**
    `determine_child_x_absolute`: an absolutely positioned child with an end
    offset (`right` / `bottom`) has its far margin edge that far inside the
    anchor's content box; otherwise its near margin edge sits at the start
    offset (0 when unset) from the anchor's content start.
  */
  function AbsoluteX(rect: AxisRect, anchor: Frame): (x: real)
    ensures rect.posEnd.Some? ==>
      x + rect.Total() + rect.marginEnd + rect.posEnd.value == anchor.x + anchor.inner
    ensures rect.posEnd.None? ==> x - rect.marginStart - rect.posStart.GetOr(0.0) == anchor.x
  {
    if rect.posEnd.Some? then
      anchor.x + anchor.inner - rect.Total() - rect.marginEnd - rect.posEnd.value
    else
      anchor.x + rect.marginStart + rect.posStart.GetOr(0.0)
  }

  /**
    `determine_child_x_along_main_axis` for an in-flow child, `before` being
    the running sum of the in-flow children placed so far. Start and End pack
    after the previous children (End is shifted afterwards), Center computes
    from the running sum, and the three space-distributing modes are left at
    the content start.
  */
  function MainX(justify: JustifyContent, rect: AxisRect, parent: Frame, before: real): (x: real)
    ensures (justify.Start? || justify.End?) ==> x - rect.marginStart == parent.x + before
    ensures justify.SpaceBetween? || justify.SpaceAround? || justify.SpaceEvenly? ==> x == parent.x
  {
    if justify.Start? || justify.End? then parent.x + before + rect.marginStart
    else if justify.Center? then parent.x + (parent.inner / 2.0 - (before + rect.marginEnd + rect.Total()) / 2.0)
    else parent.x
  }

  /**
    Center justification of a lone child without trailing margin puts the
    child's midpoint on the midpoint of the parent's content box.
  */
  lemma CenterPutsLoneChildMidway(rect: AxisRect, parent: Frame)
    requires rect.marginEnd == 0.0
    ensures MainX(Center, rect, parent, 0.0) + rect.Total() / 2.0 == parent.x + parent.inner / 2.0
  {
  }

  /** What a child adds to the running sum: nothing when absolutely positioned. */
  function Extent(rect: AxisRect, pos: LayoutPosition): real {
    if pos == Absolute then 0.0 else rect.marginEnd + rect.Total() + rect.marginStart
  }

  /** The summed extents of the listed children. */
  function InFlowExtent(sizes: seq<AxisRect>, positions: seq<LayoutPosition>, cs: seq<NodeId>): real
    requires |positions| == |sizes| && IdsBelow(cs, |sizes|)
    decreases |cs|
  {
    if |cs| == 0 then 0.0
    else Extent(sizes[cs[0]], positions[cs[0]]) + InFlowExtent(sizes, positions, cs[1..])
  }

  /** Adding one more child at the end of a prefix adds its extent. */
  lemma {:induction false} InFlowExtentSnoc(sizes: seq<AxisRect>, positions: seq<LayoutPosition>, cs: seq<NodeId>, k: nat)
    requires |positions| == |sizes| && IdsBelow(cs, |sizes|) && k < |cs|
    ensures InFlowExtent(sizes, positions, cs[..k + 1])
         == InFlowExtent(sizes, positions, cs[..k]) + Extent(sizes[cs[k]], positions[cs[k]])
    decreases k
  {
    if k > 0 {
      assert cs[..k + 1][1..] == cs[1..][..k];
      assert cs[..k][1..] == cs[1..][..k - 1];
      InFlowExtentSnoc(sizes, positions, cs[1..], k - 1);
    }
  }

  /** Where the main-axis pass puts one child. */
  function ChildX(rect: AxisRect, pos: LayoutPosition, justify: JustifyContent,
                  parent: Frame, anchor: Frame, before: real): real
  {
    if pos == Absolute then AbsoluteX(rect, anchor) else MainX(justify, rect, parent, before)
  }

  /**
    The main-axis loop over the children in visiting order, threading the
    running sum; it returns the updated positions and the final sum.
  */
  function PlaceMain(xs: seq<real>, sizes: seq<AxisRect>, positions: seq<LayoutPosition>, vs: seq<NodeId>,
                     justify: JustifyContent, parent: Frame, anchor: Frame, before: real): (r: (seq<real>, real))
    requires |xs| == |sizes| == |positions| && IdsBelow(vs, |xs|)
    ensures |r.0| == |xs|
    ensures r.1 == before + InFlowExtent(sizes, positions, vs)
    ensures forall i :: 0 <= i < |xs| && i !in vs ==> r.0[i] == xs[i]
    decreases |vs|
  {
    if |vs| == 0 then (xs, before)
    else
      var c := vs[0];
      var x := ChildX(sizes[c], positions[c], justify, parent, anchor, before);
      PlaceMain(xs[c := x], sizes, positions, vs[1..], justify, parent, anchor,
                before + Extent(sizes[c], positions[c]))
  }

  /**
    Closed form of the loop: the `k`-th visited child is placed with the
    running sum equal to the extents of the children visited before it.
  */
  lemma {:induction false} PlaceMainAt(xs: seq<real>, sizes: seq<AxisRect>, positions: seq<LayoutPosition>, vs: seq<NodeId>,
                                       justify: JustifyContent, parent: Frame, anchor: Frame, before: real, k: nat, sum: real)
    requires |xs| == |sizes| == |positions| && IdsBelow(vs, |xs|) && Distinct(vs) && k < |vs|
    requires sum == before + InFlowExtent(sizes, positions, vs[..k])
    ensures PlaceMain(xs, sizes, positions, vs, justify, parent, anchor, before).0[vs[k]]
         == ChildX(sizes[vs[k]], positions[vs[k]], justify, parent, anchor, sum)
    decreases |vs|
  {
    if k == 0 {
      assert vs[..0] == [];
      assert sum == before;
      PlaceMainHead(xs, sizes, positions, vs, justify, parent, anchor, before);
    } else {
      var c := vs[0];
      var xs' := xs[c := ChildX(sizes[c], positions[c], justify, parent, anchor, before)];
      var before' := before + Extent(sizes[c], positions[c]);
      DistinctTail(vs);
      InFlowExtentPrefix(sizes, positions, vs, k);
      PlaceMainAt(xs', sizes, positions, vs[1..], justify, parent, anchor, before', k - 1, sum);
      PlaceMainLater(xs, sizes, positions, vs, justify, parent, anchor, before, k);
    }
  }

  /** After the first turn of the loop, a later child's place is the one the rest of the loop gives it. */
  lemma PlaceMainLater(xs: seq<real>, sizes: seq<AxisRect>, positions: seq<LayoutPosition>, vs: seq<NodeId>,
                       justify: JustifyContent, parent: Frame, anchor: Frame, before: real, k: nat)
    requires |xs| == |sizes| == |positions| && IdsBelow(vs, |xs|) && 0 < k < |vs|
    ensures PlaceMain(xs, sizes, positions, vs, justify, parent, anchor, before).0[vs[k]]
         == PlaceMain(xs[vs[0] := ChildX(sizes[vs[0]], positions[vs[0]], justify, parent, anchor, before)],
                      sizes, positions, vs[1..], justify, parent, anchor, before + Extent(sizes[vs[0]], positions[vs[0]])).0[vs[1..][k - 1]]
  {
    assert vs[1..][k - 1] == vs[k];
  }

  /** The first visited child keeps the place the loop gives it, as later steps touch only later children. */
  lemma PlaceMainHead(xs: seq<real>, sizes: seq<AxisRect>, positions: seq<LayoutPosition>, vs: seq<NodeId>,
                      justify: JustifyContent, parent: Frame, anchor: Frame, before: real)
    requires |xs| == |sizes| == |positions| && IdsBelow(vs, |xs|) && Distinct(vs) && 0 < |vs|
    ensures PlaceMain(xs, sizes, positions, vs, justify, parent, anchor, before).0[vs[0]]
         == ChildX(sizes[vs[0]], positions[vs[0]], justify, parent, anchor, before)
  {
    DistinctTail(vs);
  }

  /** A prefix past the first child sums the first child's extent and the rest of the prefix. */
  lemma InFlowExtentPrefix(sizes: seq<AxisRect>, positions: seq<LayoutPosition>, vs: seq<NodeId>, k: nat)
    requires |positions| == |sizes| && IdsBelow(vs, |sizes|) && 0 < k <= |vs|
    ensures InFlowExtent(sizes, positions, vs[..k])
         == Extent(sizes[vs[0]], positions[vs[0]]) + InFlowExtent(sizes, positions, vs[1..][..k - 1])
  {
    assert vs[..k][1..] == vs[1..][..k - 1];
  }

  /** The tail of a distinct list is distinct and does not hold the head. */
  lemma DistinctTail(vs: seq<NodeId>)
    requires Distinct(vs) && |vs| > 0
    ensures Distinct(vs[1..]) && vs[0] !in vs[1..]
  {
    assert forall j :: 0 <= j < |vs[1..]| ==> vs[1..][j] == vs[j + 1];
  }

  /**
    `should_align_towards_end`: End in normal order, or Start in reverse
    order, packs the children against the far end of the content box.
  */
  predicate AlignsTowardsEnd(dir: FlexDirection, justify: JustifyContent) {
    (!dir.IsReverse() && justify.End?) || (dir.IsReverse() && justify.Start?)
  }

  /** Every in-flow child among `cs` moves by `diff`. */
  function ShiftInFlow(xs: seq<real>, positions: seq<LayoutPosition>, cs: seq<NodeId>, diff: real): (r: seq<real>)
    requires |xs| == |positions|
    ensures |r| == |xs|
    ensures forall i :: 0 <= i < |xs| && (i !in cs || positions[i] == Absolute) ==> r[i] == xs[i]
    ensures forall i :: 0 <= i < |xs| && i in cs && positions[i] != Absolute ==> r[i] - diff == xs[i]
  {
    seq(|xs|, i requires 0 <= i < |xs| => if i in cs && positions[i] != Absolute then xs[i] + diff else xs[i])
  }

  /** The per-node inputs of the pass, all indexed by the nodes of `t`. */
  ghost predicate PassInputs(xs: seq<real>, sizes: seq<AxisRect>, t: Tree, positions: seq<LayoutPosition>,
                             dirs: seq<FlexDirection>, justify: seq<JustifyContent>) {
    t.Valid() && |xs| == |sizes| == |positions| == |dirs| == |justify| == t.Size()
  }

  /** The order in which a parent visits its children. */
  function VisitOrder(t: Tree, dirs: seq<FlexDirection>, p: NodeId): (vs: seq<NodeId>)
    requires t.Valid() && |dirs| == t.Size() && p < t.Size()
    ensures |vs| == |t.children[p]|
    ensures Distinct(vs) && IdsBelow(vs, t.Size())
    ensures forall x :: x in vs <==> x in t.children[p]
  {
    assert Distinct(t.children[p]) && IdsBelow(t.children[p], t.Size());
    if dirs[p].IsReverse() then
      ReverseDistinct(t.children[p], t.Size());
      Reverse(t.children[p])
    else t.children[p]
  }

  /**
    The main-axis loop followed, when packing towards the end, by moving
    every in-flow child by the room the loop left over.
  */
  function Arrange(xs: seq<real>, sizes: seq<AxisRect>, positions: seq<LayoutPosition>, vs: seq<NodeId>,
                   justify: JustifyContent, towardsEnd: bool, parent: Frame, anchor: Frame): (r: seq<real>)
    requires |xs| == |sizes| == |positions| && IdsBelow(vs, |xs|)
    ensures |r| == |xs|
    ensures forall i :: 0 <= i < |xs| && i !in vs ==> r[i] == xs[i]
  {
    var placed := PlaceMain(xs, sizes, positions, vs, justify, parent, anchor, 0.0);
    if towardsEnd then ShiftInFlow(placed.0, positions, vs, parent.inner - placed.1) else placed.0
  }

  /**
    Closed form of the arrangement: the `k`-th visited child is put where the
    loop's running sum says, moved (when in flow and packing towards the
    end) by the room left over after all children.
  */
  lemma ArrangeAt(xs: seq<real>, sizes: seq<AxisRect>, positions: seq<LayoutPosition>, vs: seq<NodeId>,
                  justify: JustifyContent, towardsEnd: bool, parent: Frame, anchor: Frame, k: nat)
    requires |xs| == |sizes| == |positions| && IdsBelow(vs, |xs|) && Distinct(vs) && k < |vs|
    ensures Arrange(xs, sizes, positions, vs, justify, towardsEnd, parent, anchor)[vs[k]]
         == ChildX(sizes[vs[k]], positions[vs[k]], justify, parent, anchor,
                   InFlowExtent(sizes, positions, vs[..k]))
            + (if towardsEnd && positions[vs[k]] != Absolute
               then parent.inner - InFlowExtent(sizes, positions, vs) else 0.0)
  {
    var c := vs[k];
    assert c in vs;
    var placed := PlaceMain(xs, sizes, positions, vs, justify, parent, anchor, 0.0);
    PlaceMainAt(xs, sizes, positions, vs, justify, parent, anchor, 0.0, k, 0.0 + InFlowExtent(sizes, positions, vs[..k]));
    var x := ChildX(sizes[c], positions[c], justify, parent, anchor, InFlowExtent(sizes, positions, vs[..k]));
    assert placed.0[c] == x;
    if towardsEnd {
      var shifted := ShiftInFlow(placed.0, positions, vs, parent.inner - placed.1);
      assert Arrange(xs, sizes, positions, vs, justify, towardsEnd, parent, anchor)[c] == shifted[c];
      assert placed.1 == InFlowExtent(sizes, positions, vs);
      if positions[c] != Absolute {
        assert shifted[c] == x + (parent.inner - InFlowExtent(sizes, positions, vs));
      } else {
        assert shifted[c] == x;
      }
    } else {
      assert Arrange(xs, sizes, positions, vs, justify, towardsEnd, parent, anchor)[c] == placed.0[c];
    }
  }

  /** Main-axis placement of the children of `p`. */
  function PlaceMainAxis(xs: seq<real>, sizes: seq<AxisRect>, t: Tree, positions: seq<LayoutPosition>,
                         dirs: seq<FlexDirection>, justify: seq<JustifyContent>, p: NodeId, anchor: NodeId): (r: seq<real>)
    requires PassInputs(xs, sizes, t, positions, dirs, justify)
    requires p < t.Size() && anchor < t.Size()
    ensures |r| == |xs|
    ensures forall i :: 0 <= i < |xs| && i !in t.children[p] ==> r[i] == xs[i]
  {
    Arrange(xs, sizes, positions, VisitOrder(t, dirs, p), justify[p], AlignsTowardsEnd(dirs[p], justify[p]),
            ContentFrame(xs, sizes, p), ContentFrame(xs, sizes, anchor))
  }

  /**
    `determine_child_x_along_cross_axis`: in-flow children sit at the content
    start plus their leading margin; absolute children use the anchor.
  */
  function PlaceCrossAxis(xs: seq<real>, sizes: seq<AxisRect>, t: Tree, positions: seq<LayoutPosition>,
                          p: NodeId, anchor: NodeId): (r: seq<real>)
    requires t.Valid() && |xs| == |sizes| == |positions| == t.Size() && p < t.Size() && anchor < t.Size()
    ensures |r| == |xs|
    ensures forall i :: 0 <= i < |xs| && i !in t.children[p] ==> r[i] == xs[i]
    ensures forall i :: 0 <= i < |xs| && i in t.children[p] && positions[i] != Absolute ==>
      r[i] - sizes[i].marginStart == xs[p] + sizes[p].paddingStart
    ensures forall i :: 0 <= i < |xs| && i in t.children[p] && positions[i] == Absolute ==>
      r[i] == AbsoluteX(sizes[i], ContentFrame(xs, sizes, anchor))
  {
    var parent := ContentFrame(xs, sizes, p);
    var anchorFrame := ContentFrame(xs, sizes, anchor);
    seq(|xs|, i requires 0 <= i < |xs| =>
      if i in t.children[p] then
        (if positions[i] == Absolute then AbsoluteX(sizes[i], anchorFrame) else parent.x + sizes[i].marginStart)
      else xs[i])
  }

  /**
    One parent of the pass: main axis when the parent's direction runs along
    the axis being solved, cross axis otherwise. The anchor of absolutely
    positioned children is the nearest positioned ancestor-or-self of the
    parent (see `FlexGrow.AnchorAsWritten` for what the source's stack does).
  */
  function PositionChildren(xs: seq<real>, sizes: seq<AxisRect>, t: Tree, positions: seq<LayoutPosition>,
                            dirs: seq<FlexDirection>, justify: seq<JustifyContent>, axis: Axis, p: NodeId): (r: seq<real>)
    requires PassInputs(xs, sizes, t, positions, dirs, justify) && p < t.Size()
    ensures |r| == |xs|
    ensures forall i :: 0 <= i < |xs| && i !in t.children[p] ==> r[i] == xs[i]
  {
    var anchor := NearestPositioned(t, positions, p);
    if dirs[p].GetAxis() == axis then PlaceMainAxis(xs, sizes, t, positions, dirs, justify, p, anchor)
    else PlaceCrossAxis(xs, sizes, t, positions, p, anchor)
  }

  /**
    Start packing on the main axis in document order: the `k`-th child's
    near margin edge follows the extents of all in-flow children before it.
  */
  lemma StartPacksChildren(xs: seq<real>, sizes: seq<AxisRect>, t: Tree, positions: seq<LayoutPosition>,
                           dirs: seq<FlexDirection>, justify: seq<JustifyContent>, axis: Axis, p: NodeId, k: nat)
    requires PassInputs(xs, sizes, t, positions, dirs, justify) && p < t.Size()
    requires dirs[p].GetAxis() == axis && !dirs[p].IsReverse() && justify[p] == Start
    requires k < |t.children[p]| && positions[t.children[p][k]] != Absolute
    ensures IdsBelow(t.children[p], t.Size())
    ensures PositionChildren(xs, sizes, t, positions, dirs, justify, axis, p)[t.children[p][k]]
         == xs[p] + sizes[p].paddingStart + InFlowExtent(sizes, positions, t.children[p][..k])
            + sizes[t.children[p][k]].marginStart
  {
    ArrangeAt(xs, sizes, positions, VisitOrder(t, dirs, p), justify[p], AlignsTowardsEnd(dirs[p], justify[p]),
              ContentFrame(xs, sizes, p), ContentFrame(xs, sizes, NearestPositioned(t, positions, p)), k);
  }

  /** Consecutive in-flow children under Start packing touch margin to margin. */
  lemma StartChildrenAdjacent(xs: seq<real>, sizes: seq<AxisRect>, t: Tree, positions: seq<LayoutPosition>,
                              dirs: seq<FlexDirection>, justify: seq<JustifyContent>, axis: Axis, p: NodeId, k: nat)
    requires PassInputs(xs, sizes, t, positions, dirs, justify) && p < t.Size()
    requires dirs[p].GetAxis() == axis && !dirs[p].IsReverse() && justify[p] == Start
    requires k + 1 < |t.children[p]|
    requires positions[t.children[p][k]] != Absolute && positions[t.children[p][k + 1]] != Absolute
    ensures var r := PositionChildren(xs, sizes, t, positions, dirs, justify, axis, p);
      var a := t.children[p][k];
      var b := t.children[p][k + 1];
      r[a] + sizes[a].Total() + sizes[a].marginEnd == r[b] - sizes[b].marginStart
  {
    StartPacksChildren(xs, sizes, t, positions, dirs, justify, axis, p, k);
    StartPacksChildren(xs, sizes, t, positions, dirs, justify, axis, p, k + 1);
    InFlowExtentSnoc(sizes, positions, t.children[p], k);
  }

  /**
    Packing towards the end (End, or Start in reverse order): the `k`-th
    visited in-flow child sits where Start packing would put it, moved by
    the room left over, so the run of children ends at the content end.
  */
  lemma TowardsEndPacksChildren(xs: seq<real>, sizes: seq<AxisRect>, t: Tree, positions: seq<LayoutPosition>,
                                dirs: seq<FlexDirection>, justify: seq<JustifyContent>, axis: Axis, p: NodeId, k: nat)
    requires PassInputs(xs, sizes, t, positions, dirs, justify) && p < t.Size()
    requires dirs[p].GetAxis() == axis && AlignsTowardsEnd(dirs[p], justify[p])
    requires k < |t.children[p]| && positions[VisitOrder(t, dirs, p)[k]] != Absolute
    ensures IdsBelow(VisitOrder(t, dirs, p), t.Size())
    ensures var vs := VisitOrder(t, dirs, p);
      var parent := ContentFrame(xs, sizes, p);
      PositionChildren(xs, sizes, t, positions, dirs, justify, axis, p)[vs[k]]
        == parent.x + (parent.inner - InFlowExtent(sizes, positions, vs))
           + InFlowExtent(sizes, positions, vs[..k]) + sizes[vs[k]].marginStart
  {
    ArrangeAt(xs, sizes, positions, VisitOrder(t, dirs, p), justify[p], AlignsTowardsEnd(dirs[p], justify[p]),
              ContentFrame(xs, sizes, p), ContentFrame(xs, sizes, NearestPositioned(t, positions, p)), k);
  }

  /** The last in-flow child visited ends flush with the parent's content end. */
  lemma TowardsEndLastChildFlush(xs: seq<real>, sizes: seq<AxisRect>, t: Tree, positions: seq<LayoutPosition>,
                                 dirs: seq<FlexDirection>, justify: seq<JustifyContent>, axis: Axis, p: NodeId)
    requires PassInputs(xs, sizes, t, positions, dirs, justify) && p < t.Size()
    requires dirs[p].GetAxis() == axis && AlignsTowardsEnd(dirs[p], justify[p])
    requires |t.children[p]| > 0 && positions[VisitOrder(t, dirs, p)[|t.children[p]| - 1]] != Absolute
    ensures var last := VisitOrder(t, dirs, p)[|t.children[p]| - 1];
      PositionChildren(xs, sizes, t, positions, dirs, justify, axis, p)[last] + sizes[last].Total() + sizes[last].marginEnd
        == xs[p] + sizes[p].Total() - sizes[p].paddingEnd
  {
    var vs := VisitOrder(t, dirs, p);
    ArrangeLastFlush(xs, sizes, positions, vs, justify[p], ContentFrame(xs, sizes, p),
                     ContentFrame(xs, sizes, NearestPositioned(t, positions, p)));
  }

  /** When packing towards the end, the last visited in-flow child ends at the content end. */
  lemma ArrangeLastFlush(xs: seq<real>, sizes: seq<AxisRect>, positions: seq<LayoutPosition>, vs: seq<NodeId>,
                         justify: JustifyContent, parent: Frame, anchor: Frame)
    requires |xs| == |sizes| == |positions| && IdsBelow(vs, |xs|) && Distinct(vs)
    requires |vs| > 0 && positions[vs[|vs| - 1]] != Absolute && (justify.Start? || justify.End?)
    ensures var last := vs[|vs| - 1];
      Arrange(xs, sizes, positions, vs, justify, true, parent, anchor)[last] + sizes[last].Total() + sizes[last].marginEnd
        == parent.x + parent.inner
  {
    var n := |vs|;
    var last := vs[n - 1];
    ArrangeAt(xs, sizes, positions, vs, justify, true, parent, anchor, n - 1);
    InFlowExtentSnoc(sizes, positions, vs, n - 1);
    assert vs[..n] == vs;
    FlushArithmetic(Arrange(xs, sizes, positions, vs, justify, true, parent, anchor)[last],
                    parent.x, parent.inner, InFlowExtent(sizes, positions, vs),
                    InFlowExtent(sizes, positions, vs[..n - 1]), sizes[last].marginStart,
                    sizes[last].Total(), sizes[last].marginEnd);
  }

  /** The arithmetic step of the flush property. */
  lemma FlushArithmetic(x: real, px: real, inner: real, all: real, prefix: real, ms: real, total: real, me: real)
    requires x == px + (inner - all) + prefix + ms
    requires all == prefix + (me + total + ms)
    ensures x + total + me == px + inner
  {
  }

  /**
    Absolutely positioned children are placed against the anchor whatever
    the axis, the justification or the direction.
  */
  lemma AbsoluteChildrenUseAnchor(xs: seq<real>, sizes: seq<AxisRect>, t: Tree, positions: seq<LayoutPosition>,
                                  dirs: seq<FlexDirection>, justify: seq<JustifyContent>, axis: Axis, p: NodeId, c: NodeId)
    requires PassInputs(xs, sizes, t, positions, dirs, justify) && p < t.Size()
    requires c in t.children[p] && positions[c] == Absolute
    ensures c < t.Size()
    ensures PositionChildren(xs, sizes, t, positions, dirs, justify, axis, p)[c]
         == AbsoluteX(sizes[c], ContentFrame(xs, sizes, NearestPositioned(t, positions, p)))
  {
    ChildAfterParent(t, p, c);
    if dirs[p].GetAxis() == axis {
        var vs := VisitOrder(t, dirs, p);
      var k :| 0 <= k < |vs| && vs[k] == c;
      ArrangeAt(xs, sizes, positions, VisitOrder(t, dirs, p), justify[p], AlignsTowardsEnd(dirs[p], justify[p]),
              ContentFrame(xs, sizes, p), ContentFrame(xs, sizes, NearestPositioned(t, positions, p)), k);
    }
  }

  /** The pass over the parents in `order`, skipping those not in `reposition`. */
  function PositionWalk(xs: seq<real>, sizes: seq<AxisRect>, t: Tree, positions: seq<LayoutPosition>,
                        dirs: seq<FlexDirection>, justify: seq<JustifyContent>, axis: Axis,
                        order: seq<NodeId>, reposition: set<NodeId>): (r: seq<real>)
    requires PassInputs(xs, sizes, t, positions, dirs, justify)
    requires IdsBelow(order, t.Size())
    ensures |r| == |xs|
    ensures forall i :: 0 <= i < |xs| && i !in Touched(t, order, reposition) ==> r[i] == xs[i]
    decreases |order|
  {
    if |order| == 0 then xs
    else
      var p := order[0];
      var step := if p in reposition then PositionChildren(xs, sizes, t, positions, dirs, justify, axis, p) else xs;
      PositionWalk(step, sizes, t, positions, dirs, justify, axis, order[1..], reposition)
  }

  /** Every position moved by `d`. */
  function Translate(xs: seq<real>, d: real): (r: seq<real>)
    ensures |r| == |xs|
    ensures forall i :: 0 <= i < |xs| ==> r[i] - xs[i] == d
  {
    seq(|xs|, i requires 0 <= i < |xs| => xs[i] + d)
  }

  /** Moving by `d` and then by `-d` gives the positions back. */
  lemma TranslateBack(xs: seq<real>, d: real)
    ensures Translate(Translate(xs, d), -d) == xs
  {
  }

  /**
    `get_x_positions` / `get_y_positions`: the walk, then the origin added to
    every node of the arena. The root is never repositioned by the walk, so
    it ends at its incoming position plus the origin; so does every node
    that no listed parent owns.
  */
  function SolvePositions(xs: seq<real>, sizes: seq<AxisRect>, t: Tree, positions: seq<LayoutPosition>,
                          dirs: seq<FlexDirection>, justify: seq<JustifyContent>, axis: Axis,
                          order: seq<NodeId>, reposition: set<NodeId>, origin: real): (r: seq<real>)
    requires PassInputs(xs, sizes, t, positions, dirs, justify)
    requires IdsBelow(order, t.Size())
    ensures |r| == |xs|
    ensures r[0] == xs[0] + origin
    ensures forall i :: 0 <= i < |xs| && i !in Touched(t, order, reposition) ==> r[i] == xs[i] + origin
  {
    RootNeverTouched(t, order, reposition);
    Translate(PositionWalk(xs, sizes, t, positions, dirs, justify, axis, order, reposition), origin)
  }
}

=== FILE: rebubble.dfy ===
/**
  Incremental re-bubbling of minimum inner sizes during relayout: every node
  whose preferred size changed passes the change of its minimum-needed size
  to its parent, and the pending amounts are then carried from the inside
  out, each node adding what it received and handing it on to its parent.
  The amounts are kept as per-node deltas to `min_inner_size_px`.
*/
module Rebubble {
  import opened LayoutTree

  /** Adds `amt` to the pending amount of `n`, creating the entry at zero (`entry().or_insert(0) +=`). */
  function AddPending(pending: map<NodeId, real>, n: NodeId, amt: real): (r: map<NodeId, real>)
    ensures r.Keys == pending.Keys + {n}
    ensures r[n] == (if n in pending then pending[n] else 0.0) + amt
    ensures forall k :: k in pending && k != n ==> r[k] == pending[k]
  {
    pending[n := (if n in pending then pending[n] else 0.0) + amt]
  }

  /**
    The state of the propagation: the delta each node's minimum inner size
    has received so far, the amounts still waiting to be passed on, and the
    parents marked for recalculation of their children.
  */
  datatype Bubbled = Bubbled(added: seq<real>, pending: map<NodeId, real>, recalc: set<NodeId>)

  /** The pending entries name nodes of a tree of `n` nodes. */
  ghost predicate PendingBelow(b: Bubbled, n: nat) {
    forall k :: k in b.pending ==> k < n
  }

  /**
    The first loop over the bubbled nodes: for each one with a parent, the
    change of its minimum-needed size is recorded as pending for the parent
    (and the parent marked) when non-zero. The source also adds the change
    to the parent's minimum inner size right away (`direct`), which the
    second loop then adds a second time.
  */
  function Seed(t: Tree, newMin: seq<real>, oldMin: map<NodeId, real>, keys: seq<NodeId>, direct: bool, b: Bubbled): (r: Bubbled)
    requires t.Valid() && |newMin| == |b.added| == t.Size() && IdsBelow(keys, t.Size())
    requires forall k :: 0 <= k < |keys| ==> keys[k] in oldMin
    requires PendingBelow(b, t.Size())
    ensures |r.added| == |b.added| && PendingBelow(r, t.Size())
    decreases |keys|
  {
    if |keys| == 0 then b
    else Seed(t, newMin, oldMin, keys[1..], direct, SeedStep(t, newMin, oldMin, keys[0], direct, b))
  }

  /** One turn of the first loop, for the bubbled node `n`. */
  function SeedStep(t: Tree, newMin: seq<real>, oldMin: map<NodeId, real>, n: NodeId, direct: bool, b: Bubbled): (r: Bubbled)
    requires t.Valid() && |newMin| == |b.added| == t.Size() && n < t.Size() && n in oldMin
    requires PendingBelow(b, t.Size())
    ensures |r.added| == |b.added| && PendingBelow(r, t.Size())
  {
    if n == 0 then b
    else
      var p := t.ParentOf(n);
      var change := newMin[n] - oldMin[n];
      var added := if direct then b.added[p := b.added[p] + change] else b.added;
      if change != 0.0 then Bubbled(added, AddPending(b.pending, p, change), b.recalc + {p})
      else Bubbled(added, b.pending, b.recalc)
  }

  /**
    The second loop, visiting the nodes deepest first (here: by decreasing
    id, which visits every node after all its descendants as the reversed
    depth order does): a pending node takes its amount, adds it to its own
    minimum inner size, and passes it on to its parent, which is marked.
    `i` is the number of nodes still to visit.
  */
  function Propagate(t: Tree, b: Bubbled, i: nat): (r: Bubbled)
    requires t.Valid() && |b.added| == t.Size() && i <= t.Size() && PendingBelow(b, t.Size())
    ensures |r.added| == |b.added| && PendingBelow(r, t.Size())
    decreases i
  {
    if i == 0 then b
    else
      var n := i - 1;
      var next :=
        if n in b.pending then
          var amt := b.pending[n];
          var added := b.added[n := b.added[n] + amt];
          var rest := b.pending - {n};
          if n == 0 then Bubbled(added, rest, b.recalc)
          else Bubbled(added, AddPending(rest, t.ParentOf(n), amt), b.recalc + {t.ParentOf(n)})
        else b;
      Propagate(t, next, n)
  }

  /** Both loops of the source, starting from no deltas and nothing pending. */
  function RebubbleAsWritten(t: Tree, newMin: seq<real>, oldMin: map<NodeId, real>, keys: seq<NodeId>, recalc: set<NodeId>): (r: Bubbled)
    requires t.Valid() && |newMin| == t.Size() && IdsBelow(keys, t.Size())
    requires forall k :: 0 <= k < |keys| ==> keys[k] in oldMin
    ensures |r.added| == t.Size()
  {
    var start := Bubbled(seq(t.Size(), _ => 0.0), map[], recalc);
    Propagate(t, Seed(t, newMin, oldMin, keys, true, start), t.Size())
  }

  /** Both loops with the first one only recording what is pending: each ancestor receives a change once. */
  function Rebubble(t: Tree, newMin: seq<real>, oldMin: map<NodeId, real>, keys: seq<NodeId>, recalc: set<NodeId>): (r: Bubbled)
    requires t.Valid() && |newMin| == t.Size() && IdsBelow(keys, t.Size())
    requires forall k :: 0 <= k < |keys| ==> keys[k] in oldMin
    ensures |r.added| == t.Size()
    ensures recalc <= r.recalc
    ensures forall m :: 0 <= m < t.Size() && r.added[m] != 0.0 ==> m in r.recalc
  {
    var start := Bubbled(seq(t.Size(), _ => 0.0), map[], recalc);
    SeedCovered(t, newMin, oldMin, keys, false, start, start.added);
    var seeded := Seed(t, newMin, oldMin, keys, false, start);
    PropagateCovered(t, seeded, t.Size(), start.added);
    Propagate(t, seeded, t.Size())
  }

  /**
    Every node whose delta differs from `base`, and every node with a
    pending amount, is marked for recalculation.
  */
  ghost predicate Covered(b: Bubbled, base: seq<real>) {
    && |b.added| == |base|
    && (forall m :: 0 <= m < |base| && b.added[m] != base[m] ==> m in b.recalc)
    && (forall k :: k in b.pending ==> k in b.recalc)
  }

  /** The first loop keeps every changed or pending node marked (without the direct add). */
  lemma {:induction false} SeedCovered(t: Tree, newMin: seq<real>, oldMin: map<NodeId, real>, keys: seq<NodeId>,
                                       direct: bool, b: Bubbled, base: seq<real>)
    requires t.Valid() && |newMin| == |b.added| == t.Size() && IdsBelow(keys, t.Size())
    requires forall k :: 0 <= k < |keys| ==> keys[k] in oldMin
    requires PendingBelow(b, t.Size()) && Covered(b, base)
    ensures Covered(Seed(t, newMin, oldMin, keys, direct, b), base)
    ensures b.recalc <= Seed(t, newMin, oldMin, keys, direct, b).recalc
    decreases |keys|
  {
    if |keys| > 0 {
      SeedStepCovered(t, newMin, oldMin, keys[0], direct, b, base);
      SeedCovered(t, newMin, oldMin, keys[1..], direct, SeedStep(t, newMin, oldMin, keys[0], direct, b), base);
    }
  }

  /** One turn of the first loop keeps every changed or pending node marked. */
  lemma SeedStepCovered(t: Tree, newMin: seq<real>, oldMin: map<NodeId, real>, n: NodeId, direct: bool, b: Bubbled, base: seq<real>)
    requires t.Valid() && |newMin| == |b.added| == t.Size() && n < t.Size() && n in oldMin
    requires PendingBelow(b, t.Size()) && Covered(b, base)
    ensures Covered(SeedStep(t, newMin, oldMin, n, direct, b), base)
    ensures b.recalc <= SeedStep(t, newMin, oldMin, n, direct, b).recalc
  {
  }

  /** The second loop keeps every changed or pending node marked. */
  lemma {:induction false} PropagateCovered(t: Tree, b: Bubbled, i: nat, base: seq<real>)
    requires t.Valid() && |b.added| == t.Size() && i <= t.Size() && PendingBelow(b, t.Size())
    requires Covered(b, base)
    ensures Covered(Propagate(t, b, i), base)
    ensures b.recalc <= Propagate(t, b, i).recalc
    decreases i
  {
    if i > 0 {
      var n := i - 1;
      var next :=
        if n in b.pending then
          var amt := b.pending[n];
          var added := b.added[n := b.added[n] + amt];
          var rest := b.pending - {n};
          if n == 0 then Bubbled(added, rest, b.recalc)
          else Bubbled(added, AddPending(rest, t.ParentOf(n), amt), b.recalc + {t.ParentOf(n)})
        else b;
      assert Covered(next, base);
      PropagateCovered(t, next, n, base);
    }
  }

  /** With nothing pending, the second loop changes nothing. */
  lemma {:induction false} PropagateIdle(t: Tree, b: Bubbled, i: nat)
    requires t.Valid() && |b.added| == t.Size() && i <= t.Size() && b.pending == map[]
    ensures Propagate(t, b, i) == b
    decreases i
  {
    if i > 0 {
      PropagateIdle(t, b, i - 1);
    }
  }

  /** Without bubbled nodes there are no deltas and no further marks. */
  lemma RebubbleIdle(t: Tree, newMin: seq<real>, oldMin: map<NodeId, real>, recalc: set<NodeId>)
    requires t.Valid() && |newMin| == t.Size()
    ensures Rebubble(t, newMin, oldMin, [], recalc) == Bubbled(seq(t.Size(), _ => 0.0), map[], recalc)
  {
    PropagateIdle(t, Bubbled(seq(t.Size(), _ => 0.0), map[], recalc), t.Size());
  }

  /** `m` is `a` or one of its ancestors. */
  ghost predicate AncestorOrSelf(t: Tree, m: NodeId, a: NodeId)
    requires t.Valid() && a < t.Size()
    decreases a
  {
    m == a || (a != 0 && AncestorOrSelf(t, m, t.ParentOf(a)))
  }

  /** Ancestors have smaller ids. */
  lemma {:induction false} AncestorOrSelfBelow(t: Tree, m: NodeId, a: NodeId)
    requires t.Valid() && a < t.Size() && AncestorOrSelf(t, m, a)
    ensures m <= a
    decreases a
  {
    if m != a {
      AncestorOrSelfBelow(t, m, t.ParentOf(a));
    }
  }

  /** Nodes above every pending entry are skipped without effect. */
  lemma {:induction false} PropagateSkips(t: Tree, b: Bubbled, i: nat, a: NodeId)
    requires t.Valid() && |b.added| == t.Size() && i <= t.Size() && PendingBelow(b, t.Size())
    requires a < i && forall k :: k in b.pending ==> k <= a
    ensures Propagate(t, b, i) == Propagate(t, b, a + 1)
    decreases i
  {
    if i > a + 1 {
      assert i - 1 !in b.pending;
      PropagateSkips(t, b, i - 1, a);
    }
  }

  /**
    One pending amount `d` at node `a` reaches `a` and every ancestor of `a`
    exactly once, and nothing else.
  */
  lemma {:induction false} PropagateChain(t: Tree, b: Bubbled, a: NodeId, d: real)
    requires t.Valid() && |b.added| == t.Size() && a < t.Size() && b.pending == map[a := d]
    ensures forall m :: 0 <= m < t.Size() ==>
      Propagate(t, b, a + 1).added[m] == b.added[m] + (if AncestorOrSelf(t, m, a) then d else 0.0)
    decreases a
  {
    var added := b.added[a := b.added[a] + d];
    var rest := b.pending - {a};
    assert rest == map[];
    if a == 0 {
      var next := Bubbled(added, rest, b.recalc);
      assert Propagate(t, b, 1) == Propagate(t, next, 0);
      forall m | 0 <= m < t.Size()
        ensures Propagate(t, b, a + 1).added[m] == b.added[m] + (if AncestorOrSelf(t, m, a) then d else 0.0)
      {
        assert AncestorOrSelf(t, m, 0) <==> m == 0;
      }
    } else {
      var q := t.ParentOf(a);
      var next := Bubbled(added, AddPending(rest, q, d), b.recalc + {q});
      assert next.pending == map[q := d];
      assert Propagate(t, b, a + 1) == Propagate(t, next, a);
      PropagateSkips(t, next, a, q);
      PropagateChain(t, next, q, d);
      forall m | 0 <= m < t.Size()
        ensures Propagate(t, b, a + 1).added[m] == b.added[m] + (if AncestorOrSelf(t, m, a) then d else 0.0)
      {
        if AncestorOrSelf(t, m, q) {
          AncestorOrSelfBelow(t, m, q);
        }
      }
    }
  }

  /** The state after the first loop for a single changed node `n` with parent `p`. */
  lemma SeedSingle(t: Tree, newMin: seq<real>, oldMin: map<NodeId, real>, n: NodeId, direct: bool, recalc: set<NodeId>)
    requires t.Valid() && |newMin| == t.Size() && 0 < n < t.Size() && n in oldMin
    requires newMin[n] != oldMin[n]
    ensures var p := t.ParentOf(n);
      var d := newMin[n] - oldMin[n];
      var zero := seq(t.Size(), _ => 0.0);
      Seed(t, newMin, oldMin, [n], direct, Bubbled(zero, map[], recalc))
        == Bubbled(if direct then zero[p := d] else zero, map[p := d], recalc + {p})
  {
    var p := t.ParentOf(n);
    var d := newMin[n] - oldMin[n];
    var zero: seq<real> := seq(t.Size(), _ => 0.0);
    assert zero[p] + d == d;
    assert [n][1..] == [];
  }

  /**
    With the source's direct add, a single change `d` of node `n` reaches
    `n`'s parent twice and every further ancestor once.
  */
  lemma SingleChangeAsWritten(t: Tree, newMin: seq<real>, oldMin: map<NodeId, real>, n: NodeId, recalc: set<NodeId>)
    requires t.Valid() && |newMin| == t.Size() && 0 < n < t.Size() && n in oldMin
    requires newMin[n] != oldMin[n]
    ensures var p := t.ParentOf(n);
      var d := newMin[n] - oldMin[n];
      var r := RebubbleAsWritten(t, newMin, oldMin, [n], recalc);
      && r.added[p] == 2.0 * d
      && (forall m :: 0 <= m < t.Size() && m != p ==> r.added[m] == (if AncestorOrSelf(t, m, p) then d else 0.0))
  {
    var p := t.ParentOf(n);
    var d := newMin[n] - oldMin[n];
    var zero: seq<real> := seq(t.Size(), _ => 0.0);
    SeedSingle(t, newMin, oldMin, n, true, recalc);
    var seeded := Bubbled(zero[p := d], map[p := d], recalc + {p});
    PropagateSkips(t, seeded, t.Size(), p);
    PropagateChain(t, seeded, p, d);
  }

  /** Without the direct add, a single change `d` of node `n` reaches every ancestor of `n` exactly once. */
  lemma SingleChangeReachesAncestorsOnce(t: Tree, newMin: seq<real>, oldMin: map<NodeId, real>, n: NodeId, recalc: set<NodeId>)
    requires t.Valid() && |newMin| == t.Size() && 0 < n < t.Size() && n in oldMin
    requires newMin[n] != oldMin[n]
    ensures var p := t.ParentOf(n);
      var d := newMin[n] - oldMin[n];
      var r := Rebubble(t, newMin, oldMin, [n], recalc);
      forall m :: 0 <= m < t.Size() ==> r.added[m] == (if AncestorOrSelf(t, m, p) then d else 0.0)
  {
    var p := t.ParentOf(n);
    var d := newMin[n] - oldMin[n];
    var zero: seq<real> := seq(t.Size(), _ => 0.0);
    SeedSingle(t, newMin, oldMin, n, false, recalc);
    var seeded := Bubbled(zero, map[p := d], recalc + {p});
    PropagateSkips(t, seeded, t.Size(), p);
    PropagateChain(t, seeded, p, d);
  }
}

=== FILE: relayout.dfy ===
/**
  `do_the_relayout`: the incremental layout after some CSS properties of
  some nodes changed (or the window was resized). The changed properties
  are filtered and grouped by type; a fixed rule table turns each non-leaf
  node's changes into "recalculate the sizes of the children of these
  parents", "reposition the children of these parents" and "re-bubble the
  minimum size of these nodes"; the minimum sizes are carried up to the
  ancestors, flex-grow and positions are re-run for the marked parents
  only, and the parents and their children are reported as changed.
*/
module Relayout {
  import opened Wrappers
  import opened Constraints
  import opened LayoutTree
  import FlexGrow
  import Positions
  import Rebubble
  import Finalize

  /** The CSS property types the rule table looks at; every other type is `OtherProperty`. */
  datatype PropType =
    | Width | MinWidth | MaxWidth | Height | MinHeight | MaxHeight
    | PaddingLeft | PaddingRight | PaddingTop | PaddingBottom
    | MarginLeft | MarginRight | MarginTop | MarginBottom
    | OtherProperty(code: nat)

  /**
    One changed property: its type and, for a padding or a margin, the new
    value in pixels (`None` when the new value is not a length, which the
    record stores as unset, that is 0).
  */
  datatype Change = Change(ty: PropType, px: Option<real>)

  /** The changes of one node that survived the filter, keyed by type. */
  type Changes = map<PropType, Option<real>>

  /** A change of any of these types alters the size constraint of the axis. */
  predicate TouchesSize(axis: Axis, props: Changes) {
    if axis == Horizontal then Width in props || MinWidth in props || MaxWidth in props
    else Height in props || MinHeight in props || MaxHeight in props
  }

  function PaddingStartProperty(axis: Axis): PropType {
    if axis == Horizontal then PaddingLeft else PaddingTop
  }

  function PaddingEndProperty(axis: Axis): PropType {
    if axis == Horizontal then PaddingRight else PaddingBottom
  }

  function MarginStartProperty(axis: Axis): PropType {
    if axis == Horizontal then MarginLeft else MarginTop
  }

  function MarginEndProperty(axis: Axis): PropType {
    if axis == Horizontal then MarginRight else MarginBottom
  }

  /** None of the fourteen geometric property types the rule table reacts to. */
  predicate NonGeometric(props: Changes) {
    forall ty :: ty in props ==> ty.OtherProperty?
  }

  /**
    The changes of one node grouped by type, keeping only types that can
    trigger a relayout; of two changes of the same type the later one wins.
  */
  function FilterChanges(changes: seq<Change>, canTrigger: PropType -> bool): (m: Changes)
    ensures forall ty :: ty in m <==> canTrigger(ty) && exists k :: 0 <= k < |changes| && changes[k].ty == ty
    decreases |changes|
  {
    if |changes| == 0 then map[]
    else
      var front := changes[..|changes| - 1];
      var c := changes[|changes| - 1];
      var m := FilterChanges(front, canTrigger);
      assert forall k :: 0 <= k < |front| ==> front[k] == changes[k];
      if canTrigger(c.ty) then m[c.ty := c.px] else m
  }

  /** Of several changes of one type, the last one is kept. */
  lemma {:induction false} LastChangeWins(changes: seq<Change>, canTrigger: PropType -> bool, k: nat)
    requires k < |changes| && canTrigger(changes[k].ty)
    requires forall j :: k < j < |changes| ==> changes[j].ty != changes[k].ty
    ensures FilterChanges(changes, canTrigger)[changes[k].ty] == changes[k].px
    decreases |changes|
  {
    if k < |changes| - 1 {
      var front := changes[..|changes| - 1];
      assert front[k] == changes[k];
      assert changes[|changes| - 1].ty != changes[k].ty;
      LastChangeWins(front, canTrigger, k);
    }
  }

  /** Some change of the list has a type that can trigger a relayout. */
  predicate Triggers(changes: seq<Change>, canTrigger: PropType -> bool) {
    exists k :: 0 <= k < |changes| && canTrigger(changes[k].ty)
  }

  /** A node keeps some change exactly when one of its changes can trigger a relayout. */
  lemma TriggersIffKept(changes: seq<Change>, canTrigger: PropType -> bool)
    ensures FilterChanges(changes, canTrigger) != map[] <==> Triggers(changes, canTrigger)
  {
    var m := FilterChanges(changes, canTrigger);
    if Triggers(changes, canTrigger) {
      var k :| 0 <= k < |changes| && canTrigger(changes[k].ty);
      assert changes[k].ty in m;
    }
    if m != map[] {
      var ty :| ty in m;
    }
  }

  /** The nodes with at least one change that can trigger a relayout, with those changes. */
  function FilterNodes(nodes: map<NodeId, seq<Change>>, canTrigger: PropType -> bool): (r: map<NodeId, Changes>)
    ensures forall n :: n in r <==> n in nodes && Triggers(nodes[n], canTrigger)
    ensures forall n :: n in r ==> r[n] == FilterChanges(nodes[n], canTrigger)
  {
    map n | n in nodes && Triggers(nodes[n], canTrigger) :: FilterChanges(nodes[n], canTrigger)
  }

  /**
    The early exits: nothing is done when the root bounds are unchanged and
    no node has a change, or no change that can trigger a relayout.
  */
  predicate NothingToDo(boundsChanged: bool, nodes: map<NodeId, seq<Change>>, canTrigger: PropType -> bool) {
    (!boundsChanged && nodes == map[]) || (!boundsChanged && FilterNodes(nodes, canTrigger) == map[])
  }

  /** The first exit is subsumed by the second: only the filtered changes matter. */
  lemma NothingToDoIffNoTrigger(boundsChanged: bool, nodes: map<NodeId, seq<Change>>, canTrigger: PropType -> bool)
    ensures NothingToDo(boundsChanged, nodes, canTrigger)
      <==> !boundsChanged && forall n :: n in nodes ==> !Triggers(nodes[n], canTrigger)
  {
    var f := FilterNodes(nodes, canTrigger);
    if f != map[] {
      var n :| n in f;
    }
  }

  /** What the rule table learns from one axis of one node, and the record with the new values. */
  datatype AxisUpdate = AxisUpdate(rect: AxisRect, oldMin: Option<real>, paddingChanged: bool, marginChanged: bool)

  /**
    One axis of one node: when a size property changed and the preferred
    constraint it now gives differs from the stored one, the new constraint
    is stored and the old minimum-needed size (0 when unconstrained) kept for
    re-bubbling; a changed padding or margin is stored and flagged.
  */
  function UpdateAxis(rect: AxisRect, axis: Axis, props: Changes, cfg: SizeConfig, intrinsic: Option<real>): (u: AxisUpdate)
    ensures u.oldMin.Some? <==> TouchesSize(axis, props) && DeterminePreferred(cfg, intrinsic) != rect.preferred
    ensures u.oldMin.Some? ==> u.oldMin.value == rect.preferred.MinNeededSpace().GetOr(0.0)
    ensures u.rect.preferred == (if u.oldMin.Some? then DeterminePreferred(cfg, intrinsic) else rect.preferred)
    ensures u.paddingChanged <==> PaddingStartProperty(axis) in props || PaddingEndProperty(axis) in props
    ensures u.marginChanged <==> MarginStartProperty(axis) in props || MarginEndProperty(axis) in props
    ensures u.rect != rect ==> u.oldMin.Some? || u.paddingChanged || u.marginChanged
    ensures u.rect.flexGrowPx == rect.flexGrowPx && u.rect.minInnerSizePx == rect.minInnerSizePx
  {
    var newPref := DeterminePreferred(cfg, intrinsic);
    var sizeChanged := TouchesSize(axis, props) && newPref != rect.preferred;
    var ps, pe := PaddingStartProperty(axis), PaddingEndProperty(axis);
    var ms, me := MarginStartProperty(axis), MarginEndProperty(axis);
    var r := rect.(
      preferred := if sizeChanged then newPref else rect.preferred,
      paddingStart := if ps in props then props[ps].GetOr(0.0) else rect.paddingStart,
      paddingEnd := if pe in props then props[pe].GetOr(0.0) else rect.paddingEnd,
      marginStart := if ms in props then props[ms].GetOr(0.0) else rect.marginStart,
      marginEnd := if me in props then props[me].GetOr(0.0) else rect.marginEnd);
    AxisUpdate(r, if sizeChanged then Some(rect.preferred.MinNeededSpace().GetOr(0.0)) else None,
               ps in props || pe in props, ms in props || me in props)
  }

  /**
    The sets one axis of the relayout collects: parents whose children get
    their sizes recalculated, parents whose children get repositioned, and
    the nodes to re-bubble with their old minimum-needed size.
  */
  datatype AxisPlan = AxisPlan(recalc: set<NodeId>, reposition: set<NodeId>, bubble: map<NodeId, real>)

  /** Every marked id names a node of a tree of `n` nodes, and every repositioned parent is also recalculated. */
  ghost predicate PlanFits(plan: AxisPlan, n: nat) {
    && (forall m :: m in plan.recalc ==> m < n)
    && plan.reposition <= plan.recalc
    && (forall m :: m in plan.bubble ==> m < n)
  }

  /**
    The rule table for one axis of node `n` with parent `parent` (the root
    is its own parent): a changed preferred size recalculates the parent's
    and the node's children, repositions the parent's children and bubbles
    the node; a changed padding recalculates and repositions the node's
    children; a changed margin recalculates and repositions the parent's.
  */
  function PlanAxis(plan: AxisPlan, n: NodeId, parent: NodeId, u: AxisUpdate): (r: AxisPlan)
    ensures forall m :: m in r.recalc <==>
      m in plan.recalc || (m == parent && (u.oldMin.Some? || u.marginChanged)) || (m == n && (u.oldMin.Some? || u.paddingChanged))
    ensures forall m :: m in r.reposition <==>
      m in plan.reposition || (m == parent && (u.oldMin.Some? || u.marginChanged)) || (m == n && u.paddingChanged)
    ensures r.bubble == if u.oldMin.Some? then plan.bubble[n := u.oldMin.value] else plan.bubble
  {
    var afterSize := if u.oldMin.Some? then AxisPlan(plan.recalc + {parent, n}, plan.reposition + {parent}, plan.bubble[n := u.oldMin.value]) else plan;
    var afterPadding := if u.paddingChanged then AxisPlan(afterSize.recalc + {n}, afterSize.reposition + {n}, afterSize.bubble) else afterSize;
    if u.marginChanged then AxisPlan(afterPadding.recalc + {parent}, afterPadding.reposition + {parent}, afterPadding.bubble) else afterPadding
  }

  /** The recalculated parents and all their children: what the relayout reports as changed. */
  function ChangedSet(t: Tree, recalc: set<NodeId>): (s: set<NodeId>)
    requires t.Valid()
    ensures forall m :: m in s <==> m in recalc || (0 < m < t.Size() && t.ParentOf(m) in recalc)
  {
    recalc + set c | 0 < c < t.Size() && t.ParentOf(c) in recalc
  }

  /** The changed set is every recalculated parent together with its children. */
  lemma ChangedSetIsParentsAndChildren(t: Tree, recalc: set<NodeId>, m: NodeId)
    requires t.Valid() && m < t.Size() && forall p :: p in recalc ==> p < t.Size()
    ensures m in ChangedSet(t, recalc) <==> m in recalc || exists p :: p in recalc && m in t.children[p]
  {
    if m !in recalc && exists p :: p in recalc && m in t.children[p] {
      var p :| p in recalc && m in t.children[p];
      ChildIffParent(t, p, m);
      ChildAfterParent(t, p, m);
    }
    if 0 < m && t.ParentOf(m) in recalc {
      assert m in t.children[t.ParentOf(m)];
    }
  }

  /** A node the per-parent walk touches is a child of a marked parent, so it is in the changed set. */
  lemma {:induction false} TouchedIsChanged(t: Tree, order: seq<NodeId>, marked: set<NodeId>, recalc: set<NodeId>, c: NodeId)
    requires t.Valid() && IdsBelow(order, t.Size()) && marked <= recalc
    requires c in Touched(t, order, marked)
    ensures c in ChangedSet(t, recalc)
    decreases |order|
  {
    if c !in Touched(t, order[1..], marked) {
      var p := order[0];
      assert p in marked && c in t.children[p];
      ChildAfterParent(t, p, c);
      ChildIffParent(t, p, c);
    } else {
      TouchedIsChanged(t, order[1..], marked, recalc, c);
    }
  }

  /** The style values of one node as the property cache reports them now (already defaulted). */
  datatype NodeStyle = NodeStyle(
    position: LayoutPosition,
    flexGrow: Option<real>,
    direction: FlexDirection,
    justify: JustifyContent,
    width: SizeConfig,
    height: SizeConfig)

  /** The state one layout leaves behind and the next relayout starts from. */
  datatype Layout = Layout(
    t: Tree,
    nonLeaf: seq<NodeId>,
    widths: seq<AxisRect>,
    heights: seq<AxisRect>,
    xs: seq<real>,
    ys: seq<real>,
    positions: seq<LayoutPosition>,
    grows: seq<real>,
    dirs: seq<FlexDirection>,
    justify: seq<JustifyContent>,
    intrinsicWidths: seq<Option<real>>,
    intrinsicHeights: seq<Option<real>>,
    bounds: Finalize.Rect)
  {
    ghost predicate Valid() {
      && t.Valid()
      && IdsBelow(nonLeaf, t.Size())
      && |widths| == |heights| == |xs| == |ys| == t.Size()
      && |positions| == |grows| == |dirs| == |justify| == t.Size()
      && |intrinsicWidths| == |intrinsicHeights| == t.Size()
    }
  }

  /**
    The precalculated style values (position, flex-grow factor, direction,
    justify-content) of every node with changes are re-read; everything
    else stays.
  */
  function UpdateStyles(l: Layout, filtered: map<NodeId, Changes>, styles: seq<NodeStyle>): (r: Layout)
    requires l.Valid() && |styles| == l.t.Size()
    ensures r.Valid()
    ensures r == l.(positions := r.positions, grows := r.grows, dirs := r.dirs, justify := r.justify)
    ensures forall n :: 0 <= n < l.t.Size() && n !in filtered ==>
      r.positions[n] == l.positions[n] && r.grows[n] == l.grows[n] && r.dirs[n] == l.dirs[n] && r.justify[n] == l.justify[n]
    ensures forall n :: 0 <= n < l.t.Size() && n in filtered ==>
      r.positions[n] == styles[n].position && r.grows[n] == FlexGrow.FlexGrowFactor(styles[n].flexGrow)
      && r.dirs[n] == styles[n].direction && r.justify[n] == styles[n].justify
  {
    var size := l.t.Size();
    l.(positions := seq(size, n requires 0 <= n < size => if n in filtered then styles[n].position else l.positions[n]),
       grows := seq(size, n requires 0 <= n < size => if n in filtered then FlexGrow.FlexGrowFactor(styles[n].flexGrow) else l.grows[n]),
       dirs := seq(size, n requires 0 <= n < size => if n in filtered then styles[n].direction else l.dirs[n]),
       justify := seq(size, n requires 0 <= n < size => if n in filtered then styles[n].justify else l.justify[n]))
  }

  /** The records of both axes and the plans of both axes while the rule table runs. */
  datatype Planned = Planned(widths: seq<AxisRect>, heights: seq<AxisRect>, x: AxisPlan, y: AxisPlan)

  /** Both axes of one non-leaf node with changes. */
  function PlanNode(t: Tree, st: Planned, n: NodeId, props: Changes, style: NodeStyle,
                    intrinsicWidth: Option<real>, intrinsicHeight: Option<real>): (r: Planned)
    requires t.Valid() && |st.widths| == |st.heights| == t.Size() && n < t.Size()
    requires PlanFits(st.x, t.Size()) && PlanFits(st.y, t.Size())
    ensures |r.widths| == |r.heights| == t.Size() && PlanFits(r.x, t.Size()) && PlanFits(r.y, t.Size())
    ensures st.x.recalc <= r.x.recalc && st.y.recalc <= r.y.recalc
    ensures forall m :: 0 <= m < t.Size() && m != n ==> r.widths[m] == st.widths[m] && r.heights[m] == st.heights[m]
    ensures r.widths[n] != st.widths[n] ==> n in ChangedSet(t, r.x.recalc)
    ensures r.heights[n] != st.heights[n] ==> n in ChangedSet(t, r.y.recalc)
    ensures NonGeometric(props) ==> r == st
  {
    var parent := if n == 0 then 0 else t.ParentOf(n);
    var uw := UpdateAxis(st.widths[n], Horizontal, props, style.width, intrinsicWidth);
    var uh := UpdateAxis(st.heights[n], Vertical, props, style.height, intrinsicHeight);
    assert NonGeometric(props) ==> uw.rect == st.widths[n] && uh.rect == st.heights[n];
    Planned(st.widths[n := uw.rect], st.heights[n := uh.rect], PlanAxis(st.x, n, parent, uw), PlanAxis(st.y, n, parent, uh))
  }

  /**
    The rule table over the non-leaf nodes, parents first. Nodes without
    changes are skipped, and so is every leaf: changes on leaves never reach
    the table. A node's record changes only if the node ends up in the
    changed set.
  */
  function RuleWalk(t: Tree, st: Planned, order: seq<NodeId>, filtered: map<NodeId, Changes>, styles: seq<NodeStyle>,
                    intrinsicWidths: seq<Option<real>>, intrinsicHeights: seq<Option<real>>): (r: Planned)
    requires t.Valid() && |st.widths| == |st.heights| == |styles| == |intrinsicWidths| == |intrinsicHeights| == t.Size()
    requires IdsBelow(order, t.Size()) && PlanFits(st.x, t.Size()) && PlanFits(st.y, t.Size())
    ensures |r.widths| == |r.heights| == t.Size() && PlanFits(r.x, t.Size()) && PlanFits(r.y, t.Size())
    ensures st.x.recalc <= r.x.recalc && st.y.recalc <= r.y.recalc
    ensures forall m :: 0 <= m < t.Size() && (m !in order || m !in filtered) ==> r.widths[m] == st.widths[m] && r.heights[m] == st.heights[m]
    ensures forall m :: 0 <= m < t.Size() && r.widths[m] != st.widths[m] ==> m in ChangedSet(t, r.x.recalc)
    ensures forall m :: 0 <= m < t.Size() && r.heights[m] != st.heights[m] ==> m in ChangedSet(t, r.y.recalc)
    ensures (forall k :: 0 <= k < |order| && order[k] in filtered ==> NonGeometric(filtered[order[k]])) ==> r == st
    decreases |order|
  {
    if |order| == 0 then st
    else
      var n := order[0];
      var next := if n in filtered then PlanNode(t, st, n, filtered[n], styles[n], intrinsicWidths[n], intrinsicHeights[n]) else st;
      var r := RuleWalk(t, next, order[1..], filtered, styles, intrinsicWidths, intrinsicHeights);
      assert forall m :: m in ChangedSet(t, next.x.recalc) ==> m in ChangedSet(t, r.x.recalc);
      assert forall m :: m in ChangedSet(t, next.y.recalc) ==> m in ChangedSet(t, r.y.recalc);
      TailOf(order);
      r
  }

  /** The tail of a list holds its later elements, in order. */
  lemma TailOf(s: seq<NodeId>)
    requires |s| > 0
    ensures forall k :: 0 <= k < |s[1..]| ==> s[1..][k] == s[k + 1]
    ensures forall x :: x in s[1..] ==> x in s
  {
  }

  /** Strictly ascending ids. */
  predicate Ascending(keys: seq<NodeId>) {
    forall i, j :: 0 <= i < j < |keys| ==> keys[i] < keys[j]
  }

  /** The ids of `s` below `n`, ascending (the iteration order of the source's ordered maps and sets). */
  function KeysBelow(s: set<NodeId>, n: nat): (keys: seq<NodeId>)
    ensures forall k :: k in keys <==> k in s && k < n
    ensures IdsBelow(keys, n)
    ensures Ascending(keys)
    decreases n
  {
    if n == 0 then [] else KeysBelow(s, n - 1) + (if n - 1 in s then [n - 1] else [])
  }

  /** The re-bubbled deltas added to the minimum inner sizes. */
  function AddMinInner(rects: seq<AxisRect>, added: seq<real>): (r: seq<AxisRect>)
    requires |added| == |rects|
    ensures |r| == |rects|
    ensures forall i :: 0 <= i < |rects| ==> r[i].minInnerSizePx - rects[i].minInnerSizePx == added[i]
    ensures forall i :: 0 <= i < |rects| ==> r[i].preferred == rects[i].preferred
    ensures forall i :: 0 <= i < |rects| && added[i] == 0.0 ==> r[i] == rects[i]
  {
    seq(|rects|, i requires 0 <= i < |rects| => rects[i].(minInnerSizePx := rects[i].minInnerSizePx + added[i]))
  }

  /**
    The sizes of one axis after the rule table: re-bubble the minimum sizes
    of the bubbled nodes to their ancestors (each ancestor receiving each
    change once), then re-run flex-grow for the marked parents. Every record
    that changes belongs to the changed set, except that the root always
    gets its grown part re-seeded from the viewport.
  */
  function ResizeAxis(rects: seq<AxisRect>, t: Tree, nonLeaf: seq<NodeId>, positions: seq<LayoutPosition>, grows: seq<real>,
                      dirs: seq<FlexDirection>, axis: Axis, plan: AxisPlan, viewport: real): (r: (seq<AxisRect>, set<NodeId>))
    requires t.Valid() && |rects| == |positions| == |grows| == |dirs| == t.Size() && IdsBelow(nonLeaf, t.Size())
    ensures |r.0| == |rects| && plan.recalc <= r.1
    ensures forall m :: 0 <= m < |rects| && r.0[m] != rects[m] ==>
      m in ChangedSet(t, r.1) || (m == 0 && SameButGrow(r.0[0], rects[0]))
    ensures r.0[0].Total() == FlexGrow.RootSize(rects[0].preferred, viewport)
    ensures r.0[0].preferred == rects[0].preferred
    ensures plan.bubble == map[] ==> r.1 == plan.recalc
  {
    var newMin := seq(t.Size(), i requires 0 <= i < t.Size() => rects[i].preferred.MinNeededSpace().GetOr(0.0));
    var keys := KeysBelow(plan.bubble.Keys, t.Size());
    var b := Rebubble.Rebubble(t, newMin, plan.bubble, keys, plan.recalc);
    assert plan.bubble == map[] ==> b.recalc == plan.recalc by {
      if plan.bubble == map[] {
        assert keys == [];
        Rebubble.RebubbleIdle(t, newMin, plan.bubble, plan.recalc);
      }
    }
    GrowAfterBubble(rects, t, nonLeaf, positions, grows, dirs, axis, b.added, b.recalc, viewport);
    (FlexGrow.ApplyFlexGrow(AddMinInner(rects, b.added), t, positions, grows, dirs, axis, nonLeaf, b.recalc, viewport), b.recalc)
  }

  /**
    Adding deltas that are non-zero only at marked nodes and then growing the
    children of the marked parents changes only the changed set, apart from
    the grown part of the root.
  */
  lemma GrowAfterBubble(rects: seq<AxisRect>, t: Tree, nonLeaf: seq<NodeId>, positions: seq<LayoutPosition>, grows: seq<real>,
                        dirs: seq<FlexDirection>, axis: Axis, added: seq<real>, recalc: set<NodeId>, viewport: real)
    requires t.Valid() && |rects| == |positions| == |grows| == |dirs| == |added| == t.Size() && IdsBelow(nonLeaf, t.Size())
    requires forall m :: 0 <= m < t.Size() && added[m] != 0.0 ==> m in recalc
    ensures var grown := FlexGrow.ApplyFlexGrow(AddMinInner(rects, added), t, positions, grows, dirs, axis, nonLeaf, recalc, viewport);
      forall m :: 0 <= m < |rects| && grown[m] != rects[m] ==>
        m in ChangedSet(t, recalc) || (m == 0 && SameButGrow(grown[0], rects[0]))
  {
    var bubbled := AddMinInner(rects, added);
    var grown := FlexGrow.ApplyFlexGrow(bubbled, t, positions, grows, dirs, axis, nonLeaf, recalc, viewport);
    forall m | 0 <= m < |rects| && grown[m] != rects[m]
      ensures m in ChangedSet(t, recalc) || (m == 0 && SameButGrow(grown[0], rects[0]))
    {
      if m != 0 && m !in recalc {
        assert bubbled[m] == rects[m];
        if m in Touched(t, nonLeaf, recalc) {
          TouchedIsChanged(t, nonLeaf, recalc, recalc, m);
        }
      }
    }
  }

  /**
    `get_x_positions` / `get_y_positions` as the relayout calls them: on the
    stored positions, which already contain the previous origin, so every
    node gets the origin added once more.
  */
  function RepositionAsWritten(xs: seq<real>, sizes: seq<AxisRect>, t: Tree, positions: seq<LayoutPosition>,
                               dirs: seq<FlexDirection>, justify: seq<JustifyContent>, axis: Axis,
                               order: seq<NodeId>, reposition: set<NodeId>, origin: real): (r: seq<real>)
    requires Positions.PassInputs(xs, sizes, t, positions, dirs, justify) && IdsBelow(order, t.Size())
    ensures |r| == |xs|
  {
    Positions.SolvePositions(xs, sizes, t, positions, dirs, justify, axis, order, reposition, origin)
  }

  /** Even with no parent to reposition, the relayout as written moves every node by the origin. */
  lemma RepositionAsWrittenDrifts(xs: seq<real>, sizes: seq<AxisRect>, t: Tree, positions: seq<LayoutPosition>,
                                  dirs: seq<FlexDirection>, justify: seq<JustifyContent>, axis: Axis,
                                  order: seq<NodeId>, origin: real)
    requires Positions.PassInputs(xs, sizes, t, positions, dirs, justify) && IdsBelow(order, t.Size())
    ensures forall i :: 0 <= i < |xs| ==> RepositionAsWritten(xs, sizes, t, positions, dirs, justify, axis, order, {}, origin)[i] == xs[i] + origin
  {
    TouchedNothing(t, order);
  }

  /** No parent marked: the walk touches nobody. */
  lemma {:induction false} TouchedNothing(t: Tree, order: seq<NodeId>)
    requires t.Valid() && IdsBelow(order, t.Size())
    ensures Touched(t, order, {}) == {}
    decreases |order|
  {
    if |order| > 0 {
      TouchedNothing(t, order[1..]);
    }
  }

  /**
    The positions after a relayout: the previous origin is taken out of the
    stored positions before the walk, which adds the new one. A node that no
    marked parent owns moves exactly by the change of the origin.
  */
  function Reposition(xs: seq<real>, sizes: seq<AxisRect>, t: Tree, positions: seq<LayoutPosition>,
                      dirs: seq<FlexDirection>, justify: seq<JustifyContent>, axis: Axis,
                      order: seq<NodeId>, reposition: set<NodeId>, oldOrigin: real, newOrigin: real): (r: seq<real>)
    requires Positions.PassInputs(xs, sizes, t, positions, dirs, justify) && IdsBelow(order, t.Size())
    ensures |r| == |xs|
    ensures forall i :: 0 <= i < |xs| && i !in Touched(t, order, reposition) ==> r[i] == xs[i] - oldOrigin + newOrigin
  {
    Positions.SolvePositions(Positions.Translate(xs, -oldOrigin), sizes, t, positions, dirs, justify, axis, order, reposition, newOrigin)
  }

  /** With the origin unchanged and nothing to reposition, the positions stay as they are. */
  lemma RepositionIdle(xs: seq<real>, sizes: seq<AxisRect>, t: Tree, positions: seq<LayoutPosition>,
                       dirs: seq<FlexDirection>, justify: seq<JustifyContent>, axis: Axis,
                       order: seq<NodeId>, origin: real)
    requires Positions.PassInputs(xs, sizes, t, positions, dirs, justify) && IdsBelow(order, t.Size())
    ensures Reposition(xs, sizes, t, positions, dirs, justify, axis, order, {}, origin, origin) == xs
  {
    TouchedNothing(t, order);
    var r := Reposition(xs, sizes, t, positions, dirs, justify, axis, order, {}, origin, origin);
    assert forall i :: 0 <= i < |xs| ==> r[i] == xs[i];
  }

  /** One axis after the relayout: the size records, the positions, and the parents marked for recalculation. */
  datatype AxisResult = AxisResult(rects: seq<AxisRect>, xs: seq<real>, recalc: set<NodeId>)

  /**
    One axis of the relayout after the rule table: resize, then reposition.
    Given that every record the rule table changed is in the changed set,
    every record that changes in the end is too (the root's grown part
    aside), and so is every node that moves other than by the change of the
    origin.
  */
  function SolveAxis(before: seq<AxisRect>, planned: seq<AxisRect>, xs: seq<real>, t: Tree, nonLeaf: seq<NodeId>,
                     positions: seq<LayoutPosition>, grows: seq<real>, dirs: seq<FlexDirection>, justify: seq<JustifyContent>,
                     axis: Axis, plan: AxisPlan, viewport: real, oldOrigin: real, newOrigin: real): (r: AxisResult)
    requires t.Valid() && IdsBelow(nonLeaf, t.Size()) && PlanFits(plan, t.Size())
    requires |before| == |planned| == |xs| == |positions| == |grows| == |dirs| == |justify| == t.Size()
    requires forall m :: 0 <= m < t.Size() && planned[m] != before[m] ==> m in ChangedSet(t, plan.recalc)
    ensures |r.rects| == |r.xs| == t.Size()
    ensures plan.bubble == map[] ==> r.recalc == plan.recalc
    ensures forall m :: 0 <= m < t.Size() && r.rects[m] != before[m] ==>
      m in ChangedSet(t, r.recalc) || (m == 0 && SameButGrow(r.rects[0], before[0]))
    ensures forall m :: 0 <= m < t.Size() && r.xs[m] != xs[m] - oldOrigin + newOrigin ==> m in ChangedSet(t, r.recalc)
    ensures r.rects[0].preferred == planned[0].preferred
    ensures r.rects[0].Total() == FlexGrow.RootSize(r.rects[0].preferred, viewport)
  {
    var resized := ResizeAxis(planned, t, nonLeaf, positions, grows, dirs, axis, plan, viewport);
    var moved := Reposition(xs, resized.0, t, positions, dirs, justify, axis, nonLeaf, plan.reposition, oldOrigin, newOrigin);
    SizesCovered(t, before, planned, resized.0, plan.recalc, resized.1);
    MovesCovered(t, nonLeaf, xs, moved, plan.reposition, resized.1, newOrigin - oldOrigin);
    AxisResult(resized.0, moved, resized.1)
  }

  /** A record changed by the rule table or by the resizing is in the changed set, the root's grown part aside. */
  lemma SizesCovered(t: Tree, before: seq<AxisRect>, planned: seq<AxisRect>, after: seq<AxisRect>,
                     marked: set<NodeId>, recalc: set<NodeId>)
    requires t.Valid() && |before| == |planned| == |after| == t.Size() && marked <= recalc
    requires forall m :: 0 <= m < t.Size() && planned[m] != before[m] ==> m in ChangedSet(t, marked)
    requires forall m :: 0 <= m < t.Size() && after[m] != planned[m] ==>
      m in ChangedSet(t, recalc) || (m == 0 && SameButGrow(after[0], planned[0]))
    ensures forall m :: 0 <= m < t.Size() && after[m] != before[m] ==>
      m in ChangedSet(t, recalc) || (m == 0 && SameButGrow(after[0], before[0]))
  {
  }

  /** A node that moves other than by `shift` is touched by the walk, so it is in the changed set. */
  lemma MovesCovered(t: Tree, nonLeaf: seq<NodeId>, xs: seq<real>, moved: seq<real>, marked: set<NodeId>,
                     recalc: set<NodeId>, shift: real)
    requires t.Valid() && IdsBelow(nonLeaf, t.Size()) && |xs| == |moved| == t.Size() && marked <= recalc
    requires forall i :: 0 <= i < |xs| && i !in Touched(t, nonLeaf, marked) ==> moved[i] == xs[i] + shift
    ensures forall m :: 0 <= m < t.Size() && moved[m] != xs[m] + shift ==> m in ChangedSet(t, recalc)
  {
    forall m | 0 <= m < t.Size() && moved[m] != xs[m] + shift
      ensures m in ChangedSet(t, recalc)
    {
      TouchedIsChanged(t, nonLeaf, marked, recalc, m);
    }
  }

  /**
    The style values after a relayout: every node with triggering changes
    takes what the property cache reports now, every other node keeps its
    stored values.
  */
  ghost predicate StylesRefreshed(l: Layout, after: Layout, filtered: map<NodeId, Changes>, styles: seq<NodeStyle>)
    requires l.Valid() && after.Valid() && after.t == l.t && |styles| == l.t.Size()
  {
    forall n :: 0 <= n < l.t.Size() ==>
      if n in filtered then
        && after.positions[n] == styles[n].position && after.grows[n] == FlexGrow.FlexGrowFactor(styles[n].flexGrow)
        && after.dirs[n] == styles[n].direction && after.justify[n] == styles[n].justify
      else
        && after.positions[n] == l.positions[n] && after.grows[n] == l.grows[n]
        && after.dirs[n] == l.dirs[n] && after.justify[n] == l.justify[n]
  }

  /**
    The report of a relayout is complete: every node whose size record
    differs from before is reported, except that the root's grown part may
    follow the viewport unreported, and every node whose position differs
    from its old one shifted by the change of the origin is reported.
  */
  ghost predicate ChangesReported(l: Layout, after: Layout, changed: set<NodeId>)
    requires l.Valid() && after.Valid() && after.t == l.t
  {
    && (forall m :: 0 <= m < l.t.Size() && after.widths[m] != l.widths[m] ==>
          m in changed || (m == 0 && SameButGrow(after.widths[0], l.widths[0])))
    && (forall m :: 0 <= m < l.t.Size() && after.heights[m] != l.heights[m] ==>
          m in changed || (m == 0 && SameButGrow(after.heights[0], l.heights[0])))
    && (forall m :: 0 <= m < l.t.Size() && after.xs[m] != l.xs[m] - l.bounds.x + after.bounds.x ==> m in changed)
    && (forall m :: 0 <= m < l.t.Size() && after.ys[m] != l.ys[m] - l.bounds.y + after.bounds.y ==> m in changed)
  }

  /** What a relayout leaves behind: the new state and the nodes reported as changed. */
  datatype Relaid = Relaid(layout: Layout, changed: set<NodeId>)

  /**
    The part of `do_the_relayout` past its early exit: the styles of the nodes
    in `filtered` are refreshed, the rules plan what to recompute, both axes
    are solved, and the nodes whose sizes or positions the solving touched
    are reported.
  */
  function Relay(l: Layout, bounds: Finalize.Rect, filtered: map<NodeId, Changes>, styles: seq<NodeStyle>): (r: Relaid)
    requires l.Valid() && |styles| == l.t.Size()
    ensures r.layout.Valid() && r.layout.t == l.t && r.layout.nonLeaf == l.nonLeaf && r.layout.bounds == bounds
    ensures ChangesReported(l, r.layout, r.changed)
    ensures r.layout.widths[0].Total() == FlexGrow.RootSize(r.layout.widths[0].preferred, bounds.width)
    ensures r.layout.heights[0].Total() == FlexGrow.RootSize(r.layout.heights[0].preferred, bounds.height)
    ensures r.layout.intrinsicWidths == l.intrinsicWidths && r.layout.intrinsicHeights == l.intrinsicHeights
    ensures StylesRefreshed(l, r.layout, filtered, styles)
  {
    var styled := UpdateStyles(l, filtered, styles);
    var planned := RuleWalk(l.t, Planned(l.widths, l.heights, StartPlan(bounds.width != l.bounds.width),
                                         StartPlan(bounds.height != l.bounds.height)),
                            l.nonLeaf, filtered, styles, l.intrinsicWidths, l.intrinsicHeights);
    var x := SolveAxis(l.widths, planned.widths, l.xs, l.t, l.nonLeaf, styled.positions, styled.grows, styled.dirs,
                       styled.justify, Horizontal, planned.x, bounds.width, l.bounds.x, bounds.x);
    var y := SolveAxis(l.heights, planned.heights, l.ys, l.t, l.nonLeaf, styled.positions, styled.grows, styled.dirs,
                       styled.justify, Vertical, planned.y, bounds.height, l.bounds.y, bounds.y);
    Relaid(styled.(widths := x.rects, heights := y.rects, xs := x.xs, ys := y.xs, bounds := bounds),
           ChangedSet(l.t, x.recalc) + ChangedSet(l.t, y.recalc))
  }

  /**
    `do_the_relayout`. `styles` is what the property cache reports for every
    node now, `canTrigger` the CSS crate's `can_trigger_relayout`. Nothing
    happens when the bounds are unchanged and no change can trigger a
    relayout. Otherwise every node whose size record changed is reported,
    except that the root's grown part follows the viewport; every node that
    moved other than by the change of the origin is reported too.
  */
  function DoRelayout(l: Layout, bounds: Finalize.Rect, nodes: map<NodeId, seq<Change>>,
                      styles: seq<NodeStyle>, canTrigger: PropType -> bool): (r: Relaid)
    requires l.Valid() && |styles| == l.t.Size()
    ensures r.layout.Valid() && r.layout.t == l.t && r.layout.nonLeaf == l.nonLeaf
    ensures NothingToDo(bounds != l.bounds, nodes, canTrigger) ==> r == Relaid(l, {})
    ensures !NothingToDo(bounds != l.bounds, nodes, canTrigger) ==> r.layout.bounds == bounds
    ensures ChangesReported(l, r.layout, r.changed)
    ensures !NothingToDo(bounds != l.bounds, nodes, canTrigger) ==>
      && r.layout.widths[0].Total() == FlexGrow.RootSize(r.layout.widths[0].preferred, bounds.width)
      && r.layout.heights[0].Total() == FlexGrow.RootSize(r.layout.heights[0].preferred, bounds.height)
    ensures r.layout.intrinsicWidths == l.intrinsicWidths && r.layout.intrinsicHeights == l.intrinsicHeights
    ensures !NothingToDo(bounds != l.bounds, nodes, canTrigger) ==> StylesRefreshed(l, r.layout, FilterNodes(nodes, canTrigger), styles)
  {
    if NothingToDo(bounds != l.bounds, nodes, canTrigger) then Relaid(l, {})
    else Relay(l, bounds, FilterNodes(nodes, canTrigger), styles)
  }

  /** The plan an axis starts from: the root is marked when the viewport changed along the axis. */
  function StartPlan(sizeChanged: bool): (p: AxisPlan)
    ensures p.reposition == {} && p.bubble == map[]
    ensures 0 in p.recalc <==> sizeChanged
    ensures forall m :: m in p.recalc ==> m == 0
  {
    AxisPlan(if sizeChanged then {0} else {}, {}, map[])
  }

  /**
    With the bounds' size unchanged and every non-leaf node's changes free
    of sizes, paddings and margins (changes on leaves, or to flex-grow,
    position, direction or justify-content only), the relayout reports no
    node as changed: none of those changes re-runs flex-grow for anybody.
  */
  lemma NonGeometricChangesReportNothing(l: Layout, bounds: Finalize.Rect, nodes: map<NodeId, seq<Change>>,
                                         styles: seq<NodeStyle>, canTrigger: PropType -> bool)
    requires l.Valid() && |styles| == l.t.Size()
    requires bounds.width == l.bounds.width && bounds.height == l.bounds.height
    requires forall k :: 0 <= k < |l.nonLeaf| && l.nonLeaf[k] in FilterNodes(nodes, canTrigger) ==>
      NonGeometric(FilterNodes(nodes, canTrigger)[l.nonLeaf[k]])
    ensures DoRelayout(l, bounds, nodes, styles, canTrigger).changed == {}
  {
    if !NothingToDo(bounds != l.bounds, nodes, canTrigger) {
      var filtered := FilterNodes(nodes, canTrigger);
      var styled := UpdateStyles(l, filtered, styles);
      var start := Planned(l.widths, l.heights, StartPlan(bounds.width != l.bounds.width),
                           StartPlan(bounds.height != l.bounds.height));
      assert start.x == start.y == AxisPlan({}, {}, map[]);
      var planned := RuleWalk(l.t, start, l.nonLeaf, filtered, styles, l.intrinsicWidths, l.intrinsicHeights);
      assert planned == start;
      var x := SolveAxis(l.widths, planned.widths, l.xs, l.t, l.nonLeaf, styled.positions, styled.grows, styled.dirs,
                         styled.justify, Horizontal, planned.x, bounds.width, l.bounds.x, bounds.x);
      var y := SolveAxis(l.heights, planned.heights, l.ys, l.t, l.nonLeaf, styled.positions, styled.grows, styled.dirs,
                         styled.justify, Vertical, planned.y, bounds.height, l.bounds.y, bounds.y);
      assert x.recalc == {} && y.recalc == {};
      assert Relay(l, bounds, filtered, styles).changed == ChangedSet(l.t, x.recalc) + ChangedSet(l.t, y.recalc);
      assert ChangedSet(l.t, {}) == {};
    }
  }

  /** The listed ids as a set. */
  ghost function Elems(keys: seq<NodeId>): set<NodeId> {
    set k | k in keys
  }

  /** The children of `n` as a set. */
  ghost function Children(t: Tree, n: NodeId): set<NodeId>
    requires t.Valid() && n < t.Size()
  {
    set c | c in t.children[n]
  }

  /** The listed nodes and their children. */
  ghost function Covered(t: Tree, keys: seq<NodeId>): set<NodeId>
    requires t.Valid() && IdsBelow(keys, t.Size())
    decreases |keys|
  {
    if |keys| == 0 then {} else {keys[0]} + Elems(t.children[keys[0]]) + Covered(t, keys[1..])
  }

  /** The listed nodes and their children are the changed set of the list. */
  lemma {:induction false} CoveredIsChangedSet(t: Tree, keys: seq<NodeId>)
    requires t.Valid() && IdsBelow(keys, t.Size())
    ensures Covered(t, keys) == ChangedSet(t, Elems(keys))
    decreases |keys|
  {
    if |keys| == 0 {
      assert ChangedSet(t, Elems(keys)) == {};
    } else {
      ChangedSetCons(t, keys);
      CoveredIsChangedSet(t, keys[1..]);
      assert Elems(t.children[keys[0]]) == Children(t, keys[0]);
    }
  }

  /** The changed set of a list: its head, the head's children, and the changed set of the rest. */
  lemma ChangedSetCons(t: Tree, keys: seq<NodeId>)
    requires t.Valid() && IdsBelow(keys, t.Size()) && |keys| > 0
    ensures ChangedSet(t, Elems(keys)) == {keys[0]} + Children(t, keys[0]) + ChangedSet(t, Elems(keys[1..]))
  {
    var n := keys[0];
    assert Elems(keys) == {n} + Elems(keys[1..]);
    forall c | 0 < c < t.Size()
      ensures t.ParentOf(c) == n <==> c in Children(t, n)
    {
      ChildIffParent(t, n, c);
    }
    forall c | c in Children(t, n)
      ensures 0 < c < t.Size()
    {
      ChildAfterParent(t, n, c);
    }
  }

  /**
    Entries for the children `kids` of `n`, each computed from `n`'s node
    data as written (`fromParent`) or from its own, keeping existing entries.
  */
  function AddChildren<T>(acc: map<NodeId, T>, kids: seq<NodeId>, n: NodeId, fromParent: bool,
                          precalc: (NodeId, NodeId) -> T): (r: map<NodeId, T>)
    ensures r.Keys == acc.Keys + Elems(kids)
    ensures forall c :: c in acc ==> r[c] == acc[c]
    ensures forall c :: c in r && c !in acc ==> r[c] == precalc(if fromParent then n else c, c)
    decreases |kids|
  {
    if |kids| == 0 then acc
    else
      var c := kids[0];
      assert Elems(kids) == {c} + Elems(kids[1..]);
      AddChildren(if c in acc then acc else acc[c := precalc(if fromParent then n else c, c)], kids[1..], n, fromParent, precalc)
  }

  /**
    The offsets map handed to the final positioning: for every listed node,
    in order, an entry for the node computed from its own node data and an
    entry for each child, an existing entry never being replaced. The source
    computes each child's entry from the PARENT's node data
    (`childFromParent`). `precalc(d, n)` is `precalculate_offset` reading
    node data `d` for node `n`.
  */
  function CollectOffsets<T>(t: Tree, keys: seq<NodeId>, acc: map<NodeId, T>, childFromParent: bool,
                             precalc: (NodeId, NodeId) -> T): (r: map<NodeId, T>)
    requires t.Valid() && IdsBelow(keys, t.Size())
    ensures r.Keys == acc.Keys + Covered(t, keys)
    ensures forall c :: c in acc ==> r[c] == acc[c]
    decreases |keys|
  {
    if |keys| == 0 then acc
    else
      var n := keys[0];
      var withNode := if n in acc then acc else acc[n := precalc(n, n)];
      CollectOffsets(t, keys[1..], AddChildren(withNode, t.children[n], n, childFromParent, precalc), childFromParent, precalc)
  }

  /** The ids of `s` are nodes of `t`. */
  ghost predicate SetBelow(s: set<NodeId>, n: nat) {
    forall m :: m in s ==> m < n
  }

  /**
    `all_offsets_to_recalc` as written: an entry for every changed node and
    every child of a changed node.
  */
  function OffsetsToRecalcAsWritten<T>(t: Tree, changed: set<NodeId>, precalc: (NodeId, NodeId) -> T): (r: map<NodeId, T>)
    requires t.Valid() && SetBelow(changed, t.Size())
    ensures r.Keys == ChangedSet(t, changed)
  {
    var keys := KeysBelow(changed, t.Size());
    assert Elems(keys) == changed;
    CoveredIsChangedSet(t, keys);
    CollectOffsets(t, keys, map[], true, precalc)
  }

  /** One step of the map: after the first listed node, an entry present keeps its value to the end. */
  lemma CollectOffsetsStep<T>(t: Tree, keys: seq<NodeId>, acc: map<NodeId, T>, childFromParent: bool,
                              precalc: (NodeId, NodeId) -> T, c: NodeId)
    requires t.Valid() && IdsBelow(keys, t.Size()) && |keys| > 0 && c !in acc
    ensures var n := keys[0];
      var next := AddChildren(if n in acc then acc else acc[n := precalc(n, n)], t.children[n], n, childFromParent, precalc);
      && (c == n ==> CollectOffsets(t, keys, acc, childFromParent, precalc)[c] == precalc(n, n))
      && (c != n && c in t.children[n] ==>
            CollectOffsets(t, keys, acc, childFromParent, precalc)[c] == precalc(if childFromParent then n else c, c))
      && (c !in next ==> CollectOffsets(t, keys, acc, childFromParent, precalc) == CollectOffsets(t, keys[1..], next, childFromParent, precalc))
  {
    var n := keys[0];
    var withNode := if n in acc then acc else acc[n := precalc(n, n)];
    var next := AddChildren(withNode, t.children[n], n, childFromParent, precalc);
    assert CollectOffsets(t, keys, acc, childFromParent, precalc) == CollectOffsets(t, keys[1..], next, childFromParent, precalc);
    if c == n {
      assert withNode[c] == precalc(n, n);
    } else if c in t.children[n] {
      assert c in Elems(t.children[n]);
    }
  }

  /** The tail of an ascending list is ascending. */
  lemma AscendingTail(keys: seq<NodeId>)
    requires |keys| > 0 && Ascending(keys)
    ensures Ascending(keys[1..])
  {
    forall i, j | 0 <= i < j < |keys[1..]|
      ensures keys[1..][i] < keys[1..][j]
    {
      assert keys[1..][i] == keys[i + 1] && keys[1..][j] == keys[j + 1];
    }
  }

  /** A node neither first listed nor its child gets no entry in the first step, which hands the rest over. */
  lemma CollectOffsetsPass<T>(t: Tree, keys: seq<NodeId>, acc: map<NodeId, T>, childFromParent: bool,
                              precalc: (NodeId, NodeId) -> T, c: NodeId)
    requires t.Valid() && IdsBelow(keys, t.Size()) && |keys| > 0 && c !in acc
    requires c != keys[0] && c !in t.children[keys[0]]
    ensures var n := keys[0];
      var next := AddChildren(if n in acc then acc else acc[n := precalc(n, n)], t.children[n], n, childFromParent, precalc);
      && c !in next
      && CollectOffsets(t, keys, acc, childFromParent, precalc) == CollectOffsets(t, keys[1..], next, childFromParent, precalc)
  {
    CollectOffsetsStep(t, keys, acc, childFromParent, precalc, c);
    assert c !in Elems(t.children[keys[0]]);
  }

  /** Anything but the head is listed exactly when it is in the tail. */
  lemma InTail(keys: seq<NodeId>, x: NodeId)
    requires |keys| > 0 && x != keys[0]
    ensures x in keys <==> x in keys[1..]
  {
    assert keys == [keys[0]] + keys[1..];
  }

  /** In an ascending list nothing smaller than the head is listed. */
  lemma AscendingHeadIsLeast(keys: seq<NodeId>, x: NodeId)
    requires |keys| > 0 && Ascending(keys)
    requires x < keys[0]
    ensures x !in keys
  {
    forall k | 0 < k < |keys|
      ensures keys[k] != x
    {
      assert keys[0] < keys[k];
    }
  }

  /**
    In ascending order a parent comes before its children, so a node whose
    parent is listed gets its entry from the parent's node data, even when
    it is listed itself; only the others get their own.
  */
  lemma {:induction false} CollectOffsetsFromParent<T>(t: Tree, keys: seq<NodeId>, acc: map<NodeId, T>,
                                                       precalc: (NodeId, NodeId) -> T, c: NodeId, p: NodeId)
    requires t.Valid() && IdsBelow(keys, t.Size()) && 0 < c < t.Size() && p == t.ParentOf(c)
    requires Ascending(keys)
    requires c in CollectOffsets(t, keys, acc, true, precalc) && c !in acc
    ensures CollectOffsets(t, keys, acc, true, precalc)[c] == precalc(if p in keys then p else c, c)
    decreases |keys|
  {
    var n := keys[0];
    ChildIffParent(t, n, c);
    if c == n {
      CollectOffsetsStep(t, keys, acc, true, precalc, c);
      AscendingHeadIsLeast(keys, p);
    } else if c in t.children[n] {
      CollectOffsetsStep(t, keys, acc, true, precalc, c);
    } else {
      var next := AddChildren(if n in acc then acc else acc[n := precalc(n, n)], t.children[n], n, true, precalc);
      CollectOffsetsPass(t, keys, acc, true, precalc, c);
      var rest := CollectOffsets(t, keys[1..], next, true, precalc);
      assert CollectOffsets(t, keys, acc, true, precalc) == rest;
      InTail(keys, p);
      AscendingTail(keys);
      CollectOffsetsFromParent(t, keys[1..], next, precalc, c, p);
    }
  }

  /** With ascending keys the root always reads its own node data. */
  lemma {:induction false} CollectOffsetsRoot<T>(t: Tree, keys: seq<NodeId>, acc: map<NodeId, T>, precalc: (NodeId, NodeId) -> T)
    requires t.Valid() && IdsBelow(keys, t.Size())
    requires 0 in CollectOffsets(t, keys, acc, true, precalc) && 0 !in acc
    ensures CollectOffsets(t, keys, acc, true, precalc)[0] == precalc(0, 0)
    decreases |keys|
  {
    var n := keys[0];
    CollectOffsetsStep(t, keys, acc, true, precalc, 0);
    if 0 in t.children[n] {
      ChildAfterParent(t, n, 0);
    }
    if n != 0 {
      var next := AddChildren(if n in acc then acc else acc[n := precalc(n, n)], t.children[n], n, true, precalc);
      CollectOffsetsRoot(t, keys[1..], next, precalc);
    }
  }

  /**
    The offsets as written: the root and every node whose parent did not
    change read their own node data; every other entry is computed from the
    parent's node data.
  */
  lemma OffsetsAsWrittenUseParentData<T>(t: Tree, changed: set<NodeId>, precalc: (NodeId, NodeId) -> T, c: NodeId)
    requires t.Valid() && SetBelow(changed, t.Size())
    requires c in OffsetsToRecalcAsWritten(t, changed, precalc)
    ensures 0 < c < t.Size() && t.ParentOf(c) in changed ==> OffsetsToRecalcAsWritten(t, changed, precalc)[c] == precalc(t.ParentOf(c), c)
    ensures (c == 0 || t.ParentOf(c) !in changed) ==> OffsetsToRecalcAsWritten(t, changed, precalc)[c] == precalc(c, c)
  {
    var keys := KeysBelow(changed, t.Size());
    assert c < t.Size();
    if c == 0 {
      CollectOffsetsRoot(t, keys, map[], precalc);
    } else {
      CollectOffsetsFromParent(t, keys, map[], precalc, c, t.ParentOf(c));
    }
  }

  /** Every entry of a map built with each node's own data reads that node's data. */
  lemma {:induction false} CollectOffsetsOwnData<T>(t: Tree, keys: seq<NodeId>, acc: map<NodeId, T>,
                                                    precalc: (NodeId, NodeId) -> T, c: NodeId)
    requires t.Valid() && IdsBelow(keys, t.Size())
    requires c in CollectOffsets(t, keys, acc, false, precalc) && c !in acc
    ensures CollectOffsets(t, keys, acc, false, precalc)[c] == precalc(c, c)
    decreases |keys|
  {
    var n := keys[0];
    var withNode := if n in acc then acc else acc[n := precalc(n, n)];
    var next := AddChildren(withNode, t.children[n], n, false, precalc);
    assert CollectOffsets(t, keys, acc, false, precalc) == CollectOffsets(t, keys[1..], next, false, precalc);
    if c !in next {
      CollectOffsetsOwnData(t, keys[1..], next, precalc, c);
    }
  }

  /** The offsets map with every entry computed from its own node's data. */
  function OffsetsToRecalc<T>(t: Tree, changed: set<NodeId>, precalc: (NodeId, NodeId) -> T): (r: map<NodeId, T>)
    requires t.Valid() && SetBelow(changed, t.Size())
    ensures r.Keys == ChangedSet(t, changed)
    ensures forall c :: c in r ==> r[c] == precalc(c, c)
  {
    var keys := KeysBelow(changed, t.Size());
    assert Elems(keys) == changed;
    CoveredIsChangedSet(t, keys);
    var r := CollectOffsets(t, keys, map[], false, precalc);
    assert forall c :: c in r ==> r[c] == precalc(c, c) by {
      forall c | c in r
        ensures r[c] == precalc(c, c)
      {
        CollectOffsetsOwnData(t, keys, map[], precalc, c);
      }
    }
    r
  }
}

=== FILE: textinput.dfy ===
/**
  The text-input widget's editing state: the text as characters, a cursor
  index and an optional selection, changed by typed characters and by
  virtual keys. Each transition is first applied to a copy, the copy is
  shown to the user's validator, and the real state takes the step only
  when the validator accepts it.

  The transitions are given twice. The `AsWritten` functions follow the
  source step by step, with integer underflow and out-of-range vector
  operations (which panic in a build with overflow checks) as the `Panic`
  outcome. The unsuffixed functions treat the cursor consistently as the
  insertion point between two characters (0 to the text length) and never
  panic; the widget is modelled with those.
*/
module TextInput {
  import opened Wrappers

  /** What is selected: everything, or the characters from `from` up to (excluding) `to`. */
  datatype Selection = All | FromTo(from: nat, to: nat)

  /** A half-open range of character indices. */
  datatype Range = Range(start: nat, end: nat)

  /** `TextInputSelection::get_range`: the selected indices of a text of `len` characters. */
  function GetRange(sel: Selection, len: nat): (r: Range)
    ensures sel.All? ==> r.start == 0 && r.end - r.start == len
    ensures sel.FromTo? ==> r.start == sel.from && r.end == sel.to
  {
    match sel
    case All => Range(0, len)
    case FromTo(from, to) => Range(from, to)
  }

  /** A selection that stays inside a text of `len` characters. */
  predicate SelectionFits(sel: Selection, len: nat) {
    sel.FromTo? ==> sel.from <= sel.to <= len
  }

  /** Within the text, the selected range covers exactly the selected characters. */
  lemma GetRangeWithinText(sel: Selection, len: nat)
    requires SelectionFits(sel, len)
    ensures GetRange(sel, len).start <= GetRange(sel, len).end <= len
    ensures sel.FromTo? ==> GetRange(sel, len).end - GetRange(sel, len).start == sel.to - sel.from
  {
  }

  /** `TextInputState`. `maxLen` is stored but never enforced. */
  datatype State = State(text: seq<char>, placeholder: Option<seq<char>>, maxLen: nat, selection: Option<Selection>, cursor: nat)

  /** The result of a transition as written: the new state, or a panic. */
  datatype Outcome = Done(state: State) | Panic

  /** `usize::saturating_sub(1)`. */
  function Pred(n: nat): (r: nat)
    ensures n == 0 ==> r == 0
    ensures n > 0 ==> r + 1 == n
  {
    if n == 0 then 0 else n - 1
  }

  function Min(a: nat, b: nat): (r: nat)
    ensures r <= a && r <= b && (r == a || r == b)
  {
    if a <= b then a else b
  }

  // ---- the transitions as written

  /**
    `delete_selection` as written. The text is cut at `start` and the new
    character appended; the characters from `end` on are put back only when
    `end` lies before the last index, so a selection ending right before
    the last character loses that character too. An empty text underflows
    `len - 1`. The selection itself is left as it was.
  */
  function DeleteSelectionAsWritten(s: State, start: nat, end: nat, ins: Option<char>): (r: Outcome)
    ensures |s.text| == 0 <==> r.Panic?
    ensures r.Done? ==> r.state.cursor == (if ins.Some? then start + 1 else start)
    ensures r.Done? ==> r.state.selection == s.selection
    ensures r.Done? && end < |s.text| - 1 && start <= |s.text| ==>
      r.state.text == s.text[..start] + (if ins.Some? then [ins.value] else []) + s.text[end..]
    ensures r.Done? && end >= |s.text| - 1 && start <= |s.text| ==>
      r.state.text == s.text[..start] + (if ins.Some? then [ins.value] else [])
  {
    if |s.text| == 0 then Panic
    else
      var last := |s.text| - 1;
      var max := Min(end, last);
      var kept := s.text[..Min(start, |s.text|)];
      var inserted := kept + (if ins.Some? then [ins.value] else []);
      var cursor := if ins.Some? then start + 1 else start;
      if max == last then Done(s.(text := inserted, cursor := cursor))
      else Done(s.(text := inserted + s.text[max..], cursor := cursor))
  }

  /**
    `handle_on_text_input` as written. Without a selection the character
    goes in at the cursor (inserting past the end panics) and the cursor
    moves to `min(cursor + 1, new length - 1)`, which leaves it in place
    when it was at the end. Everything selected is replaced by the
    character; a range is replaced through `delete_selection`.
  */
  function TypeAsWritten(s: State, c: char): (r: Outcome)
    ensures s.selection.None? ==> (r.Panic? <==> s.cursor > |s.text|)
    ensures s.selection.None? && r.Done? ==>
      && r.state.text == s.text[..s.cursor] + [c] + s.text[s.cursor..]
      && r.state.cursor == Min(s.cursor + 1, |s.text|)
    ensures s.selection == Some(All) ==> r == Done(s.(text := [c], cursor := 1, selection := None))
  {
    match s.selection
    case None =>
      if s.cursor == |s.text| then
        Done(s.(text := s.text + [c], cursor := Min(s.cursor + 1, |s.text| + 1 - 1)))
      else if s.cursor > |s.text| then Panic
      else
        var text := s.text[..s.cursor] + [c] + s.text[s.cursor..];
        Done(s.(text := text, cursor := Min(s.cursor + 1, |text| - 1)))
    case Some(All) => Done(s.(text := [c], cursor := 1, selection := None))
    case Some(FromTo(from, to)) => DeleteSelectionAsWritten(s, from, to, Some(c))
  }

  /** The virtual keys the widget reacts to; every other key is `OtherKey`. */
  datatype VirtualKey = Back | Return | Home | End | Tab | Escape | Right | Left | KeyA | OtherKey(code: nat)

  datatype KeyboardState = KeyboardState(shiftDown: bool, ctrlDown: bool)

  /**
    `handle_on_virtual_key_down` as written. Back without a selection
    deletes the character AT the cursor (popping when the cursor is on the
    last index), so it panics on an empty text (`len - 1` underflows) and
    when the cursor is at the end. Tab only moves the focus, which is not
    part of this state.
  */
  function KeyAsWritten(s: State, key: VirtualKey, kb: KeyboardState): (r: Outcome)
    ensures key.Back? && s.selection.None? ==> (r.Panic? <==> s.cursor >= |s.text|)
    ensures key.Back? && s.selection.None? && r.Done? ==>
      r.state.text == s.text[..s.cursor] + s.text[s.cursor + 1..] && r.state.cursor == Pred(s.cursor)
    ensures key.Back? && s.selection == Some(All) ==> r == Done(s.(text := [], cursor := 0, selection := None))
    ensures key.Back? && s.selection.Some? && s.selection.value.FromTo? ==>
      r == DeleteSelectionAsWritten(s, s.selection.value.from, s.selection.value.to, None)
    ensures !key.Back? ==> r.Done? && r.state.text == s.text
    ensures key.Home? ==> r == Done(s.(cursor := 0, selection := None))
    ensures key.End? ==> r == Done(s.(cursor := Pred(|s.text|), selection := None))
    ensures key.Escape? ==> r == Done(s.(selection := None))
    ensures key.Right? ==> r == Done(s.(cursor := Min(s.cursor + 1, |s.text|)))
    ensures key.Left? ==> r == Done(s.(cursor := Min(Pred(s.cursor), |s.text|)))
    ensures key.KeyA? && kb.ctrlDown ==> r == Done(s.(selection := Some(All)))
    ensures key.Return? || key.Tab? || key.OtherKey? || (key.KeyA? && !kb.ctrlDown) ==> r == Done(s)
  {
    match key
    case Back =>
      (match s.selection
       case None =>
         if |s.text| == 0 then Panic
         else if s.cursor == |s.text| - 1 then Done(s.(text := s.text[..|s.text| - 1], cursor := Pred(s.cursor)))
         else if s.cursor >= |s.text| then Panic
         else Done(s.(text := s.text[..s.cursor] + s.text[s.cursor + 1..], cursor := Pred(s.cursor)))
       case Some(All) => Done(s.(text := [], cursor := 0, selection := None))
       case Some(FromTo(from, to)) => DeleteSelectionAsWritten(s, from, to, None))
    case Return => Done(s)
    case Home => Done(s.(cursor := 0, selection := None))
    case End => Done(s.(cursor := Pred(|s.text|), selection := None))
    case Tab => Done(s)
    case Escape => Done(s.(selection := None))
    case Right => Done(s.(cursor := Min(s.cursor + 1, |s.text|)))
    case Left => Done(s.(cursor := Min(Pred(s.cursor), |s.text|)))
    case KeyA => if kb.ctrlDown then Done(s.(selection := Some(All))) else Done(s)
    case OtherKey(_) => Done(s)
  }

  /** Typing "a" and then "b" into an empty field gives "ba": the cursor stays in front of the first character. */
  lemma TypingAsWrittenReverses(placeholder: Option<seq<char>>, maxLen: nat)
    ensures var empty := State([], placeholder, maxLen, None, 0);
      && TypeAsWritten(empty, 'a') == Done(empty.(text := ['a'], cursor := 0))
      && TypeAsWritten(TypeAsWritten(empty, 'a').state, 'b').Done?
      && TypeAsWritten(TypeAsWritten(empty, 'a').state, 'b').state.text == ['b', 'a']
  {
    var one := State(['a'], placeholder, maxLen, None, 0);
    assert one.text[..0] + ['b'] + one.text[0..] == ['b', 'a'];
  }

  /** Back in an empty field without a selection panics. */
  lemma BackAsWrittenPanicsWhenEmpty(s: State, kb: KeyboardState)
    requires s.text == [] && s.selection.None?
    ensures KeyAsWritten(s, Back, kb).Panic?
  {
  }

  /**
    A selection ending right before the last character takes the last
    character with it: the source keeps `text[..start]` and the new
    character only.
  */
  lemma DeleteSelectionAsWrittenDropsLast(s: State, start: nat, ins: Option<char>)
    requires |s.text| > 0 && start < |s.text|
    ensures var r := DeleteSelectionAsWritten(s, start, |s.text| - 1, ins);
      && r.Done?
      && r.state.text == s.text[..start] + (if ins.Some? then [ins.value] else [])
      && |r.state.text| == start + (if ins.Some? then 1 else 0)
  {
  }

  /**
    End as written puts the cursor on the last character instead of after
    it, so the next typed character goes in front of the last one: "ab",
    End, "c" gives "acb".
  */
  lemma EndAsWrittenTypesBeforeLast(placeholder: Option<seq<char>>, maxLen: nat, kb: KeyboardState)
    ensures var s := State(['a', 'b'], placeholder, maxLen, None, 0);
      && KeyAsWritten(s, End, kb) == Done(s.(cursor := 1))
      && TypeAsWritten(s.(cursor := 1), 'c') == Done(s.(text := ['a', 'c', 'b'], cursor := 2))
  {
    var s := State(['a', 'b'], placeholder, maxLen, None, 1);
    assert s.text[..1] + ['c'] + s.text[1..] == ['a', 'c', 'b'];
  }

  /**
    `delete_selection` leaves a range selection in place, so a second Back
    deletes the same range again: "abcd" with 0..1 selected loses "a", then
    "b".
  */
  lemma BackAsWrittenDeletesSelectionTwice(placeholder: Option<seq<char>>, maxLen: nat, kb: KeyboardState)
    ensures var s := State(['a', 'b', 'c', 'd'], placeholder, maxLen, Some(FromTo(0, 1)), 0);
      && KeyAsWritten(s, Back, kb) == Done(s.(text := ['b', 'c', 'd']))
      && KeyAsWritten(s.(text := ['b', 'c', 'd']), Back, kb) == Done(s.(text := ['c', 'd']))
  {
    var s := State(['a', 'b', 'c', 'd'], placeholder, maxLen, Some(FromTo(0, 1)), 0);
    assert s.text[..0] + s.text[1..] == ['b', 'c', 'd'];
    var t := s.(text := ['b', 'c', 'd']);
    assert t.text[..0] + t.text[1..] == ['c', 'd'];
  }

  // ---- the transitions with the cursor as insertion point

  /** The cursor lies between two characters (or at either end) and a range selection lies inside the text. */
  predicate Valid(s: State) {
    s.cursor <= |s.text| && (s.selection.Some? ==> SelectionFits(s.selection.value, |s.text|))
  }

  /** The characters before `start`, then `ins`, then the characters from `end` on. */
  function Splice(text: seq<char>, start: nat, end: nat, ins: seq<char>): (r: seq<char>)
    requires start <= end <= |text|
    ensures |r| == |text| - (end - start) + |ins|
    ensures r[..start] == text[..start] && r[start..start + |ins|] == ins && r[start + |ins|..] == text[end..]
  {
    text[..start] + ins + text[end..]
  }

  /**
    `delete_selection`: the range is removed, the new character (if any)
    put in its place, the cursor placed after it, and the selection
    cleared.
  */
  function DeleteSelection(s: State, start: nat, end: nat, ins: Option<char>): (r: State)
    requires start <= end <= |s.text|
    ensures Valid(r)
    ensures r.text == Splice(s.text, start, end, if ins.Some? then [ins.value] else [])
    ensures r.cursor == start + (if ins.Some? then 1 else 0) && r.selection.None?
  {
    var ins := if ins.Some? then [ins.value] else [];
    s.(text := Splice(s.text, start, end, ins), cursor := start + |ins|, selection := None)
  }

  /** A typed character: inserted at the cursor, the cursor moving past it; a selection is replaced by it. */
  function Type(s: State, c: char): (r: State)
    requires Valid(s)
    ensures Valid(r) && r.selection.None?
    ensures s.selection.None? ==> r.text == Splice(s.text, s.cursor, s.cursor, [c]) && r.cursor == s.cursor + 1
    ensures s.selection == Some(All) ==> r.text == [c] && r.cursor == 1
    ensures |r.text| >= 1
  {
    match s.selection
    case None => s.(text := Splice(s.text, s.cursor, s.cursor, [c]), cursor := s.cursor + 1)
    case Some(All) => s.(text := [c], cursor := 1, selection := None)
    case Some(FromTo(from, to)) => DeleteSelection(s, from, to, Some(c))
  }

  /**
    A virtual key. Back removes the character before the cursor (nothing at
    the start), the selected characters, or everything; End moves past the
    last character; the other keys act as in the source.
  */
  function Key(s: State, key: VirtualKey, kb: KeyboardState): (r: State)
    requires Valid(s)
    ensures Valid(r)
    ensures !key.Back? ==> r.text == s.text
    ensures key.Back? && s.selection.None? && s.cursor > 0 ==>
      r.text == Splice(s.text, s.cursor - 1, s.cursor, []) && r.cursor == s.cursor - 1
    ensures key.Back? && s.selection.None? && s.cursor == 0 ==> r == s
    ensures key.Back? && s.selection == Some(All) ==> r == s.(text := [], cursor := 0, selection := None)
    ensures key.Back? && s.selection.Some? && s.selection.value.FromTo? ==>
      r == DeleteSelection(s, s.selection.value.from, s.selection.value.to, None)
    ensures key.End? ==> r == s.(cursor := |s.text|, selection := None)
    ensures key.Home? ==> r == s.(cursor := 0, selection := None)
    ensures key.Escape? ==> r == s.(selection := None)
    ensures key.Right? ==> r == s.(cursor := Min(s.cursor + 1, |s.text|))
    ensures key.Left? ==> r == s.(cursor := Pred(s.cursor))
    ensures key.KeyA? && kb.ctrlDown ==> r == s.(selection := Some(All))
    ensures key.Return? || key.Tab? || key.OtherKey? || (key.KeyA? && !kb.ctrlDown) ==> r == s
  {
    match key
    case Back =>
      (match s.selection
       case None => if s.cursor == 0 then s else s.(text := Splice(s.text, s.cursor - 1, s.cursor, []), cursor := s.cursor - 1)
       case Some(All) => s.(text := [], cursor := 0, selection := None)
       case Some(FromTo(from, to)) => DeleteSelection(s, from, to, None))
    case End => s.(cursor := |s.text|, selection := None)
    case _ => KeyAsWritten(s, key, kb).state
  }

  /** Typing a character and pressing Back gives the text and the cursor back. */
  lemma TypeThenBackRestores(s: State, c: char, kb: KeyboardState)
    requires Valid(s) && s.selection.None?
    ensures Key(Type(s, c), Back, kb) == s
  {
    var typed := Type(s, c);
    assert typed.text[..s.cursor] + typed.text[s.cursor + 1..] == s.text;
  }

  /** After End, a typed character is appended to the text. */
  lemma EndThenTypeAppends(s: State, c: char, kb: KeyboardState)
    requires Valid(s)
    ensures Type(Key(s, End, kb), c).text == s.text + [c]
    ensures Type(Key(s, End, kb), c).cursor == |s.text| + 1
  {
    assert s.text[..|s.text|] == s.text;
  }

  /**
    Back on a range selection consumes the selection: the cursor is left at
    the start of the removed range, and a second Back removes only the
    character before it.
  */
  lemma BackConsumesSelection(s: State, kb: KeyboardState)
    requires Valid(s) && s.selection.Some? && s.selection.value.FromTo?
    ensures var once := Key(s, Back, kb);
      && once.selection.None? && once.cursor == s.selection.value.from
      && |once.text| == |s.text| - (s.selection.value.to - s.selection.value.from)
      && (once.cursor > 0 ==> |Key(once, Back, kb).text| == |once.text| - 1)
      && (once.cursor == 0 ==> Key(once, Back, kb) == once)
  {
  }

  /** Typing the characters of `str` one after another. */
  function TypeAll(s: State, str: seq<char>): (r: State)
    requires Valid(s)
    ensures Valid(r)
    decreases |str|
  {
    if |str| == 0 then s else TypeAll(Type(s, str[0]), str[1..])
  }

  /** Typed characters end up in the text in the order they were typed, at the cursor, with the cursor after them. */
  lemma {:induction false} TypeAllInserts(s: State, str: seq<char>)
    requires Valid(s) && s.selection.None?
    ensures TypeAll(s, str).text == Splice(s.text, s.cursor, s.cursor, str)
    ensures TypeAll(s, str).cursor == s.cursor + |str|
    decreases |str|
  {
    if |str| > 0 {
      var next := Type(s, str[0]);
      TypeAllInserts(next, str[1..]);
      assert next.text[..s.cursor + 1] == s.text[..s.cursor] + [str[0]];
      assert next.text[s.cursor + 1..] == s.text[s.cursor..];
      assert s.text[..s.cursor] + [str[0]] + str[1..] == s.text[..s.cursor] + str;
    }
  }

  /** Away from the end of the text, typing as written agrees with the insertion-point model. */
  lemma TypeAsWrittenAgreesBeforeEnd(s: State, c: char)
    requires Valid(s) && s.selection.None? && s.cursor < |s.text|
    ensures TypeAsWritten(s, c) == Done(Type(s, c))
  {
  }

  /** For a selection ending before the last index, `delete_selection` as written agrees apart from clearing the selection. */
  lemma DeleteSelectionAsWrittenAgreesInside(s: State, start: nat, end: nat, ins: Option<char>)
    requires start <= end < |s.text| - 1
    ensures DeleteSelectionAsWritten(s, start, end, ins) == Done(DeleteSelection(s, start, end, ins).(selection := s.selection))
  {
  }

  // ---- the callbacks: apply to a copy, ask the validator, commit on yes

  /** `Update`: what the framework should do after a callback. */
  datatype Update = DoNothing | RefreshDom | RefreshDomAllWindows

  /** `OnTextInputReturn`: the user's answer for the proposed state. */
  datatype CallbackReturn = CallbackReturn(update: Update, valid: bool)

  /** What a callback leaves: the widget state, the update, and the new label text if it was set. */
  datatype Handled = Handled(state: State, update: Update, labelText: Option<seq<char>>)

  /**
    The commit-if-valid pattern: the user's callback (if any) sees the
    proposed state; without a callback the answer is "valid, do nothing".
    The widget takes the proposed state exactly when the answer is valid.
  */
  function CommitIfValid(s: State, proposed: State, callback: Option<State -> CallbackReturn>): (r: (State, Update))
    ensures callback.None? ==> r == (proposed, DoNothing)
    ensures callback.Some? ==> r.1 == callback.value(proposed).update
    ensures callback.Some? ==> r.0 == (if callback.value(proposed).valid then proposed else s)
  {
    var answer := if callback.Some? then callback.value(proposed) else CallbackReturn(DoNothing, true);
    (if answer.valid then proposed else s, answer.update)
  }

  /** Every typed character changes the state, so a committed state can be told from a rejected one. */
  lemma TypeChangesState(s: State, c: char)
    requires Valid(s)
    ensures Type(s, c) != s
  {
    if s.selection.None? {
      assert |Type(s, c).text| == |s.text| + 1;
    }
  }

  /**
    `default_on_text_input`: without a character or without the label node
    nothing happens; otherwise the typed character is proposed, committed
    when valid, and the label shows the widget's text.
  */
  function OnTextInput(s: State, ch: Option<char>, hasLabel: bool, callback: Option<State -> CallbackReturn>): (r: Handled)
    requires Valid(s)
    ensures Valid(r.state)
    ensures ch.None? || !hasLabel ==> r == Handled(s, DoNothing, None)
    ensures ch.Some? && hasLabel ==> r.labelText == Some(r.state.text)
    ensures ch.Some? && hasLabel ==>
      (r.state == Type(s, ch.value) <==> callback.None? || callback.value(Type(s, ch.value)).valid)
    ensures ch.Some? && hasLabel && r.state != Type(s, ch.value) ==> r.state == s
    ensures ch.Some? && hasLabel ==>
      r.update == (if callback.Some? then callback.value(Type(s, ch.value)).update else DoNothing)
  {
    if ch.None? || !hasLabel then Handled(s, DoNothing, None)
    else
      TypeChangesState(s, ch.value);
      var committed := CommitIfValid(s, Type(s, ch.value), callback);
      Handled(committed.0, committed.1, Some(committed.0.text))
  }

  /** `default_on_virtual_key_down`: the same pattern for a virtual key, without touching the label. */
  function OnVirtualKeyDown(s: State, key: Option<VirtualKey>, kb: KeyboardState, callback: Option<State -> CallbackReturn>): (r: Handled)
    requires Valid(s)
    ensures Valid(r.state) && r.labelText.None?
    ensures key.None? ==> r == Handled(s, DoNothing, None)
    ensures key.Some? ==> r.state == Key(s, key.value, kb) || r.state == s
    ensures key.Some? && (callback.None? || callback.value(Key(s, key.value, kb)).valid) ==> r.state == Key(s, key.value, kb)
    ensures key.Some? && callback.Some? && !callback.value(Key(s, key.value, kb)).valid ==> r.state == s
    ensures key.Some? ==> r.update == (if callback.Some? then callback.value(Key(s, key.value, kb)).update else DoNothing)
  {
    if key.None? then Handled(s, DoNothing, None)
    else
      var committed := CommitIfValid(s, Key(s, key.value, kb), callback);
      Handled(committed.0, committed.1, None)
  }
}

=== FILE: tree.dfy ===
/**
  The node arena the layout solver works on: dense node ids, the hierarchy,
  the per-node style enums, and the per-axis "calculated rect" record that
  the width pass and the height pass share.
*/
module LayoutTree {
  import opened Wrappers
  import opened Constraints

  /** Index into the per-node arrays; node 0 is the root. */
  type NodeId = nat

  /** The axis being solved. */
  datatype Axis = Horizontal | Vertical

  /** CSS `position`. */
  datatype LayoutPosition = Static | Relative | Absolute | Fixed

  /** CSS `flex-direction`. */
  datatype FlexDirection = Row | RowReverse | Column | ColumnReverse {

    /** The main axis of a container with this direction. */
    function GetAxis(): Axis {
      if Row? || RowReverse? then Horizontal else Vertical
    }

    predicate IsReverse() {
      RowReverse? || ColumnReverse?
    }
  }

  /** CSS `justify-content`. */
  datatype JustifyContent = Start | End | Center | SpaceBetween | SpaceAround | SpaceEvenly

  /**
    The hierarchy: `parent[i]` is the parent of node `i`, `children[i]` its
    children in document order. Nodes are stored in pre-order, so a parent
    always has a smaller id than its children.
  */
  datatype Tree = Tree(parent: seq<Option<NodeId>>, children: seq<seq<NodeId>>) {

    function Size(): nat {
      |parent|
    }

    ghost predicate Valid() {
      && |parent| == |children|
      && |parent| > 0
      && parent[0] == None
      && (forall i :: 0 < i < |parent| ==> parent[i].Some? && parent[i].value < i)
      && (forall p, k :: 0 <= p < |children| && 0 <= k < |children[p]| ==>
            children[p][k] < |parent| && parent[children[p][k]] == Some(p))
      && (forall p, j, k :: 0 <= p < |children| && 0 <= j < k < |children[p]| ==>
            children[p][j] != children[p][k])
      && (forall i :: 0 < i < |parent| ==> i in children[parent[i].value])
    }

    /** The parent of a non-root node. */
    function ParentOf(n: NodeId): (p: NodeId)
      requires Valid() && 0 < n < Size()
      ensures p < n && n in children[p]
    {
      parent[n].value
    }
  }

  /** Every listed id is a valid index of arrays of length `n`. */
  ghost predicate IdsBelow(ids: seq<NodeId>, n: nat) {
    forall k :: 0 <= k < |ids| ==> ids[k] < n
  }

  /** The children of `p` are exactly the nodes whose parent is `p`. */
  lemma ChildIffParent(t: Tree, p: NodeId, c: NodeId)
    requires t.Valid() && p < t.Size() && c < t.Size()
    ensures c in t.children[p] <==> t.parent[c] == Some(p)
  {
    if c in t.children[p] {
      var k :| 0 <= k < |t.children[p]| && t.children[p][k] == c;
    }
  }

  /** Every child has a larger id than its parent, so the root is nobody's child. */
  lemma ChildAfterParent(t: Tree, p: NodeId, c: NodeId)
    requires t.Valid() && p < t.Size() && c in t.children[p]
    ensures p < c < t.Size()
  {
    var k :| 0 <= k < |t.children[p]| && t.children[p][k] == c;
  }

  /**
    The per-node, per-axis record of the solver (`WidthCalculatedRect` /
    `HeightCalculatedRect`); margins and paddings are resolved pixels, the
    CSS `left`/`right` (or `top`/`bottom`) offsets stay optional.
  */
  datatype AxisRect = AxisRect(
    preferred: WhConstraint,
    marginStart: real,
    marginEnd: real,
    paddingStart: real,
    paddingEnd: real,
    posStart: Option<real>,
    posEnd: Option<real>,
    flexGrowPx: real,
    minInnerSizePx: real)
  {
    /** The solved size of the node. */
    function Total(): real {
      minInnerSizePx + flexGrowPx
    }

    function Padding(): real {
      paddingStart + paddingEnd
    }

    /** What the node contributes to its parent's minimum inner size. */
    function FlexBasis(): real {
      preferred.MinNeededSpace().GetOr(0.0) + marginStart + marginEnd
    }

    /** The same record with `flex_grow_px` chosen so that the total is `size`. */
    function WithTotal(size: real): (r: AxisRect)
      ensures r.Total() == size
      ensures SameButGrow(r, this)
    {
      this.(flexGrowPx := size - minInnerSizePx)
    }
  }

  /** A fresh record: everything zero and unconstrained (`Default`). */
  const EmptyRect: AxisRect := AxisRect(Unconstrained, 0.0, 0.0, 0.0, 0.0, None, None, 0.0, 0.0)

  /** Two records agree in everything but `flex_grow_px`. */
  predicate SameButGrow(x: AxisRect, y: AxisRect) {
    x.(flexGrowPx := y.flexGrowPx) == y
  }

  /** Two arenas differ at most in the `flex_grow_px` of the nodes in `touched`. */
  ghost predicate OnlyGrowChanged(a: seq<AxisRect>, b: seq<AxisRect>, touched: set<NodeId>) {
    && |a| == |b|
    && (forall i :: 0 <= i < |a| && i !in touched ==> b[i] == a[i])
    && (forall i :: 0 <= i < |a| ==> SameButGrow(b[i], a[i]))
  }

  lemma OnlyGrowChangedTrans(a: seq<AxisRect>, b: seq<AxisRect>, c: seq<AxisRect>, s1: set<NodeId>, s2: set<NodeId>)
    requires OnlyGrowChanged(a, b, s1) && OnlyGrowChanged(b, c, s2)
    ensures OnlyGrowChanged(a, c, s1 + s2)
  {
    forall i | 0 <= i < |a|
      ensures SameButGrow(c[i], a[i])
    {
      assert SameButGrow(c[i], b[i]);
    }
  }

  lemma OnlyGrowChangedWeaken(a: seq<AxisRect>, b: seq<AxisRect>, s1: set<NodeId>, s2: set<NodeId>)
    requires OnlyGrowChanged(a, b, s1) && s1 <= s2
    ensures OnlyGrowChanged(a, b, s2)
  {
  }

  /**
    The anchor of absolutely positioned descendants of `n`: the nearest of `n`
    and its ancestors whose position is not static, or the root when there is
    none. Every node strictly between `n` and the anchor is static.
  */
  function NearestPositioned(t: Tree, positions: seq<LayoutPosition>, n: NodeId): (a: NodeId)
    requires t.Valid() && |positions| == t.Size() && n < t.Size()
    ensures a <= n
    ensures a == 0 || positions[a] != Static
    ensures StaticPathTo(t, positions, n, a)
    decreases n
  {
    if n == 0 || positions[n] != Static then n
    else NearestPositioned(t, positions, t.ParentOf(n))
  }

  /** Walking up from `n`, every node before reaching `a` is static and not the root. */
  ghost predicate StaticPathTo(t: Tree, positions: seq<LayoutPosition>, n: NodeId, a: NodeId)
    requires t.Valid() && |positions| == t.Size() && n < t.Size()
    decreases n
  {
    n == a || (n != 0 && positions[n] == Static && StaticPathTo(t, positions, t.ParentOf(n), a))
  }

  /** The anchor is unique: there is only one positioned-or-root end of a static path. */
  lemma {:induction false} NearestPositionedUnique(t: Tree, positions: seq<LayoutPosition>, n: NodeId, a: NodeId)
    requires t.Valid() && |positions| == t.Size() && n < t.Size()
    requires a < t.Size() && StaticPathTo(t, positions, n, a) && (a == 0 || positions[a] != Static)
    ensures a == NearestPositioned(t, positions, n)
    decreases n
  {
    if n != a {
      NearestPositionedUnique(t, positions, t.ParentOf(n), a);
    }
  }

  /** The children of the parents in `order` that are marked for recalculation. */
  ghost function Touched(t: Tree, order: seq<NodeId>, recalc: set<NodeId>): set<NodeId>
    requires t.Valid() && IdsBelow(order, t.Size())
    decreases |order|
  {
    if |order| == 0 then {}
    else (if order[0] in recalc then set c | c in t.children[order[0]] else {}) + Touched(t, order[1..], recalc)
  }

  /** The root is nobody's child, so the walk never touches it. */
  lemma {:induction false} RootNeverTouched(t: Tree, order: seq<NodeId>, recalc: set<NodeId>)
    requires t.Valid() && IdsBelow(order, t.Size())
    ensures 0 !in Touched(t, order, recalc)
    decreases |order|
  {
    if |order| > 0 {
      RootNeverTouched(t, order[1..], recalc);
    }
  }
}

=== FILE: wrappers.dfy ===
/** The optional-value type shared by every module of the model. */
module Wrappers {

  /** A value that may be absent, as Rust's `Option`. */
  datatype Option<+T> = None | Some(value: T) {

    /** The carried value, or `default` when absent (`unwrap_or`). */
    function GetOr(default: T): T {
      match this
      case Some(v) => v
      case None => default
    }
  }
}
